=== FILE: README.md ===
# Deployer recipe for Magento 2: task bodies as pure functions

This project models the decision and command-building logic of the studioraz
Deployer recipe for Magento 2. It covers the recipe's task bodies, its variable
defaults and its status probes. Each task body is a pure function. It takes the
configuration variables it reads (`Vars`) and what the current host and the
control machine answer (`Host`: exit codes, `test` answers and command output).
It returns a `Trace`: the effects it issued in order (`Run`, `RunLocally`,
`Upload`, `Download`, `Invoke`, `Set`, ...), the console lines it wrote, and
how it ended (`Completed`, `Failed` with the reason, or `GracefulShutdown`).

Modules, one per part of the recipe:

- `Php`: the PHP values and built-ins the bodies rely on. These are truthiness,
  string conversion, `trim`, `explode`/`implode`, `dirname`, `escapeshellarg`,
  `filter_var(..., FILTER_VALIDATE_BOOLEAN)` and `array_is_list`.
- `Effects`: variables (`get` with and without a default), hosts, traces, `run`
  with its stop-on-non-zero rule, and a small interpreter for straight-line
  bodies (`Perform`). Its generic lemmas give ordering and "issued exactly
  when" facts.
- `Config`: the default variables and the two sentinel-exit-code probes
  (`config_import_needed`, `database_upgrade_needed`). Also the `magento_version`
  probe with its `2.0` fallback.
- `Magento`: the maintenance, configuration import and database upgrade gates of
  `deploy:magento`.
- `Assets`: `magento:deploy:assets`, `magentoDeployAssetsSplit`, the content
  version sync and the Hyva hook.
- `CachePrefix`: the `id_prefix` and Redis preload-key rewrite of
  `magento:set_cache_prefix`.
- `Artifact`: the artifact recipe. This is the pattern files, `artifact_path`,
  `bin/tar`, the package command, the build tasks and the task lists.
- `Migration`: `migration:shared:rearrange`, `migration:deploy:shared` and
  `migration:shared:dry-run`.
- `DbPull`: `db:pull`.
- `FileTransfer`: `file:upload` and `file:downlaod`.
- `Hyva`: `hyva:tailwind:build:`.

Recorded facts about the source. None of these is modelled as behaviour.

- The Hyva task is registered as `hyva:tailwind:build:`, with a trailing colon
  (src/tasks/hyva-tailwind-build.php:12). The hook invokes `hyva:tailwind:build`
  (src/recipe/base.php:136). The model keeps both names as written
  (`Hyva.TaskName` and `Assets.HyvaHookTarget`).
- The download task is registered as `file:downlaod` (src/tasks/file-download.php:32).
- Several functions are called in namespace `SR\Deployer` without a matching
  `use function` import:
  - `has` (src/recipe/base.php:210);
  - `output` and `parse` (src/tasks/migration-shared-rearrange.php:48 and 66);
  - `writeln` (src/tasks/config-data-import.php:17).

  The model gives `output` and `parse` the meaning the Deployer functions have.
  Debug verbosity becomes a parameter, and `parse` is the identity on its string
  argument.

## Model

| member | source | states |
|---|---|---|
| Config.ConfigImportNeeded | src/recipe/config.php:123-135 | false exactly when `app:config:status` exits 0, true exactly when it exits with the sentinel 2, and the command's failure for any other exit code |
| Config.DatabaseUpgradeNeeded | src/recipe/config.php:137-150 | the same three outcomes for `setup:db:status` and its sentinel 2 |
| Config.StatusProbesNeverSwallowErrors | src/recipe/config.php:127-132 | whenever a probe yields a value it is a boolean and the command exited 0 or with the sentinel |
| Config.IndexOf | src/recipe/config.php:119 | the position found holds the character and none before it does; nothing is found exactly when the character is absent |
| Config.Leftmost | src/recipe/config.php:119 | the start found is the smallest from which the pattern matches up to the end position; none means no start matches |
| Config.VersionFromOutput | src/recipe/config.php:119-120 | either no suffix of the output (up to a final newline) is a version and the result is `2.0`, or the result is the longest such suffix |
| Config.MagentoVersion | src/recipe/config.php:116-121 | a failing version command is the error; output without a trailing version gives `2.0` |
| Config.VersionTextChars | src/recipe/config.php:119 | a version holds only digits, dots, `-` and `p` |
| Config.PatchedVersion | src/recipe/config.php:119 | a version number followed by `-p` and digits is a version |
| Config.TrailingVersion | src/recipe/config.php:116-121 | output ending in a space and a version yields exactly that version, with or without a final newline |
| Config.TrailingVersionAt | src/recipe/config.php:119 | when the character before a matching suffix cannot occur in a version, the match starts right after it |
| Config.DefaultSwitches | src/recipe/config.php:48-63 | split deployment and zero-downtime default to on, the backend deploys `Magento/backend` with the default locales, and the theme list is empty |
| Config.DefaultPathsUnderMagentoDir | src/recipe/config.php:79-112 | every default shared file, shared directory, writable directory and clear path starts with `{{magento_dir}}/` |
| Magento.MaintenanceEnableIfNeeded | src/recipe/base.php:154-158 | maintenance is invoked exactly when zero-downtime is off, a database upgrade is needed or a config import is needed, and otherwise only the up-to-date message is written; with zero-downtime off the status variables are not read |
| Magento.ConfigImport | src/recipe/base.php:161-167 | the import runs exactly when `config_import_needed` is truthy; otherwise only the skip message is written; a failing variable ends the body first |
| Magento.UpgradeDb | src/recipe/base.php:173-180 | when an upgrade is needed the schema upgrade runs before the data upgrade, and a failing schema upgrade stops the data upgrade; otherwise only the skip message is written |
| Magento.ConfigImportFromProbe | src/recipe/base.php:161-167 | composed with its probe, the import runs exactly when `app:config:status` exits 2, is skipped when it exits 0, and any other exit code ends the task with that failure before any of the task's own commands (the failing status command itself has already run) |
| Magento.UpgradeDbFromProbe | src/recipe/base.php:173-180 | composed with its probe, both upgrades run exactly when `setup:db:status` exits 2, are skipped when it exits 0, and any other exit code ends the task with that failure before any of the task's own commands (the failing status command itself has already run) |
| Assets.ThemeFlagsJoined | src/recipe/base.php:62-64 | the flags the loop accumulates are one space followed by the tagged theme names joined by spaces |
| Assets.ThemeFlagsWords | src/recipe/base.php:62-64 | split into shell words, the accumulated flags are `-t` and the theme name for each theme in order |
| Assets.ImplodedFlags | src/recipe/base.php:110 | for a non-empty list, `'-t ' . implode(' -t ', $themes)` is the loop's flags without the leading space (the empty list is Assets.EmptyListBareTag's case) |
| Assets.ImplodedFlagsWords | src/recipe/base.php:110 | for a non-empty list, its shell words are `-t` and the name for each theme in order |
| Assets.EmptyListArgsWords | src/recipe/base.php:110-112 | for an empty list the arguments as written are the single word `-t`, and the command's words are the head, the languages, that `-t` and the job tail |
| Assets.EmptyListBareTag | src/recipe/base.php:110-112 | for an empty list the command as written has a bare `-t` followed directly by `-j`, with no theme word between them (`ThemesIn`, which reads the word after each `-t`, yields `["-j"]`); how Magento's console parses that is not modelled |
| Assets.ListThemeArgsWords | src/recipe/base.php:110 | the corrected list arguments are `-t` and the name for each theme in order, and no word at all for an empty list |
| Assets.SingleThemeCommand | src/recipe/base.php:115-119 | a per-theme command's words are the head, its languages, `-t` with that theme, and the job tail; its only theme value is that theme |
| Assets.ThemesInTagged | src/recipe/base.php:110 | reading the `-t` values back from tagged names yields exactly those names, in order |
| Assets.ThemesInLayout | src/recipe/base.php:112 | in a command whose fixed words hold no `-t`, the `-t` values are exactly the tagged themes |
| Assets.SplitDeployWords | src/recipe/base.php:112 | the shell words of a per-area command are the fixed head with `--area=<area>`, the language words, the theme words and the fixed tail |
| Assets.CombinedDeployWords | src/recipe/base.php:66 | the shell words of the single deploy command are its fixed head, the words of the accumulated flags and its fixed tail |
| Assets.DeployAssetsSplitOn | src/recipe/base.php:56-58 | with split deployment on, the task invokes the adminhtml and then the frontend deployment and runs nothing |
| Assets.DeployAssetsSplitOff | src/recipe/base.php:59-66 | with split deployment off, exactly one command runs; its `-t` values are the list values or the map keys in order, and an empty configuration passes no `-t` |
| Assets.DeployAssetsSplit | src/recipe/base.php:85-89 | an area other than `frontend` or `backend` fails with the configuration error before anything is issued |
| Assets.AreaSelection | src/recipe/base.php:91-107 | `backend` reads the `_backend` variables and deploys `adminhtml`; `frontend` reads the unsuffixed ones and deploys `frontend` |
| Assets.DeployAssetsSplitReadsOnlyAreaVariables | src/recipe/base.php:96-97 | two stores that agree on the area's two variables give the same deployment |
| Assets.SplitListForm | src/recipe/base.php:98-113 | a list-form configuration gives exactly one command with the default languages and every theme as `-t <theme>`, in order; an empty list passes no `-t` (the corrected arguments, see Findings) |
| Assets.PerThemeRuns | src/recipe/base.php:116-120 | on a host where commands succeed, the map-form loop runs one command per theme key, in order, with that theme's languages or the defaults |
| Assets.SplitMapForm | src/recipe/base.php:101-103 | a map-form configuration gives one command per key, in key order, each passing that key as its only `-t` value, with the theme's languages or, when null, the default ones |
| Assets.SyncContentVersion | src/recipe/base.php:124-129 | every host receives the same timestamp as `content_version`, in host order, and nothing else happens |
| Assets.HyvaHook | src/recipe/base.php:133-138 | the hook writes one line and invokes the Tailwind build exactly when `app/etc/hyva-themes.json` is absent |
| CachePrefix.Lookup | src/recipe/base.php:279 | reading a key finds nothing exactly when no entry has that key, and otherwise a value some entry holds under it |
| CachePrefix.Put | src/recipe/base.php:285 | writing a key makes it read back the new value, leaves every other key as it was, and appends only when the key was absent |
| CachePrefix.SetPath | src/recipe/base.php:285-289 | a nested write succeeds exactly when every step of the path meets an array, null or false, and then yields an array; a non-string scalar on the path fails with PHP's `Error` "Cannot use a scalar value as an array" (a string on the path: see Left out) |
| CachePrefix.SetThenGet | src/recipe/base.php:285-289 | a value written at a key path reads back from that path |
| CachePrefix.SetFrame | src/recipe/base.php:285-289 | a write leaves every path that parts from the written one unchanged |
| CachePrefix.SetKeepsWritable | src/recipe/base.php:285-289 | a write keeps every path that parts from it writable |
| CachePrefix.SetWritableBack | src/recipe/base.php:285-289 | a path that parts from a successful write was already writable before it, so a write never makes another path writable |
| CachePrefix.WrittenPathsDiverge | src/recipe/base.php:285-289 | the preload-keys path and the two `id_prefix` paths pairwise part from each other |
| CachePrefix.ReplaceLeading | src/recipe/base.php:283 | for an old prefix without regular-expression metacharacters and a new prefix without `$` or `\` back-references, a key that starts with the old prefix gets the new prefix in its place with the rest kept; any other key is unchanged |
| CachePrefix.RewriteSetsPrefixes | src/recipe/base.php:288-289 | when no scalar blocks the written paths, the rewrite succeeds and both the default and the page-cache `id_prefix` hold the new prefix |
| CachePrefix.RewritePreloadKeys | src/recipe/base.php:278-286 | when no scalar blocks the written paths, set preload keys become the renamed list of the same length and order, and unset ones stay exactly as they were |
| CachePrefix.RewriteFrame | src/recipe/base.php:278-289 | when no scalar blocks the written paths, no path outside the three written ones changes |
| CachePrefix.RewriteSucceeds | src/recipe/base.php:278-289 | the rewrite fails exactly when a scalar stands in the way of the default or page-cache `id_prefix`, or of the preload keys when they are set |
| CachePrefix.NewPrefix | src/recipe/base.php:276 | the new prefix is the configured prefix, `_`, the release name and `_`; a variable that cannot be read is the error |
| CachePrefix.Publish | src/recipe/base.php:291-300 | the array is written to the temporary file, uploaded as the shared `env_tmp.php`, then the release `env.php` is removed and linked; a failing removal stops before the link |
| CachePrefix.SetCachePrefix | src/recipe/base.php:271-301 | the download comes first; a failing variable or rewrite stops the body right after it, before anything is written or uploaded |
| CachePrefix.SetCachePrefixTrace | src/recipe/base.php:271-301 | with the variables readable, no scalar blocking the written paths and every command succeeding, the body downloads, writes the rewritten array, uploads, removes and links, in that order, and completes |
| CachePrefix.SymlinkLayout | src/recipe/base.php:300 | the link command's arguments are the shared `env_tmp.php` and then the release `env.php` |
| Artifact.TempFileContent | src/recipe/artifact.php:55-61 | the helper yields file content exactly when given an array; anything else is a TypeError |
| Artifact.TempFileLines | src/recipe/artifact.php:55-61 | split at newlines, the content is the pattern list followed by one empty piece, so every pattern is one line in order and the file ends with a newline; an empty list gives a lone newline |
| Artifact.ArtifactPath | src/recipe/artifact.php:71-76 | the artifact directory is made locally only when the test says it is missing; a failing mkdir makes the value an error; the value is the directory, `/` and the file name |
| Artifact.ArtifactInItsDirectory | src/recipe/artifact.php:75 | for a slash-free directory and file name, `dirname` of the artifact path is the artifact directory |
| Artifact.DefaultArtifactPath | src/recipe/artifact.php:27-30 | with the recipe's default directory and file, the artifact path is `artifacts/artifact.tar.zst` |
| Artifact.BinTar | src/recipe/artifact.php:79-85 | gtar is chosen when it exists, tar otherwise |
| Artifact.PackageCommandLayout | src/recipe/artifact.php:102-111 | the shell words of the package command are exactly the nine arguments; `-C` is followed by the release path, `-cf` by the artifact path, and the artifact itself, the excludes file and the includes file sit at their own positions |
| Artifact.RecipePackageArguments | src/recipe/artifact.php:102-111 | the recipe's command is the layout above applied to its six placeholders, each of which meets the layout's premises |
| Artifact.ArtifactPackage | src/recipe/artifact.php:88-117 | once both pattern files are computed, exactly the package command runs; the task completes exactly when it exits 0, with the finish message only then; a failing excludes file ends the body with its failure before anything runs, and so does a failing includes file once the excludes file is computed |
| Artifact.UploadedAsArtifactFile | src/recipe/artifact.php:119-127 | for an artifact file name without a slash, the upload of `artifact_path` is the last effect, sends `artifact_dir/artifact_file` into `{{release_path}}` and completes, and the file name is the part after the last slash, so it arrives as the `{{release_path}}/{{artifact_file}}` that `artifact:extract` unpacks |
| Artifact.ArtifactExtract | src/recipe/artifact.php:125-128 | the archive is removed only after extraction was issued, and never when extraction fails |
| Artifact.BuildPrepare | src/recipe/artifact.php:132-142 | a non-local host ends the task with the graceful-shutdown reason and sets nothing; a local host sets the deploy, release and current paths to `.` in that order |
| Artifact.BuildMagentoCompile | src/recipe/artifact.php:154-160 | compilation is issued exactly when generated code is missing; otherwise only the skip message is written |
| Artifact.BuildArtifactPackage | src/recipe/artifact.php:204-214 | an existing artifact directory gives only the skip message; otherwise mkdir comes first, and packaging is invoked exactly when the directory was missing and mkdir succeeded |
| Artifact.ArtifactDeployOrder | src/recipe/artifact.php:145-200 | the release is prepared before maintenance, config import, database upgrade, maintenance off, symlink and finish, in that order; within preparation the release precedes upload and upload precedes extraction; the build packages after preparing and after the assets |
| Migration.OnlySrcMeans | src/tasks/migration-shared-rearrange.php:19-20 | the guard (exploding the listing at newlines gives one entry that trims to `src`) holds exactly when the listing has no newline and trims to `src` |
| Migration.SharedRearrange | src/tasks/migration-shared-rearrange.php:15-39 | the shared folder is always listed first; a listing that is not `src` alone aborts with the notice after that single command; otherwise, with the commands succeeding, it lists `shared/src`, moves its contents up and removes it, lists again and invokes `migration:deploy:shared`, and completes |
| Migration.RearrangeOnlyWhenOnlySrc | src/tasks/migration-shared-rearrange.php:19-23 | neither the move nor the invocation of `migration:deploy:shared` happens unless the shared folder lists as `src` alone |
| Migration.ReleaseBase | src/tasks/migration-shared-rearrange.php:44-46 | the links go into `current/src` exactly when the host reports that directory, and into `current` otherwise |
| Migration.SharedDirName | src/tasks/migration-shared-rearrange.php:52 | trimming `/` from a directory entry fails with a TypeError exactly for an array, and otherwise gives a name no longer than the entry's string that neither starts nor ends with `/` |
| Migration.SharedFileName | src/tasks/migration-shared-rearrange.php:66 | a file entry used as a string parameter fails with a TypeError exactly for an array or null, and a string is used unchanged |
| Migration.DirPlan | src/tasks/migration-shared-rearrange.php:53-61 | a directory is created in shared exactly when shared lacks it, seeded from the release exactly when shared lacks it and the release has it (right after creating it), and every directory ends with removing the release copy, making its parent, and linking |
| Migration.DirCommands | src/tasks/migration-shared-rearrange.php:53-61 | the last command for a directory is always its link from shared into the release base |
| Migration.FilePlan | src/tasks/migration-shared-rearrange.php:67-76 | the file's directory is created in shared exactly when missing there, the file is copied into shared exactly when shared lacks it and the release has it, a copy is always followed by removing the release file, and every file ends with remove, make directory, touch, link |
| Migration.FileCommands | src/tasks/migration-shared-rearrange.php:67-76 | the last command for a file is always its link from shared into the release base |
| Migration.RunAll | src/tasks/migration-shared-rearrange.php:51-77 | commands that all succeed are issued in order before the rest of the body, which is kept whole; any failing command fails the body |
| Migration.RunAllStops | src/tasks/migration-shared-rearrange.php:51-77 | a failing command stops the body: exactly the commands up to and including it are issued, nothing is written, and the failure names that command and its exit code |
| Migration.Convert | src/tasks/migration-shared-rearrange.php:51-52 | a loop gets through the entries before the first one that cannot be converted, in order, and stops with that entry's error; it has no error exactly when every entry converts |
| Migration.LoopCommands | src/tasks/migration-shared-rearrange.php:51-77 | the commands of a loop contain the link for every entry it gets through |
| Migration.DeployShared | src/tasks/migration-shared-rearrange.php:42-51 | a failing read of `deploy_path` or `shared_dirs` ends the body with that failure before any command |
| Migration.LoopLinksAll | src/tasks/migration-shared-rearrange.php:51-77 | a loop whose entries all convert, on a host where every command succeeds, links every entry and keeps the rest of the body and its outcome |
| Migration.DeploySharedLinksEverything | src/tasks/migration-shared-rearrange.php:42-78 | with every command succeeding and every entry usable, every shared directory and every shared file is linked into the release base and the task completes |
| Migration.PreviewLines | src/tasks/migration-shared-rearrange.php:101-107 | each preview line is the link command `migration:deploy:shared` would run for that name, prefixed `[Dry Run] `, one per name |
| Migration.DryRun | src/tasks/migration-shared-rearrange.php:82-108 | the dry run issues nothing but the two listings: it never moves, copies, removes or links anything |
| Migration.DryRunAfterMove | src/tasks/migration-shared-rearrange.php:93-107 | the second half of the dry run issues nothing but the listing of shared |
| Migration.DryRunLinks | src/tasks/migration-shared-rearrange.php:99-107 | the link previews issue nothing; with both lists readable and no directory an array, they are the directory previews followed by the file previews, and the task completes |
| Migration.DryRunShape | src/tasks/migration-shared-rearrange.php:83-97 | with both listings succeeding, the dry run issues exactly the two listings and writes the header, the `src` listing, the move it would run, the second header, the listing and the invoke line before the link previews |
| Migration.DryRunPreviewsLinks | src/tasks/migration-shared-rearrange.php:82-108 | with the listings succeeding and no directory an array, the dry run completes and, after its six fixed lines, previews exactly the link of every shared directory and then every shared file, in configuration order |
| DbPull.DumpPathsShareName | src/tasks/db-pull.php:48-51 | the remote dump lives in `/tmp` and the local one in `./.db/backups` (what `dirname` gives back, and the directories the task creates), under the same file name, for an alias and timestamp without slashes |
| DbPull.StripValue | src/tasks/db-pull.php:55-60 | the strip value is the trimmed configured text; a partial dump with nothing but white space configured falls back to `@trade @log`, so a partial dump never strips with an empty value |
| DbPull.ResolveOptions | src/tasks/db-pull.php:53-60 | `import` is read first and its failure ends the body; the options resolve exactly when all three reads succeed, as the boolean filter of `import` and `full` and the strip value with its fallback |
| DbPull.DefaultOptions | src/tasks/db-pull.php:53-60 | with none of `import`, `full` and `strip` set, the dump is imported, partial, and strips `@trade @log`, as the task's description promises |
| DbPull.DumpCommandArguments | src/tasks/db-pull.php:63-68 | the dump command starts with the n98 base command; a full dump passes only the remote path, a partial one passes `--strip=` with the strip value and then the remote path, and the shell reads each quoted argument back as exactly that value |
| DbPull.DbPull | src/tasks/db-pull.php:47-92 | a failing option read ends the body before anything is issued; otherwise the body is the pull with the resolved options and the dump command built from them for this alias and timestamp |
| DbPull.PullReliable | src/tasks/db-pull.php:70-91 | when every command succeeds the task completes after issuing the remote directory, the dump, the local directory, the download and the remote removal, plus the import and the local removal only when importing |
| DbPull.PullInOrder | src/tasks/db-pull.php:70-91 | whatever the hosts answer, the effects are a prefix of that sequence: nothing is ever issued out of order |
| DbPull.DownloadAfterDump | src/tasks/db-pull.php:72-77 | the dump is downloaded exactly when the remote directory was made, the dump command succeeded and the local directory was made |
| DbPull.RemoteDumpRemoved | src/tasks/db-pull.php:77-80 | the remote dump is removed exactly when the download was reached, whether or not the dump is imported |
| DbPull.LocalDumpKept | src/tasks/db-pull.php:87-89 | without import the local dump is never removed, whatever the hosts answer |
| DbPull.LocalDumpRemovedAfterImport | src/tasks/db-pull.php:82-86 | when importing, the local dump is removed exactly when the import was issued and exited 0 |
| FileTransfer.ReadTrimmed | src/tasks/file-upload.php:33-36 | a variable is read with the empty string as default, converted and trimmed; an unset variable reads as empty, the result has nothing left to trim, and a failing read is passed on |
| FileTransfer.ReadRequest | src/tasks/file-download.php:33-36 | the four variables are read in order (`src`, `dest`, `pre`, `post`): the result fails with exactly the error of the first failing read, and otherwise the request holds the four trimmed values |
| FileTransfer.Transfer | src/tasks/file-upload.php:32-63 | an empty source or destination writes the missing-variables error and issues nothing; a source the reading side does not report (local for an upload, the host for a download) writes the not-found error and issues nothing; otherwise the copy runs |
| FileTransfer.CopyEffectsAt | src/tasks/file-download.php:48-60 | the copy's effects are the pre-command when non-empty, the destination directory on the writing side, the transfer, and the post-command when non-empty, in that order |
| FileTransfer.CopyInOrder | src/tasks/file-upload.php:48-60 | whatever the hosts answer, the copy issues a prefix of those effects |
| FileTransfer.MoveAfterPreAndDir | src/tasks/file-download.php:48-55 | the transfer happens exactly when the pre-command, if any, exited 0 and the destination directory was made |
| FileTransfer.PostAfterMove | src/tasks/file-upload.php:55-62 | once the transfer happened every effect is issued, and the task completes exactly when there is no post-command or it exits 0 |
| Hyva.BuildCommandInjective | src/tasks/hyva-tailwind-build.php:25 | different theme paths give different build commands |
| Hyva.HyvaBuild | src/tasks/hyva-tailwind-build.php:12-27 | a failing read of `hyva_themes` ends the body; a value that is not an array writes the skip message and issues nothing; an array runs the loop over its entries |
| Hyva.CommandsCount | src/tasks/hyva-tailwind-build.php:20-25 | each theme with a string path yields exactly one build command and each other theme exactly one message; every command built is the command of some string path |
| Hyva.CommandsAppend | src/tasks/hyva-tailwind-build.php:20 | the loop keeps the themes' order: the commands and messages of two runs of entries are those of the first followed by those of the second |
| Hyva.BuildReliable | src/tasks/hyva-tailwind-build.php:20-26 | when every build succeeds, the task builds every string path in map order, reports every other entry, and completes |
| Hyva.BuildInOrder | src/tasks/hyva-tailwind-build.php:20-26 | whatever the host answers, the builds are issued in map order; the task completes exactly when all of them are issued and succeed, and otherwise fails at the last build issued |
| Effects.DefaultOnlyForUnset | src/tasks/db-pull.php:53-55 | `get` with a default differs from `get` without one exactly when the variable is unset; a default never hides the error a set variable's producer raises |
| Effects.PerformAt | src/tasks/db-pull.php:70-91 | in a straight-line body, statement `j` is issued, in position `j`, exactly when every statement before it went through |
| Effects.PerformAll | src/tasks/db-pull.php:70-91 | a straight-line body issues every statement and then continues only when all of them go through, ending as the rest of the body ends |
| Effects.PerformIssues | src/tasks/db-pull.php:70-91 | an effect issued by exactly one statement, and not by the rest of the body, appears exactly when every earlier statement went through |
| Effects.PerformIssuesOnly | src/tasks/db-pull.php:70-91 | a straight-line body issues nothing but its statements' effects and those of the rest |
| Effects.PerformInOrder | src/tasks/db-pull.php:70-91 | a straight-line body issues its statements in order, stopping early at the first that fails |
| Effects.PerformFailsAt | src/tasks/file-upload.php:57-60 | the first statement that fails is the last one issued, and the body fails there |
| Php.TrimCharsSpec | src/tasks/migration-shared-rearrange.php:52 | `trim` returns the middle of its argument: only mask characters are removed, from both ends, and none is left at either end |
| Php.TrimCharsIdempotent | src/tasks/file-upload.php:33-36 | trimming an already trimmed value changes nothing |
| Php.SplitSingle | src/tasks/migration-shared-rearrange.php:19 | exploding gives a single piece exactly when the separator does not occur, and that piece is the whole string |
| Php.SplitImplode | src/recipe/artifact.php:59 | exploding at the separator undoes imploding when no piece contains it |
| Php.WordsOfAtoms | src/recipe/base.php:110 | space-joining single words and splitting the result at spaces gives the words back |
| Php.DirnameOfChild | src/tasks/db-pull.php:72 | `dirname` of `dir/name` is `dir` for a single path component and a directory without a trailing slash |
| Php.DirnameOfBareName | src/tasks/file-upload.php:53 | `dirname` of a name without slashes is `.` |
| Php.EscapeShellArgRoundTrip | src/tasks/file-upload.php:43 | the shell reads an `escapeshellarg` result back as exactly the original string, whatever quotes it contains |
| Php.FilterBoolOfBool | src/tasks/db-pull.php:53-54 | the boolean filter passes `true` and `false` through unchanged |
| Php.FilterBoolIgnoresPadding | src/tasks/db-pull.php:53-54 | a filter white-space character on each side of a string does not change the boolean filter's answer |
| Php.FilterBoolKeepsNul | src/tasks/db-pull.php:53-54 | any string followed by a NUL byte is false for the boolean filter, although `trim` strips that byte |

## Findings

| source | as written | input that shows it | evidently intended | confidence | as-written member | corrected member |
|---|---|---|---|---|---|---|
| src/recipe/base.php:110 | the list form builds its theme arguments as `'-t ' . implode(' -t ', $themes)`, which is a bare `-t` for an empty list | split deployment on with `magento_themes` left at its default `[]` (src/recipe/config.php:48-50, :56), provided `Deployer\Support\array_is_list([])` (imported at src/recipe/base.php:21) is true, so that `[]` takes the list branch: the frontend command ends `en_US -t -j {{static_content_jobs}}`, a `-t` with no theme name of its own, whose next word is `-j` | an empty list deploys every theme (src/recipe/config.php:35-36), so no `-t` is passed, as `magento:deploy:assets` does for an empty list (src/recipe/base.php:60) | medium, not executed: it rests on the support library's `array_is_list` returning true for `[]`, as PHP 8.1's native function does; that library is not part of this model, and if it returns false for `[]` the frontend takes the map branch (src/recipe/base.php:116-120) and issues no command at all; how Magento's command line reacts to the bare `-t` is outside the model | Assets.EmptyListBareTag | Assets.ListThemeArgsWords |

The model's `Assets.DeployAssetsSplit` uses the corrected arguments
(`Assets.ListThemeArgs`). The arguments as written are kept as
`Assets.ListThemeArgsAsWritten`, and for a non-empty list the two agree.

## Left out

- Effects.Get, Hyva.HyvaBuild: that `get` of an unset name without a default fails with an undefined-variable error is taken from the Deployer library, which is not part of this model. The recipe never sets `hyva_themes`, so the outcome of `hyva:tailwind:build` on a project that does not set it rests on that behaviour.
- Effects.Get, Effects.GetOr: definitions of `get` with and without a default, with no property of their own beyond their bodies. How they relate is stated by Effects.DefaultOnlyForUnset.
- Effects.Exec: the definition of one `run`/`runLocally` statement. What a body of such statements issues and where it stops is stated by Effects.PerformAt, Effects.PerformFailsAt and Migration.RunAllStops.
- DbPull.DumpsOf: the definition of the two dump paths and their `dirname`s. Where they lie and that they share a name is stated by DbPull.DumpPathsShareName.
- Migration.ForeachValues: the definition of the values `foreach` visits. What the loop over them does is stated by Migration.LoopLinksAll and Migration.RunAllStops.
- Migration.FileStrings: the definition of the dry run's string conversion of shared files. What the dry run writes from them is stated by Migration.DryRunPreviewsLinks.
- CachePrefix.RenamedKeys: the definition of the `foreach` that renames preload keys. What the rewrite does with them is stated by CachePrefix.RewritePreloadKeys.
- Artifact.ArtifactUpload: the definition of the one-statement `artifact:upload` body. Where the upload lands is stated by Artifact.UploadedAsArtifactFile.
- Artifact.BuildMagentoAssets: the one-statement `build:magento:assets` body, an `invoke` of `magento:deploy:assets`, with no property of its own. Its place in the build is stated by Artifact.ArtifactDeployOrder.
- The `fail('artifact:deploy', 'deploy:failed')` hook (src/recipe/artifact.php:216) is not modelled: failure hooks are run by the Deployer library.
- CachePrefix.SetPath: a string on the written path fails like any other scalar, with "Cannot use a scalar value as an array". PHP instead treats it as a string offset: with more steps to go it raises a string-offset `Error`, and as the last step it writes one character or raises an offset error, depending on the key and the PHP version. The model does not promise PHP's behaviour there. In the `env.php` Magento writes, the cache section holds arrays on these paths.
- The Deployer library is not part of this model. That covers task registration, `before`/`after` hooks, `once()`, `hidden()`, the planner, the multi-host runner, failure recovery and per-host caching of lazy variables. `invoke` is an emitted effect, and a task list is a sequence of task names.
- `{{var}}` templating and `parse` are not modelled. Templated commands are kept as opaque strings, and `parse` returns its argument.
- The remote and local shells are not modelled, and neither is SSH or file transfer. Exit codes, `test` answers and command output are inputs of the `Host`. An upload or download is assumed always to succeed, because the transport layer is not part of the model.
- Console output is not modelled in full. Written lines form their own channel, so their interleaving with the commands is not recorded. Colour tags are kept as text, and verbosity levels are not modelled.
- Commands run by lazy variable producers are not in the traces. This covers the `app:config:status` and `setup:db:status` probes, the `magento_version` lookup and the `gtar`/`tar` lookup for `bin/tar`. Their results enter the variables, but the commands are not recorded as effects. So a trace that fails on a probe shows no command, although the failing status command has run.
- Time (`time()`, `date('Ymd-His')`) and the current host's alias are not modelled. They are parameters of the bodies that use them.
- File-system and temporary-file I/O are not modelled: `tempnam`, `file_put_contents`, `include`, `var_export`, `unlink` and the env file moves. The model keeps the file content and the array transform they carry.
- `preg_replace` in the cache-prefix rewrite is modelled as replacing a literal leading prefix. This assumes the old prefix holds no regular-expression metacharacters, and that the new prefix (`magento_cache_id_prefix`, `_`, `release_name`, `_`) holds no `$` or `\` back-reference such as `$0`, `${1}` or `\1`, which `preg_replace` would expand in the replacement.
- The version pattern of `magento_version` is modelled by what it matches. The match is the leftmost piece of the output that is a version and ends where `$` matches. PCRE in general is not modelled.
- `escapeshellarg` is modelled on characters, for a POSIX shell, without the multibyte locale handling.
- `array_is_list` follows PHP 8.1's native definition, under which an empty array is a list. The polyfill in the Deployer support library is not part of this model; a polyfill that answered false for `[]` would send the empty theme list down the map branch, and the base.php:110 finding would not arise.
- Floats and objects are not PHP values of the model. Configuration variables do not hold them.
- `foreach` over a value that is not an array visits nothing. The warning PHP prints for it is not modelled.
- Several tasks are thin wrappers around single commands, with no decision to state, and are not modelled:
  - `magento:compile`;
  - `magento:maintenance:enable` and `magento:maintenance:disable`;
  - `magento:cache:flush`;
  - `deploy:additional-shared`;
  - `magento:cron:stop` and `magento:cron:install`;
  - `magento:cleanup_cache_prefix`;
  - src/tasks/config-data-import.php, src/tasks/deploy-vendors.php and src/tasks/config-cache-clean-pre-upgrade.php;
  - src/RecipeLoader.php.
- The Slack settings and message templates are not modelled. They are configuration text with no logic.
- Migration.DeployShared: its own contract states only the failing reads of `deploy_path` and `shared_dirs`. What it issues is stated by Migration.LoopLinksAll, Migration.RunAllStops and Migration.DeploySharedLinksEverything.
- Migration.DryRun: its own contract states only which effects it may issue. The lines it writes are stated by Migration.DryRunShape and Migration.DryRunPreviewsLinks.

=== FILE: artifact.dfy ===
/** Artifact deployment: build an archive of the release locally, upload it and
    unpack it on the server. The model covers the pattern files handed to `tar`,
    the artifact's location, the `tar` binary, the package command's layout, the
    build tasks' decisions and the task lists. */
module Artifact {
  import opened Php
  import opened Effects

  // ---------------------------------------------------------------- pattern files

  /** What `$createTempFile` writes: the pattern list joined by newlines, plus a
      final newline. Its parameter is typed `array`, so anything else is a TypeError. */
  function TempFileContent(lines: Value): (r: Result<string>)
    ensures r.Ok? <==> lines.Arr?
  {
    if lines.Arr? then Ok(Implode("\n", ValueStrings(lines.entries)) + "\n")
    else Err(TypeError("{closure}(): Argument #1 ($lines) must be of type array"))
  }

  /** Every pattern is one line of the file, in order, each ending with a newline;
      an empty list gives a file holding a single newline. */
  lemma TempFileLines(lines: Value)
    requires lines.Arr?
    requires forall i :: 0 <= i < |lines.entries| ==> '\n' !in ToStr(lines.entries[i].1)
    ensures var c := TempFileContent(lines).value;
      && (|lines.entries| > 0 ==> Split(c, '\n') == ValueStrings(lines.entries) + [""])
      && (|lines.entries| == 0 ==> c == "\n")
      && c[|c| - 1] == '\n'
  {
    var ps := ValueStrings(lines.entries);
    if |ps| > 0 {
      var body := Implode("\n", ps);
      SplitImplode(ps, '\n');
      assert body + "\n" == body + ['\n'] + "";
      SplitAppend(body, '\n', "");
      assert Split("", '\n') == [""];
    }
  }

  // ---------------------------------------------------------------- artifact_path and bin/tar

  /** A lazily computed variable: the commands its computation issued and its value. */
  datatype Lazy = Lazy(effects: seq<Effect>, value: Result<Value>)

  const ArtifactDirTest := "[ -d {{artifact_dir}} ]"
  const MakeArtifactDir := "mkdir -p {{artifact_dir}}"

  /** `artifact_path`: the artifact directory is created locally when missing, and
      the value is the directory and the file name joined by `/`. */
  function ArtifactPath(vars: Vars, h: Host): (r: Lazy)
    ensures h.local.test(ArtifactDirTest) ==> r.effects == []
    ensures !h.local.test(ArtifactDirTest) ==> r.effects == [RunLocally(MakeArtifactDir)]
    ensures !h.local.test(ArtifactDirTest) && h.local.exitCode(MakeArtifactDir) != 0 ==> r.value.Err?
    ensures r.value.Ok? ==>
      && Get(vars, "artifact_dir").Ok? && Get(vars, "artifact_file").Ok?
      && r.value.value == Str(ToStr(Get(vars, "artifact_dir").value) + "/" + ToStr(Get(vars, "artifact_file").value))
  {
    var made := if h.local.test(ArtifactDirTest) then [] else [RunLocally(MakeArtifactDir)];
    if !h.local.test(ArtifactDirTest) && h.local.exitCode(MakeArtifactDir) != 0 then
      Lazy(made, Err(CommandFailed(MakeArtifactDir, h.local.exitCode(MakeArtifactDir))))
    else
      match Get(vars, "artifact_dir")
      case Err(f) => Lazy(made, Err(f))
      case Ok(dir) =>
        match Get(vars, "artifact_file")
        case Err(f) => Lazy(made, Err(f))
        case Ok(file) => Lazy(made, Ok(Str(ToStr(dir) + "/" + ToStr(file))))
  }

  /** The artifact lies directly in the artifact directory, the one the
      computation makes sure exists. */
  lemma ArtifactInItsDirectory(vars: Vars, h: Host, dir: string, file: string)
    requires Get(vars, "artifact_dir") == Ok(Str(dir)) && Get(vars, "artifact_file") == Ok(Str(file))
    requires dir != "" && dir[|dir| - 1] != '/' && file != "" && '/' !in file
    requires ArtifactPath(vars, h).value.Ok?
    ensures Dirname(ArtifactPath(vars, h).value.value.s) == dir
  {
    DirnameOfChild(dir, file);
  }

  /** With the recipe's defaults the artifact is `artifacts/artifact.tar.zst`. */
  lemma DefaultArtifactPath(vars: Vars, h: Host)
    requires Get(vars, "artifact_dir") == Ok(Str("artifacts"))
    requires Get(vars, "artifact_file") == Ok(Str("artifact.tar.zst"))
    requires h.local.test(ArtifactDirTest) || h.local.exitCode(MakeArtifactDir) == 0
    ensures ArtifactPath(vars, h).value == Ok(Str("artifacts/artifact.tar.zst"))
  {
    assert "artifacts" + "/" + "artifact.tar.zst" == "artifacts/artifact.tar.zst";
  }

  /** `bin/tar`: `which('gtar')` when gtar exists, else `which('tar')`. The
      command lookup is the host's. */
  function BinTar(gtarExists: bool, which: string -> string): (r: string)
    ensures gtarExists ==> r == which("gtar")
    ensures !gtarExists ==> r == which("tar")
  {
    if gtarExists then which("gtar") else which("tar")
  }

  // ---------------------------------------------------------------- artifact:package

  /** The words of the package command, given the six values the `sprintf` of
      `artifact:package` substitutes: the tar binary, the artifact path, the
      excludes file, the release path, the artifact path again and the includes file. */
  function PackageWords(tar: string, artifact: string, excludes: string, release: string, includes: string): seq<string>
  {
    [tar, "--posix", "--exclude=" + artifact, "--exclude-from=" + excludes, "-C", release,
     "-cf", artifact, "--files-from=" + includes, "--use-compress-program=\"zstdmt\""]
  }

  /** The formatted command: the words joined by single spaces. */
  function PackageCommandOf(tar: string, artifact: string, excludes: string, release: string, includes: string): string
  {
    Implode(" ", PackageWords(tar, artifact, excludes, release, includes))
  }

  const PackageCommand: string :=
    PackageCommandOf("{{bin/tar}}", "{{artifact_path}}", "{{artifact_excludes_file}}", "{{release_or_current_path}}",
      "{{artifact_includes_file}}")

  /** The value a command passes with `flag`: the word after its first occurrence. */
  function ArgOf(ws: seq<string>, flag: string): Option<string>
    decreases |ws|
  {
    if |ws| < 2 then None
    else if ws[0] == flag then Some(ws[1])
    else ArgOf(ws[1..], flag)
  }

  /** The package command excludes the artifact itself, reads further exclusions
      from the excludes file, works from the release directory, writes the
      artifact and archives exactly the files the includes file lists, with
      multi-threaded zstd; none of the substituted values can split or shift
      the arguments as long as each is a single word. */
  lemma PackageCommandLayout(tar: string, artifact: string, excludes: string, release: string, includes: string)
    requires IsWord(tar) && IsWord(artifact) && ' ' !in excludes && IsWord(release) && ' ' !in includes
    requires tar != "-C" && tar != "-cf" && release != "-cf"
    ensures var ws := Words(PackageCommandOf(tar, artifact, excludes, release, includes));
      && ws == PackageWords(tar, artifact, excludes, release, includes)
      && ArgOf(ws, "-C") == Some(release)
      && ArgOf(ws, "-cf") == Some(artifact)
      && ws[2] == "--exclude=" + artifact
      && ws[3] == "--exclude-from=" + excludes
      && ws[8] == "--files-from=" + includes
  {
    var ws := PackageWords(tar, artifact, excludes, release, includes);
    PackageWordsAreWords(tar, artifact, excludes, release, includes);
    WordsOfAtoms(ws);
    assert ws[2][1] == '-' && ws[3][1] == '-';
    ArgOfSkip(ws, "-C", 4);
    ArgOfSkip(ws, "-cf", 6);
  }

  lemma PackageWordsAreWords(tar: string, artifact: string, excludes: string, release: string, includes: string)
    requires IsWord(tar) && IsWord(artifact) && ' ' !in excludes && IsWord(release) && ' ' !in includes
    ensures var ws := PackageWords(tar, artifact, excludes, release, includes);
      forall i :: 0 <= i < |ws| ==> IsWord(ws[i])
  {
    assert ' ' !in "--exclude=" + artifact;
    assert ' ' !in "--exclude-from=" + excludes;
    assert ' ' !in "--files-from=" + includes;
  }

  /** The recipe's own command is PackageCommandLayout's case: each placeholder it
      substitutes is one word, so the layout above is the layout of the command
      `artifact:package` runs. */
  lemma RecipePackageArguments()
    ensures PackageCommand == PackageCommandOf("{{bin/tar}}", "{{artifact_path}}", "{{artifact_excludes_file}}",
      "{{release_or_current_path}}", "{{artifact_includes_file}}")
    ensures IsWord("{{bin/tar}}") && IsWord("{{artifact_path}}") && ' ' !in "{{artifact_excludes_file}}"
    ensures IsWord("{{release_or_current_path}}") && ' ' !in "{{artifact_includes_file}}"
    ensures "{{bin/tar}}" != "-C" && "{{bin/tar}}" != "-cf" && "{{release_or_current_path}}" != "-cf"
  {
    TarWord();
    ArtifactPathWord();
    ReleaseWord();
    PatternFilesUnbroken();
  }

  lemma TarWord()
    ensures IsWord("{{bin/tar}}") && "{{bin/tar}}" != "-C" && "{{bin/tar}}" != "-cf"
  {
  }

  lemma ArtifactPathWord()
    ensures IsWord("{{artifact_path}}")
  {
  }

  lemma ReleaseWord()
    ensures IsWord("{{release_or_current_path}}") && "{{release_or_current_path}}" != "-cf"
  {
  }

  lemma PatternFilesUnbroken()
    ensures ' ' !in "{{artifact_excludes_file}}" && ' ' !in "{{artifact_includes_file}}"
  {
  }

  /** Words before the first occurrence of the flag do not matter. */
  lemma {:induction false} ArgOfSkip(ws: seq<string>, flag: string, k: nat)
    requires k <= |ws|
    requires forall i :: 0 <= i < k ==> ws[i] != flag
    ensures ArgOf(ws, flag) == ArgOf(ws[k..], flag)
    decreases k
  {
    if k > 0 {
      if |ws| >= 2 {
        ArgOfSkip(ws[1..], flag, k - 1);
        assert ws[1..][k - 1..] == ws[k..];
      } else {
        assert ArgOf(ws[k..], flag) == None;
      }
    }
  }

  const StartMessage := "<info>Starting compression...</info>"
  const FinishMessage := "<info>Compression finished!</info>"

  /** A compression command between the start and finish messages. */
  function Compress(h: Host, command: string): (t: Trace)
    ensures t.effects == [Run(command)]
    ensures h.remote.exitCode(command) == 0 <==> t.outcome == Completed
    ensures t.outcome == Completed ==> t.log == [StartMessage, FinishMessage]
    ensures t.outcome != Completed ==> t.log == [StartMessage]
  {
    Say(StartMessage, RunThen(h, command, Say(FinishMessage, Finish())))
  }

  /** Body of `artifact:package`: both pattern files are computed first, then the
      package command runs between the start and finish messages. */
  function ArtifactPackage(vars: Vars, h: Host): (t: Trace)
    ensures Get(vars, "artifact_excludes_file").Ok? && Get(vars, "artifact_includes_file").Ok? ==>
      t.effects == [Run(PackageCommand)]
      && (h.remote.exitCode(PackageCommand) == 0 <==> t.outcome == Completed)
      && (t.outcome == Completed ==> t.log == [StartMessage, FinishMessage])
      && (t.outcome != Completed ==> t.log == [StartMessage])
    ensures Get(vars, "artifact_excludes_file").Err? ==> t == Fail(Get(vars, "artifact_excludes_file").error)
    ensures Get(vars, "artifact_excludes_file").Ok? && Get(vars, "artifact_includes_file").Err? ==>
      t == Fail(Get(vars, "artifact_includes_file").error)
  {
    match Get(vars, "artifact_excludes_file")
    case Err(f) => Fail(f)
    case Ok(_) =>
      match Get(vars, "artifact_includes_file")
      case Err(f) => Fail(f)
      case Ok(_) => Compress(h, PackageCommand)
  }

  /** Body of `artifact:upload`: the artifact goes to the release directory. */
  function ArtifactUpload(artifactPath: Lazy): (t: Trace)
    ensures artifactPath.value.Ok? ==>
      t.effects == artifactPath.effects + [Upload(ToStr(artifactPath.value.value), "{{release_path}}")]
    ensures artifactPath.value.Err? ==> t.effects == artifactPath.effects && t.outcome.Failed?
  {
    match artifactPath.value
    case Err(f) => Trace(artifactPath.effects, [], Failed(f))
    case Ok(p) => Trace(artifactPath.effects + [Upload(ToStr(p), "{{release_path}}")], [], Completed)
  }

  /** What `artifact:upload` sends ends in the artifact file's name: uploading it
      into the release directory gives `{{release_path}}/{{artifact_file}}`, the
      archive `artifact:extract` unpacks. */
  lemma UploadedAsArtifactFile(vars: Vars, h: Host, dir: string, file: string)
    requires Get(vars, "artifact_dir") == Ok(Str(dir)) && Get(vars, "artifact_file") == Ok(Str(file))
    requires '/' !in file
    requires ArtifactPath(vars, h).value.Ok?
    ensures var t := ArtifactUpload(ArtifactPath(vars, h));
      && t.outcome == Completed && |t.effects| > 0
      && t.effects[|t.effects| - 1] == Upload(dir + "/" + file, "{{release_path}}")
      && DropBase(dir + "/" + file) == dir + "/"
  {
    assert (dir + "/" + file) == (dir + "/") + file;
    DropBaseAppend(dir + "/", file);
  }

  const ExtractCommand :="{{bin/tar}} --zstd -xf {{release_path}}/{{artifact_file}} -C {{release_path}}"
  const RemoveArchiveCommand := "rm -rf {{release_path}}/{{artifact_file}}"

  /** Body of `artifact:extract`: the archive is removed only after it unpacked. */
  function ArtifactExtract(h: Host): (t: Trace)
    ensures Run(RemoveArchiveCommand) in t.effects ==> t.effects[0] == Run(ExtractCommand)
    ensures h.remote.exitCode(ExtractCommand) != 0 ==> Run(RemoveArchiveCommand) !in t.effects
  {
    RunThen(h, ExtractCommand, RunThen(h, RemoveArchiveCommand, Finish()))
  }

  // ---------------------------------------------------------------- the build tasks

  const NonLocalReason := "Artifact can only be built locally, you provided a non local host"

  /** Body of `build:prepare`; `local` is the current host's `local` setting. */
  function BuildPrepare(local: Value): (t: Trace)
    ensures !Truthy(local) <==> t.outcome == GracefulShutdown(NonLocalReason)
    ensures !Truthy(local) ==> t.effects == []
    ensures Truthy(local) ==>
      && t.outcome == Completed
      && t.effects == [Set("deploy_path", Str(".")), Set("release_path", Str(".")), Set("current_path", Str("."))]
  {
    if !Truthy(local) then Trace([], [], GracefulShutdown(NonLocalReason))
    else
      Emit(Set("deploy_path", Str(".")), Emit(Set("release_path", Str(".")), Emit(Set("current_path", Str(".")), Finish())))
  }

  const GeneratedCodeMissing := "[ ! -d {{release_or_current_path}}/{{magento_dir}}/generated/code ]"
  const CompileCommand := "{{bin/php}} {{bin/magento}} setup:di:compile"
  const CompileSkipped := "<info>Generated cache found. Skipping compilation.</info>"

  /** Body of `build:magento:compile`: compiles only when there is no generated code. */
  function BuildMagentoCompile(h: Host): (t: Trace)
    ensures h.remote.test(GeneratedCodeMissing) <==> t.effects == [Run(CompileCommand)]
    ensures !h.remote.test(GeneratedCodeMissing) ==> t == Trace([], [CompileSkipped], Completed)
  {
    if h.remote.test(GeneratedCodeMissing) then RunThen(h, CompileCommand, Finish())
    else Say(CompileSkipped, Finish())
  }

  /** Body of `build:magento:assets`. */
  function BuildMagentoAssets(): (t: Trace)
    ensures t.effects == [Invoke("magento:deploy:assets")] && t.outcome == Completed
  {
    Emit(Invoke("magento:deploy:assets"), Finish())
  }

  const PackageSkipped := "<comment>Artifact directory already exists; skipping package step.</comment>"

  /** Body of `build:artifact:package`: an existing artifact directory means the
      package is already built; otherwise the directory is made before packaging. */
  function BuildArtifactPackage(h: Host): (t: Trace)
    ensures h.remote.test(ArtifactDirTest) ==> t == Trace([], [PackageSkipped], Completed)
    ensures !h.remote.test(ArtifactDirTest) ==> |t.effects| >= 1 && t.effects[0] == Run(MakeArtifactDir)
    ensures Invoke("artifact:package") in t.effects <==>
      !h.remote.test(ArtifactDirTest) && h.remote.exitCode(MakeArtifactDir) == 0
  {
    if h.remote.test(ArtifactDirTest) then Say(PackageSkipped, Finish())
    else RunThen(h, MakeArtifactDir, Emit(Invoke("artifact:package"), Finish()))
  }

  // ---------------------------------------------------------------- task lists

  const ArtifactBuild: seq<string> :=
    ["build:prepare", "build:magento:compile", "build:magento:assets", "build:artifact:package"]

  const ArtifactPrepare: seq<string> :=
    ["deploy:info", "deploy:setup", "deploy:lock", "deploy:release", "artifact:upload", "artifact:extract",
     "deploy:additional-shared", "deploy:shared", "deploy:writable"]

  const ArtifactFinish: seq<string> :=
    ["magento:cache:flush", "cachetool:clear:opcache", "deploy:cleanup", "deploy:unlock", "deploy:success"]

  const ArtifactDeploy: seq<string> :=
    ["artifact:prepare", "magento:maintenance:enable-if-needed", "magento:config:import", "magento:upgrade:db",
     "magento:maintenance:disable", "deploy:symlink", "artifact:finish"]

  /** `a` comes strictly before `b` in the list. */
  predicate Precedes(tasks: seq<string>, a: string, b: string)
  {
    exists i, j :: 0 <= i < j < |tasks| && tasks[i] == a && tasks[j] == b
  }

  /** The server-side steps of an artifact deployment: the release is prepared and
      unpacked before maintenance is entered, the configuration imported and the
      database upgraded, and maintenance is left before the release goes live. */
  lemma ArtifactDeployOrder()
    ensures Precedes(ArtifactDeploy, "artifact:prepare", "magento:maintenance:enable-if-needed")
    ensures Precedes(ArtifactDeploy, "magento:maintenance:enable-if-needed", "magento:config:import")
    ensures Precedes(ArtifactDeploy, "magento:config:import", "magento:upgrade:db")
    ensures Precedes(ArtifactDeploy, "magento:upgrade:db", "magento:maintenance:disable")
    ensures Precedes(ArtifactDeploy, "magento:maintenance:disable", "deploy:symlink")
    ensures Precedes(ArtifactDeploy, "deploy:symlink", "artifact:finish")
    ensures Precedes(ArtifactPrepare, "deploy:release", "artifact:upload")
    ensures Precedes(ArtifactPrepare, "artifact:upload", "artifact:extract")
    ensures Precedes(ArtifactBuild, "build:prepare", "build:artifact:package")
    ensures Precedes(ArtifactBuild, "build:magento:assets", "build:artifact:package")
  {
    var d := ArtifactDeploy;
    assert d[0] == "artifact:prepare" && d[1] == "magento:maintenance:enable-if-needed";
    assert d[2] == "magento:config:import" && d[3] == "magento:upgrade:db";
    assert d[4] == "magento:maintenance:disable" && d[5] == "deploy:symlink" && d[6] == "artifact:finish";
    var p := ArtifactPrepare;
    assert p[3] == "deploy:release" && p[4] == "artifact:upload" && p[5] == "artifact:extract";
    var b := ArtifactBuild;
    assert b[0] == "build:prepare" && b[2] == "build:magento:assets" && b[3] == "build:artifact:package";
  }
}

=== FILE: assets.dfy ===
/** Static-content deployment (`magento:deploy:assets` and its split per-area
    variants) and the two hooks that run before it. Commands are built as the
    source builds them, as space-joined words, so that what the command line
    passes to `-t` can be read back from it. */
module Assets {
  import opened Php
  import opened Effects

  const AdminhtmlTask := "magento:deploy:assets:adminhtml"
  const FrontendTask := "magento:deploy:assets:frontend"

  /** The task name the Hyva hook invokes. The task itself is registered as
      `hyva:tailwind:build:` (see Hyva.TaskName); the two differ by a trailing colon. */
  const HyvaHookTarget := "hyva:tailwind:build"

  const HyvaThemesJsonTest := "[ -f {{release_or_current_path}}/{{magento_dir}}/app/etc/hyva-themes.json ]"

  // ---------------------------------------------------------------- reading `-t` back

  /** The values a command line passes to `-t`: the word after each `-t` word. */
  function ThemesIn(ws: seq<string>): seq<string>
    decreases |ws|
  {
    if |ws| < 2 then []
    else if ws[0] == "-t" then [ws[1]] + ThemesIn(ws[2..])
    else ThemesIn(ws[1..])
  }

  /** The words `-t n0 -t n1 ...`. */
  function ThemeArgWords(names: seq<string>): (ws: seq<string>)
    ensures |ws| == 2 * |names|
    decreases |names|
  {
    if |names| == 0 then [] else ["-t", names[0]] + ThemeArgWords(names[1..])
  }

  lemma {:induction false} ThemesInSkip(a: seq<string>, b: seq<string>)
    requires "-t" !in a
    ensures ThemesIn(a + b) == ThemesIn(b)
    decreases |a|
  {
    if |a| > 0 {
      ThemesInSkip(a[1..], b);
      assert (a + b)[1..] == a[1..] + b;
      if |a + b| < 2 {
        assert b == [] && |a| == 1;
        assert ThemesIn(b) == [];
      }
    } else {
      assert a + b == b;
    }
  }

  lemma {:induction false} ThemesInTagged(names: seq<string>, rest: seq<string>)
    ensures ThemesIn(ThemeArgWords(names) + rest) == names + ThemesIn(rest)
    decreases |names|
  {
    if |names| > 0 {
      ThemesInTagged(names[1..], rest);
      var ws := ThemeArgWords(names) + rest;
      assert ws[2..] == ThemeArgWords(names[1..]) + rest;
      assert names == [names[0]] + names[1..];
    } else {
      assert ThemeArgWords(names) + rest == rest;
    }
  }

  /** The `-t` values of a command whose other words hold no `-t` are exactly the
      tagged theme names. */
  lemma ThemesInLayout(head: seq<string>, mid: seq<string>, names: seq<string>, tail: seq<string>)
    requires "-t" !in head && "-t" !in mid && "-t" !in tail
    ensures ThemesIn(head + mid + ThemeArgWords(names) + tail) == names
  {
    assert head + mid + ThemeArgWords(names) + tail == (head + mid) + (ThemeArgWords(names) + tail);
    ThemesInSkip(head + mid, ThemeArgWords(names) + tail);
    ThemesInTagged(names, tail);
    ThemesInSkip(tail, []);
    assert tail + [] == tail;
    assert ThemesIn([]) == [];
  }

  // ---------------------------------------------------------------- theme arguments

  /** A theme name the shell keeps as a single word. */
  predicate ThemeWords(names: seq<string>)
  {
    forall i :: 0 <= i < |names| ==> IsWord(names[i])
  }

  /** The `$themesToCompile` string `magento:deploy:assets` accumulates: ` -t <theme>`
      per theme. */
  function ThemeFlags(names: seq<string>): string
    decreases |names|
  {
    if |names| == 0 then "" else " -t " + names[0] + ThemeFlags(names[1..])
  }

  /** The accumulated flags are the tagged names space-joined, after one space. */
  lemma {:induction false} ThemeFlagsJoined(names: seq<string>)
    requires |names| > 0
    ensures ThemeFlags(names) == " " + Implode(" ", ThemeArgWords(names))
    decreases |names|
  {
    var head := ["-t", names[0]];
    assert ThemeArgWords(names) == head + ThemeArgWords(names[1..]);
    assert Implode(" ", head) == "-t" + " " + names[0];
    if |names| == 1 {
      assert ThemeArgWords(names[1..]) == [];
      assert head + [] == head;
    } else {
      ThemeFlagsJoined(names[1..]);
      ImplodeAppend(" ", head, ThemeArgWords(names[1..]));
    }
  }

  lemma ThemeFlagsWords(names: seq<string>)
    requires ThemeWords(names)
    ensures Words(ThemeFlags(names)) == ThemeArgWords(names)
  {
    if |names| == 0 {
      assert Split("", ' ') == [""];
    } else {
      ThemeFlagsJoined(names);
      WordsJoin("", Implode(" ", ThemeArgWords(names)));
      assert Words("") == [] by { assert Split("", ' ') == [""]; }
      var ws := ThemeArgWords(names);
      forall i | 0 <= i < |ws| ensures IsWord(ws[i]) {
        TaggedWord(names, i);
      }
      WordsOfAtoms(ws);
    }
  }

  lemma {:induction false} TaggedWord(names: seq<string>, i: int)
    requires ThemeWords(names) && 0 <= i < 2 * |names|
    ensures IsWord(ThemeArgWords(names)[i])
    decreases |names|
  {
    assert ThemeArgWords(names) == ["-t", names[0]] + ThemeArgWords(names[1..]);
    if i == 0 {
      assert ' ' !in "-t";
    } else if i >= 2 {
      TaggedWord(names[1..], i - 2);
    }
  }

  /** `'-t ' . implode(' -t ', $themes)` is the accumulated flags without their
      leading space. */
  lemma {:induction false} ImplodedFlags(names: seq<string>)
    requires |names| > 0
    ensures " " + ("-t " + Implode(" -t ", names)) == ThemeFlags(names)
    decreases |names|
  {
    if |names| > 1 {
      ImplodedFlags(names[1..]);
    } else {
      assert ThemeFlags(names[1..]) == "";
    }
  }

  lemma ImplodedFlagsWords(names: seq<string>)
    requires |names| > 0 && ThemeWords(names)
    ensures Words("-t " + Implode(" -t ", names)) == ThemeArgWords(names)
  {
    ImplodedFlags(names);
    ThemeFlagsWords(names);
    WordsJoin("", "-t " + Implode(" -t ", names));
    assert Words("") == [] by { assert Split("", ' ') == [""]; }
  }

  /** The list-form theme arguments exactly as `magentoDeployAssetsSplit` builds
      them: `'-t ' . implode(' -t ', $themes)`, also for an empty list. */
  function ListThemeArgsAsWritten(names: seq<string>): string
  {
    "-t " + Implode(" -t ", names)
  }

  /** The list-form theme arguments as the configuration promises them: one
      `-t <theme>` per listed theme and none at all for an empty list, which then
      deploys every theme, as the combined command and the backend default do. */
  function ListThemeArgs(names: seq<string>): string
  {
    if |names| == 0 then "" else ListThemeArgsAsWritten(names)
  }

  /** For an empty list the arguments as written are the single word `-t`. */
  lemma EmptyListArgsWords(area: string, languages: string)
    requires IsWord(area)
    ensures Words(ListThemeArgsAsWritten([])) == ["-t"]
    ensures Words(SplitDeployCommand(area, languages, ListThemeArgsAsWritten([])))
      == SplitDeployHead(area) + Words(languages) + ["-t"] + DeployTail
  {
    assert ListThemeArgsAsWritten([]) == "-t" + " " + "";
    WordsJoin("-t", "");
    WordsOfWord("-t");
    assert Words("") == [] by { assert Split("", ' ') == [""]; }
    SplitDeployWords(area, languages, ListThemeArgsAsWritten([]));
  }

  /** For an empty list the arguments as written are a bare `-t` with no theme
      word: the word after it is the `-j` of the job tail, which is all that
      `ThemesIn`, reading the word after each `-t`, finds. How the console then
      parses the options is not modelled. */
  lemma EmptyListBareTag(area: string, languages: string)
    requires IsWord(area) && "-t" !in Words(languages)
    ensures var ws := Words(SplitDeployCommand(area, languages, ListThemeArgsAsWritten([])));
      && ws == SplitDeployHead(area) + Words(languages) + ["-t"] + DeployTail
      && ThemesIn(ws) == ["-j"]
  {
    EmptyListArgsWords(area, languages);
    SplitDeployHeadUntagged(area);
    BareTagBeforeTail(SplitDeployHead(area) + Words(languages));
  }

  lemma SplitDeployHeadUntagged(area: string)
    ensures "-t" !in SplitDeployHead(area)
  {
    assert |SplitDeployHead(area)[4]| > 2;
  }

  /** After words without `-t`, a bare `-t` reads the tail's `-j` as its value. */
  lemma BareTagBeforeTail(head: seq<string>)
    requires "-t" !in head
    ensures ThemesIn(head + ["-t"] + DeployTail) == ["-j"]
  {
    var tail := ["-t"] + DeployTail;
    assert head + ["-t"] + DeployTail == head + tail;
    ThemesInSkip(head, tail);
    assert tail[2..] == ["{{static_content_jobs}}"];
    assert ThemesIn(tail) == ["-j"] + ThemesIn(tail[2..]);
  }

  /** The corrected arguments' words are `-t` and the name for each theme in
      order, and nothing for an empty list. */
  lemma ListThemeArgsWords(names: seq<string>)
    requires ThemeWords(names)
    ensures Words(ListThemeArgs(names)) == ThemeArgWords(names)
  {
    if |names| == 0 {
      assert Words("") == [] by { assert Split("", ' ') == [""]; }
    } else {
      ImplodedFlagsWords(names);
    }
  }

  // ---------------------------------------------------------------- commands

  function SplitDeployHead(area: string): seq<string>
  {
    ["{{bin/php}}", "{{bin/magento}}", "setup:static-content:deploy", "-f", "--area=" + area,
     "--content-version={{content_version}}", "{{static_deploy_options}}"]
  }

  const DeployTail: seq<string> := ["-j", "{{static_content_jobs}}"]

  const CombinedDeployHead: seq<string> :=
    ["{{bin/php}}", "{{release_or_current_path}}/bin/magento", "setup:static-content:deploy", "-f",
     "--content-version={{content_version}}", "{{static_deploy_options}}", "{{static_content_locales}}"]

  /** The per-area deploy command: `... -f --area=<area> ... <languages> <theme args> -j ...`. */
  function SplitDeployCommand(area: string, languages: string, themeArgs: string): string
  {
    Implode(" ", SplitDeployHead(area) + [languages, themeArgs] + DeployTail)
  }

  /** The single deploy command of `magento:deploy:assets` when not split. */
  function CombinedDeployCommand(themeFlags: string): string
  {
    Implode(" ", CombinedDeployHead + [themeFlags] + DeployTail)
  }

  lemma {:induction false} WordsOfLayout(head: seq<string>, mid: seq<string>, tail: seq<string>)
    requires |head| > 0 && |mid| > 0 && |tail| > 0
    requires forall i :: 0 <= i < |head| ==> IsWord(head[i])
    requires forall i :: 0 <= i < |tail| ==> IsWord(tail[i])
    ensures Words(Implode(" ", head + mid + tail)) == head + Words(Implode(" ", mid)) + tail
  {
    ImplodeAppend(" ", head + mid, tail);
    ImplodeAppend(" ", head, mid);
    WordsJoin(Implode(" ", head) + " " + Implode(" ", mid), Implode(" ", tail));
    WordsJoin(Implode(" ", head), Implode(" ", mid));
    WordsOfAtoms(head);
    WordsOfAtoms(tail);
  }

  /** The words of a per-area command: the fixed head with `--area=<area>`, the
      languages' words, the theme arguments' words, then `-j` and the job count. */
  lemma SplitDeployWords(area: string, languages: string, themeArgs: string)
    requires IsWord(area)
    ensures Words(SplitDeployCommand(area, languages, themeArgs))
      == SplitDeployHead(area) + Words(languages) + Words(themeArgs) + DeployTail
  {
    var head := SplitDeployHead(area);
    SplitDeployHeadWords(area);
    DeployTailWords();
    WordsOfLayout(head, [languages, themeArgs], DeployTail);
    WordsJoin(languages, themeArgs);
  }

  lemma SplitDeployHeadWords(area: string)
    requires IsWord(area)
    ensures forall i :: 0 <= i < |SplitDeployHead(area)| ==> IsWord(SplitDeployHead(area)[i])
  {
    assert ' ' !in "--area=" + area;
  }

  lemma DeployTailWords()
    ensures forall i :: 0 <= i < |DeployTail| ==> IsWord(DeployTail[i])
  {
  }

  lemma CombinedDeployWords(themeFlags: string)
    ensures Words(CombinedDeployCommand(themeFlags)) == CombinedDeployHead + Words(themeFlags) + DeployTail
  {
    CombinedDeployHeadWords();
    DeployTailWords();
    WordsOfLayout(CombinedDeployHead, [themeFlags], DeployTail);
  }

  lemma CombinedDeployHeadWords()
    ensures forall i :: 0 <= i < |CombinedDeployHead| ==> IsWord(CombinedDeployHead[i])
  {
  }

  // ---------------------------------------------------------------- magento:deploy:assets

  /** The themes `magento:deploy:assets` passes: the values of a list-form
      configuration, the keys of a map-form one. */
  function DeployedThemes(es: seq<(Key, Value)>): seq<string>
  {
    if IsList(es) then ValueStrings(es) else KeyStrings(es)
  }

  /** Body of `magento:deploy:assets`. */
  function DeployAssets(vars: Vars, h: Host): Trace
  {
    match Get(vars, "split_static_deployment")
    case Err(f) => Fail(f)
    case Ok(split) =>
      if Truthy(split) then
        Emit(Invoke(AdminhtmlTask), Emit(Invoke(FrontendTask), Finish()))
      else
        match Get(vars, "magento_themes")
        case Err(f) => Fail(f)
        case Ok(themes) =>
          if !themes.Arr? then
            Fail(TypeError("count(): Argument #1 ($value) must be of type Countable|array"))
          else
            var flags := if |themes.entries| > 0 then ThemeFlags(DeployedThemes(themes.entries)) else "";
            RunThen(h, CombinedDeployCommand(flags), Finish())
  }

  /** With split deployment on, the task invokes the adminhtml and then the
      frontend deployment and runs nothing itself. */
  lemma DeployAssetsSplitOn(vars: Vars, h: Host)
    requires "split_static_deployment" in vars && vars["split_static_deployment"].Ok?
    requires Truthy(vars["split_static_deployment"].value)
    ensures DeployAssets(vars, h) == Trace([Invoke(AdminhtmlTask), Invoke(FrontendTask)], [], Completed)
  {
  }

  /** With split deployment off, the task runs exactly one deploy command whose
      `-t` values are the configured themes (list values or map keys) in order;
      an empty configuration passes no `-t` at all. */
  lemma DeployAssetsSplitOff(vars: Vars, h: Host)
    requires Reliable(h.remote)
    requires "split_static_deployment" in vars && vars["split_static_deployment"].Ok?
    requires !Truthy(vars["split_static_deployment"].value)
    requires "magento_themes" in vars && vars["magento_themes"].Ok? && vars["magento_themes"].value.Arr?
    requires ThemeWords(DeployedThemes(vars["magento_themes"].value.entries))
    ensures var t := DeployAssets(vars, h); var es := vars["magento_themes"].value.entries;
      && t.outcome == Completed && |t.effects| == 1 && t.effects[0].Run?
      && Words(t.effects[0].command) == CombinedDeployHead + ThemeArgWords(DeployedThemes(es)) + DeployTail
      && ThemesIn(Words(t.effects[0].command)) == DeployedThemes(es)
      && (es == [] ==> "-t" !in Words(t.effects[0].command))
  {
    var es := vars["magento_themes"].value.entries;
    var names := DeployedThemes(es);
    var flags := if |es| > 0 then ThemeFlags(names) else "";
    ThemeFlagsWords(names);
    assert |es| == 0 ==> names == [] && flags == ThemeFlags(names);
    CombinedDeployWords(flags);
    ThemesInLayout(CombinedDeployHead, [], names, DeployTail);
    assert CombinedDeployHead + [] == CombinedDeployHead;
  }

  // ---------------------------------------------------------------- magentoDeployAssetsSplit

  /** `parse($value)` takes a string; in PHP's coercive mode scalars are converted,
      null and arrays are a TypeError. Templating itself is not modelled. */
  function ParseArg(v: Value): Result<string>
  {
    match v
    case Null => Err(TypeError("parse(): Argument #1 ($value) must be of type string, null given"))
    case Arr(_) => Err(TypeError("parse(): Argument #1 ($value) must be of type string, array given"))
    case _ => Ok(ToStr(v))
  }

  /** `$themesConfig[$theme] ?? $defaultLanguages`. */
  function ThemeLanguages(v: Value, defaultLanguages: Value): Value
  {
    if v.Null? then defaultLanguages else v
  }

  /** The `setup:static-content:deploy` area for a deployment area. */
  function StaticArea(area: string): string
  {
    if area == "frontend" then "frontend" else "adminhtml"
  }

  /** The suffix of the variables an area reads. */
  function AreaSuffix(area: string): string
  {
    if area == "frontend" then "" else "_backend"
  }

  /** The map-form loop: one deploy command per theme key, in order. */
  function PerThemeRuns(h: Host, area: string, defaultLanguages: Value, es: seq<(Key, Value)>): (t: Trace)
    ensures
      (Reliable(h.remote) && forall i :: 0 <= i < |es| ==> ParseArg(ThemeLanguages(es[i].1, defaultLanguages)).Ok?) ==>
        && t.outcome == Completed && |t.effects| == |es|
        && forall i :: 0 <= i < |es| ==>
          t.effects[i] == Run(SplitDeployCommand(area,
            ParseArg(ThemeLanguages(es[i].1, defaultLanguages)).value, "-t " + KeyToStr(es[i].0)))
    decreases |es|
  {
    if |es| == 0 then Finish()
    else
      match ParseArg(ThemeLanguages(es[0].1, defaultLanguages))
      case Err(f) => Fail(f)
      case Ok(languages) =>
        RunThen(h, SplitDeployCommand(area, languages, "-t " + KeyToStr(es[0].0)),
          PerThemeRuns(h, area, defaultLanguages, es[1..]))
  }

  /** `magentoDeployAssetsSplit($area)`, with the list form's theme arguments
      corrected for an empty list (`ListThemeArgs`). */
  function DeployAssetsSplit(area: string, vars: Vars, h: Host): (t: Trace)
    ensures area != "frontend" && area != "backend" ==>
      t == Fail(ConfigurationError("$area must be either 'frontend' or 'backend', '" + area + "' given"))
  {
    if area != "frontend" && area != "backend" then
      Fail(ConfigurationError("$area must be either 'frontend' or 'backend', '" + area + "' given"))
    else
      match Get(vars, "magento_themes" + AreaSuffix(area))
      case Err(f) => Fail(f)
      case Ok(themesConfig) =>
        match Get(vars, "static_content_locales" + AreaSuffix(area))
        case Err(f) => Fail(f)
        case Ok(defaultLanguages) =>
          if !themesConfig.Arr? then
            Fail(TypeError("array_is_list(): Argument #1 ($array) must be of type array"))
          else if IsList(themesConfig.entries) then
            RunThen(h, SplitDeployCommand(StaticArea(area), ToStr(defaultLanguages),
              ListThemeArgs(ValueStrings(themesConfig.entries))), Finish())
          else
            PerThemeRuns(h, StaticArea(area), defaultLanguages, themesConfig.entries)
  }

  /** The variables an area reads and the area it deploys: `backend` reads the
      `_backend` variables and deploys `adminhtml`, `frontend` reads the unsuffixed
      ones and deploys `frontend`. */
  lemma AreaSelection()
    ensures AreaSuffix("backend") == "_backend" && StaticArea("backend") == "adminhtml"
    ensures AreaSuffix("frontend") == "" && StaticArea("frontend") == "frontend"
    ensures "magento_themes" + AreaSuffix("backend") == "magento_themes_backend"
    ensures "static_content_locales" + AreaSuffix("backend") == "static_content_locales_backend"
    ensures "magento_themes" + AreaSuffix("frontend") == "magento_themes"
  {
  }

  /** An area's deployment depends on no variable but its two suffixed ones. */
  lemma DeployAssetsSplitReadsOnlyAreaVariables(area: string, v1: Vars, v2: Vars, h: Host)
    requires forall n :: n in {"magento_themes" + AreaSuffix(area), "static_content_locales" + AreaSuffix(area)} ==>
      (n in v1 <==> n in v2) && (n in v1 ==> v1[n] == v2[n])
    ensures DeployAssetsSplit(area, v1, h) == DeployAssetsSplit(area, v2, h)
  {
    var n1 := "magento_themes" + AreaSuffix(area);
    var n2 := "static_content_locales" + AreaSuffix(area);
    assert Get(v1, n1) == Get(v2, n1);
    assert Get(v1, n2) == Get(v2, n2);
  }

  /** A list-form configuration gives exactly one deploy command for the area,
      with the default languages and every theme as `-t <theme>`, in order; an
      empty list passes no `-t` at all. */
  lemma SplitListForm(area: string, vars: Vars, h: Host)
    requires area == "frontend" || area == "backend"
    requires Reliable(h.remote)
    requires Get(vars, "magento_themes" + AreaSuffix(area)).Ok?
    requires Get(vars, "static_content_locales" + AreaSuffix(area)).Ok?
    requires var c := Get(vars, "magento_themes" + AreaSuffix(area)).value;
      c.Arr? && IsList(c.entries) && ThemeWords(ValueStrings(c.entries))
    ensures var t := DeployAssetsSplit(area, vars, h);
      var es := Get(vars, "magento_themes" + AreaSuffix(area)).value.entries;
      var langs := ToStr(Get(vars, "static_content_locales" + AreaSuffix(area)).value);
      && t.outcome == Completed && |t.effects| == 1 && t.effects[0].Run?
      && Words(t.effects[0].command)
        == SplitDeployHead(StaticArea(area)) + Words(langs) + ThemeArgWords(ValueStrings(es)) + DeployTail
      && ("-t" !in Words(langs) ==> ThemesIn(Words(t.effects[0].command)) == ValueStrings(es))
  {
    var es := Get(vars, "magento_themes" + AreaSuffix(area)).value.entries;
    var langs := ToStr(Get(vars, "static_content_locales" + AreaSuffix(area)).value);
    var names := ValueStrings(es);
    SplitDeployWords(StaticArea(area), langs, ListThemeArgs(names));
    ListThemeArgsWords(names);
    if "-t" !in Words(langs) {
      ThemesInLayout(SplitDeployHead(StaticArea(area)), Words(langs), names, DeployTail);
    }
  }

  /** A map-form configuration gives one deploy command per theme key, in key
      order; each passes that key as its only `-t` value, with the theme's own
      languages or, when they are null, the default ones. */
  lemma SplitMapForm(area: string, vars: Vars, h: Host)
    requires area == "frontend" || area == "backend"
    requires Reliable(h.remote)
    requires Get(vars, "magento_themes" + AreaSuffix(area)).Ok?
    requires Get(vars, "static_content_locales" + AreaSuffix(area)).Ok?
    requires var c := Get(vars, "magento_themes" + AreaSuffix(area)).value;
      var d := Get(vars, "static_content_locales" + AreaSuffix(area)).value;
      && c.Arr? && !IsList(c.entries) && ThemeWords(KeyStrings(c.entries))
      && forall i :: 0 <= i < |c.entries| ==> ParseArg(ThemeLanguages(c.entries[i].1, d)).Ok?
    ensures var t := DeployAssetsSplit(area, vars, h);
      var es := Get(vars, "magento_themes" + AreaSuffix(area)).value.entries;
      var d := Get(vars, "static_content_locales" + AreaSuffix(area)).value;
      && t.outcome == Completed && |t.effects| == |es|
      && forall i :: 0 <= i < |es| ==>
        && t.effects[i].Run?
        && var langs := ParseArg(ThemeLanguages(es[i].1, d)).value;
        && Words(t.effects[i].command)
          == SplitDeployHead(StaticArea(area)) + Words(langs) + ["-t", KeyToStr(es[i].0)] + DeployTail
        && ("-t" !in Words(langs) ==> ThemesIn(Words(t.effects[i].command)) == [KeyToStr(es[i].0)])
  {
    var es := Get(vars, "magento_themes" + AreaSuffix(area)).value.entries;
    var d := Get(vars, "static_content_locales" + AreaSuffix(area)).value;
    var t := DeployAssetsSplit(area, vars, h);
    forall i | 0 <= i < |es|
      ensures t.effects[i].Run?
      ensures var langs := ParseArg(ThemeLanguages(es[i].1, d)).value;
        && Words(t.effects[i].command)
          == SplitDeployHead(StaticArea(area)) + Words(langs) + ["-t", KeyToStr(es[i].0)] + DeployTail
        && ("-t" !in Words(langs) ==> ThemesIn(Words(t.effects[i].command)) == [KeyToStr(es[i].0)])
    {
      var langs := ParseArg(ThemeLanguages(es[i].1, d)).value;
      var key := KeyToStr(es[i].0);
      assert KeyStrings(es)[i] == key;
      SingleThemeCommand(StaticArea(area), langs, key);
    }
  }

  /** A per-theme command passes its theme as its only `-t` value. */
  lemma SingleThemeCommand(area: string, langs: string, key: string)
    requires IsWord(area) && IsWord(key)
    ensures Words(SplitDeployCommand(area, langs, "-t " + key))
      == SplitDeployHead(area) + Words(langs) + ["-t", key] + DeployTail
    ensures "-t" !in Words(langs) ==> ThemesIn(Words(SplitDeployCommand(area, langs, "-t " + key))) == [key]
  {
    assert ThemeWords([key]);
    ImplodedFlagsWords([key]);
    assert Implode(" -t ", [key]) == key;
    assert ThemeArgWords([key]) == ["-t", key];
    SplitDeployWords(area, langs, "-t " + key);
    if "-t" !in Words(langs) {
      SplitDeployHeadUntagged(area);
      DeployTailWords();
      assert "-t" !in DeployTail;
      ThemesInLayout(SplitDeployHead(area), Words(langs), [key], DeployTail);
    }
  }

  // ---------------------------------------------------------------- hooks before magento:deploy:assets

  /** Body of `magento:sync:content_version`: every host gets the same `time()`
      value as its `content_version`. */
  function SyncContentVersion(hosts: seq<string>, now: int): (t: Trace)
    ensures t.outcome == Completed && t.log == [] && |t.effects| == |hosts|
    ensures forall i :: 0 <= i < |hosts| ==> t.effects[i] == HostSet(hosts[i], "content_version", Int(now))
    decreases |hosts|
  {
    if |hosts| == 0 then Finish()
    else Emit(HostSet(hosts[0], "content_version", Int(now)), SyncContentVersion(hosts[1..], now))
  }

  /** The anonymous hook before `magento:deploy:assets`: it invokes the Tailwind
      build only when `app/etc/hyva-themes.json` is absent. */
  function HyvaHook(h: Host): (t: Trace)
    ensures t.outcome == Completed && |t.log| == 1
    ensures h.remote.test(HyvaThemesJsonTest) ==> t.effects == []
    ensures !h.remote.test(HyvaThemesJsonTest) ==> t.effects == [Invoke(HyvaHookTarget)]
  {
    Say("Hyva themes detected, building TailwindCSS...",
      if !h.remote.test(HyvaThemesJsonTest) then Emit(Invoke(HyvaHookTarget), Finish()) else Finish())
  }
}

=== FILE: cacheprefix.dfy ===
/** `magento:set_cache_prefix`: a fresh cache `id_prefix` per release, written into
    the shared `app/etc/env.php` array, with the Redis preload keys renamed to the
    new prefix. The env file's PHP array is read and written through key paths with
    PHP's own rules: `isset`, reads of missing keys, and writes that create the
    intermediate arrays. */
module CachePrefix {
  import opened Php
  import opened Effects

  const EnvConfigFilePath := "app/etc/env.php"
  const TmpEnvConfigFilePath := "app/etc/env_tmp.php"

  // ---------------------------------------------------------------- PHP arrays by key

  /** `$array[$k]` on an array: the first entry with that key. */
  function Lookup(es: seq<(Key, Value)>, k: Key): (r: Option<Value>)
    ensures r.None? <==> forall i :: 0 <= i < |es| ==> es[i].0 != k
    ensures r.Some? ==> exists i :: 0 <= i < |es| && es[i] == (k, r.value)
    decreases |es|
  {
    if |es| == 0 then None
    else if es[0].0 == k then Some(es[0].1)
    else Lookup(es[1..], k)
  }

  /** `$array[$k] = $x`: an existing entry keeps its place, a new key is appended. */
  function Put(es: seq<(Key, Value)>, k: Key, x: Value): (r: seq<(Key, Value)>)
    ensures Lookup(r, k) == Some(x)
    ensures forall j :: j != k ==> Lookup(r, j) == Lookup(es, j)
    ensures Lookup(es, k).Some? ==> |r| == |es|
    ensures Lookup(es, k).None? ==> r == es + [(k, x)]
    decreases |es|
  {
    if |es| == 0 then [(k, x)]
    else if es[0].0 == k then [(k, x)] + es[1..]
    else [es[0]] + Put(es[1..], k, x)
  }

  /** The value at a key path, if every step is an array holding the key. */
  function GetPath(v: Value, path: seq<Key>): Option<Value>
    decreases |path|
  {
    if |path| == 0 then Some(v)
    else if !v.Arr? then None
    else match Lookup(v.entries, path[0])
      case None => None
      case Some(c) => GetPath(c, path[1..])
  }

  /** `isset($v[p0][p1]...)` for string keys: every step is an array holding the
      key, and the value found is not null. */
  predicate Isset(v: Value, path: seq<Key>)
  {
    GetPath(v, path).Some? && !GetPath(v, path).value.Null?
  }

  /** `$v[p0][p1]...` read where the enclosing arrays exist: a missing key reads as null. */
  function ReadPath(v: Value, path: seq<Key>): Value
  {
    match GetPath(v, path)
    case None => Null
    case Some(x) => x
  }

  /** A value a nested write can descend into: an array, or null or false, which
      PHP turns into an empty array. */
  predicate Container(v: Value)
  {
    v.Arr? || v == Null || v == Bool(false)
  }

  function Entries(v: Value): seq<(Key, Value)>
  {
    if v.Arr? then v.entries else []
  }

  /** The value below key `k` that a nested write descends into. */
  function Child(v: Value, k: Key): Value
  {
    match Lookup(Entries(v), k)
    case None => Null
    case Some(c) => c
  }

  /** Every step of the path meets a container. */
  predicate Writable(v: Value, path: seq<Key>)
    decreases |path|
  {
    |path| == 0 || (Container(v) && Writable(Child(v, path[0]), path[1..]))
  }

  /** `$v[p0][p1]... = $x`: missing, null or false steps become arrays; an int
      or true on the way throws PHP's `Error` "Cannot use a scalar value as
      an array". A string on the way is held to the same error, which is not what
      PHP does with a string offset. */
  function SetPath(v: Value, path: seq<Key>, x: Value): (r: Result<Value>)
    ensures r.Ok? <==> Writable(v, path)
    ensures r.Ok? && |path| > 0 ==> r.value.Arr?
    ensures r.Err? ==> r.error == EngineError("Cannot use a scalar value as an array")
    decreases |path|
  {
    if |path| == 0 then Ok(x)
    else if !Container(v) then Err(EngineError("Cannot use a scalar value as an array"))
    else match SetPath(Child(v, path[0]), path[1..], x)
      case Err(f) => Err(f)
      case Ok(c) => Ok(Arr(Put(Entries(v), path[0], c)))
  }

  /** A written value reads back. */
  lemma {:induction false} SetThenGet(v: Value, path: seq<Key>, x: Value)
    requires SetPath(v, path, x).Ok?
    ensures GetPath(SetPath(v, path, x).value, path) == Some(x)
    decreases |path|
  {
    if |path| > 0 {
      SetThenGet(Child(v, path[0]), path[1..], x);
    }
  }

  /** Two paths that part at some key: neither is a prefix of the other. */
  predicate Diverge(p: seq<Key>, q: seq<Key>)
    decreases |p|
  {
    |p| > 0 && |q| > 0 && (p[0] != q[0] || Diverge(p[1..], q[1..]))
  }

  /** A write leaves every path that parts from it as it was. */
  lemma {:induction false} SetFrame(v: Value, p: seq<Key>, x: Value, q: seq<Key>)
    requires SetPath(v, p, x).Ok? && Diverge(p, q)
    ensures GetPath(SetPath(v, p, x).value, q) == GetPath(v, q)
    decreases |p|
  {
    var c := SetPath(Child(v, p[0]), p[1..], x).value;
    var w := SetPath(v, p, x).value;
    assert w.entries == Put(Entries(v), p[0], c);
    if p[0] != q[0] {
      assert Lookup(w.entries, q[0]) == Lookup(Entries(v), q[0]);
    } else {
      SetFrame(Child(v, p[0]), p[1..], x, q[1..]);
      if !v.Arr? {
        assert GetPath(Null, q[1..]) == None by { assert |q[1..]| > 0; }
      }
    }
  }

  /** A write keeps every path that parts from it writable. */
  lemma {:induction false} SetKeepsWritable(v: Value, p: seq<Key>, x: Value, q: seq<Key>)
    requires SetPath(v, p, x).Ok? && Diverge(p, q) && Writable(v, q)
    ensures Writable(SetPath(v, p, x).value, q)
    decreases |p|
  {
    var c := SetPath(Child(v, p[0]), p[1..], x).value;
    var w := SetPath(v, p, x).value;
    assert w.entries == Put(Entries(v), p[0], c);
    if p[0] != q[0] {
      assert Child(w, q[0]) == Child(v, q[0]);
    } else {
      SetKeepsWritable(Child(v, p[0]), p[1..], x, q[1..]);
      assert Child(w, q[0]) == c;
    }
  }

  /** A path that parts from a write and is writable after it was writable before. */
  lemma {:induction false} SetWritableBack(v: Value, p: seq<Key>, x: Value, q: seq<Key>)
    requires SetPath(v, p, x).Ok? && Diverge(p, q) && Writable(SetPath(v, p, x).value, q)
    ensures Writable(v, q)
    decreases |p|
  {
    var c := SetPath(Child(v, p[0]), p[1..], x).value;
    var w := SetPath(v, p, x).value;
    assert w.entries == Put(Entries(v), p[0], c);
    if p[0] != q[0] {
      assert Child(w, q[0]) == Child(v, q[0]);
    } else {
      assert Child(w, q[0]) == c;
      SetWritableBack(Child(v, p[0]), p[1..], x, q[1..]);
    }
  }

  // ---------------------------------------------------------------- the rewrite

  function CacheKeys(frontend: string, leaf: seq<string>): seq<Key>
  {
    [StrKey("cache"), StrKey("frontend"), StrKey(frontend)] + seq(|leaf|, i requires 0 <= i < |leaf| => StrKey(leaf[i]))
  }

  const PreloadKeysPath: seq<Key> := CacheKeys("default", ["backend_options", "preload_keys"])
  const DefaultIdPrefixPath: seq<Key> := CacheKeys("default", ["id_prefix"])
  const PageCacheIdPrefixPath: seq<Key> := CacheKeys("page_cache", ["id_prefix"])

  lemma WrittenPathsDiverge()
    ensures Diverge(PreloadKeysPath, DefaultIdPrefixPath) && Diverge(DefaultIdPrefixPath, PreloadKeysPath)
    ensures Diverge(PreloadKeysPath, PageCacheIdPrefixPath) && Diverge(DefaultIdPrefixPath, PageCacheIdPrefixPath)
    ensures Diverge(PageCacheIdPrefixPath, DefaultIdPrefixPath) && Diverge(PageCacheIdPrefixPath, PreloadKeysPath)
  {
    assert PreloadKeysPath == [StrKey("cache"), StrKey("frontend"), StrKey("default"), StrKey("backend_options"), StrKey("preload_keys")];
    assert DefaultIdPrefixPath == [StrKey("cache"), StrKey("frontend"), StrKey("default"), StrKey("id_prefix")];
    assert PageCacheIdPrefixPath == [StrKey("cache"), StrKey("frontend"), StrKey("page_cache"), StrKey("id_prefix")];
  }

  /** `preg_replace('/^' . $oldPrefix . '/', $prefixUpdate, $s)` for an old prefix without regular
      expression metacharacters and a new prefix without `$` or `\` back-references
      (`$0`, `${1}`, `\1`, ...): a leading occurrence of `oldPrefix` becomes `newPrefix`. */
  function ReplaceLeading(s: string, oldPrefix: string, newPrefix: string): (r: string)
    ensures oldPrefix <= s ==> newPrefix <= r && r[|newPrefix|..] == s[|oldPrefix|..]
    ensures !(oldPrefix <= s) ==> r == s
  {
    if oldPrefix <= s then newPrefix + s[|oldPrefix|..] else s
  }

  /** One preload key after `preg_replace`: the subject is converted to a string;
      an array subject is replaced element by element. */
  function RenameKey(k: Value, oldPrefix: string, newPrefix: string): Value
  {
    match k
    case Arr(es) => Arr(seq(|es|, i requires 0 <= i < |es| => (es[i].0, Str(ReplaceLeading(ToStr(es[i].1), oldPrefix, newPrefix)))))
    case _ => Str(ReplaceLeading(ToStr(k), oldPrefix, newPrefix))
  }

  /** The `foreach` that builds `$newPreloadKeys`: one renamed key per entry, in
      order; a non-array is iterated as empty. */
  function RenamedKeys(keys: Value, oldPrefix: string, newPrefix: string): (r: seq<Value>)
    ensures keys.Arr? ==> |r| == |keys.entries|
    ensures keys.Arr? ==> forall i :: 0 <= i < |r| ==> r[i] == RenameKey(keys.entries[i].1, oldPrefix, newPrefix)
    ensures !keys.Arr? ==> r == []
  {
    if keys.Arr? then seq(|keys.entries|, i requires 0 <= i < |keys.entries| => RenameKey(keys.entries[i].1, oldPrefix, newPrefix))
    else []
  }

  /** The env array after the rewrite: the preload keys renamed when they are set,
      then the default and page-cache `id_prefix` set to the new prefix. */
  function RewriteEnv(env: Value, prefix: string): Result<Value>
  {
    var preloaded :=
      if Isset(env, PreloadKeysPath) then
        var oldPrefix := ToStr(ReadPath(env, DefaultIdPrefixPath));
        SetPath(env, PreloadKeysPath, List(RenamedKeys(ReadPath(env, PreloadKeysPath), oldPrefix, prefix)))
      else Ok(env);
    match preloaded
    case Err(f) => Err(f)
    case Ok(e1) =>
      match SetPath(e1, DefaultIdPrefixPath, Str(prefix))
      case Err(f) => Err(f)
      case Ok(e2) => SetPath(e2, PageCacheIdPrefixPath, Str(prefix))
  }

  /** No scalar stands in the way of the paths the rewrite writes: the two
      prefixes, and the preload keys when they are set. */
  predicate Rewritable(env: Value)
  {
    && Writable(env, DefaultIdPrefixPath) && Writable(env, PageCacheIdPrefixPath)
    && (Isset(env, PreloadKeysPath) ==> Writable(env, PreloadKeysPath))
  }

  /** Both prefixes hold the new prefix afterwards. */
  lemma RewriteSetsPrefixes(env: Value, prefix: string)
    requires Rewritable(env)
    ensures RewriteEnv(env, prefix).Ok?
    ensures GetPath(RewriteEnv(env, prefix).value, DefaultIdPrefixPath) == Some(Str(prefix))
    ensures GetPath(RewriteEnv(env, prefix).value, PageCacheIdPrefixPath) == Some(Str(prefix))
  {
    RewriteSucceeds(env, prefix);
    WrittenPathsDiverge();
    var e1 := if Isset(env, PreloadKeysPath) then
        SetPath(env, PreloadKeysPath, List(RenamedKeys(ReadPath(env, PreloadKeysPath), ToStr(ReadPath(env, DefaultIdPrefixPath)), prefix))).value
      else env;
    var e2 := SetPath(e1, DefaultIdPrefixPath, Str(prefix)).value;
    SetThenGet(e1, DefaultIdPrefixPath, Str(prefix));
    SetThenGet(e2, PageCacheIdPrefixPath, Str(prefix));
    SetFrame(e2, PageCacheIdPrefixPath, Str(prefix), DefaultIdPrefixPath);
  }

  /** Set preload keys are replaced by a list of the same length and order, each
      key with a leading old prefix renamed; unset ones are left exactly as they were. */
  lemma RewritePreloadKeys(env: Value, prefix: string)
    requires Rewritable(env)
    ensures RewriteEnv(env, prefix).Ok?
    ensures var r := RewriteEnv(env, prefix).value;
      var oldPrefix := ToStr(ReadPath(env, DefaultIdPrefixPath));
      && (Isset(env, PreloadKeysPath) ==>
            GetPath(r, PreloadKeysPath) == Some(List(RenamedKeys(ReadPath(env, PreloadKeysPath), oldPrefix, prefix))))
      && (!Isset(env, PreloadKeysPath) ==> GetPath(r, PreloadKeysPath) == GetPath(env, PreloadKeysPath))
  {
    RewriteSucceeds(env, prefix);
    WrittenPathsDiverge();
    var oldPrefix := ToStr(ReadPath(env, DefaultIdPrefixPath));
    var e1 := if Isset(env, PreloadKeysPath) then
        SetPath(env, PreloadKeysPath, List(RenamedKeys(ReadPath(env, PreloadKeysPath), oldPrefix, prefix))).value
      else env;
    var e2 := SetPath(e1, DefaultIdPrefixPath, Str(prefix)).value;
    if Isset(env, PreloadKeysPath) {
      SetThenGet(env, PreloadKeysPath, List(RenamedKeys(ReadPath(env, PreloadKeysPath), oldPrefix, prefix)));
    }
    SetFrame(e1, DefaultIdPrefixPath, Str(prefix), PreloadKeysPath);
    SetFrame(e2, PageCacheIdPrefixPath, Str(prefix), PreloadKeysPath);
  }

  /** Nothing outside the three written paths changes. */
  lemma RewriteFrame(env: Value, prefix: string, q: seq<Key>)
    requires Rewritable(env)
    requires Diverge(PreloadKeysPath, q) && Diverge(DefaultIdPrefixPath, q) && Diverge(PageCacheIdPrefixPath, q)
    ensures RewriteEnv(env, prefix).Ok?
    ensures GetPath(RewriteEnv(env, prefix).value, q) == GetPath(env, q)
  {
    RewriteSucceeds(env, prefix);
    var oldPrefix := ToStr(ReadPath(env, DefaultIdPrefixPath));
    var e1 := if Isset(env, PreloadKeysPath) then
        SetPath(env, PreloadKeysPath, List(RenamedKeys(ReadPath(env, PreloadKeysPath), oldPrefix, prefix))).value
      else env;
    var e2 := SetPath(e1, DefaultIdPrefixPath, Str(prefix)).value;
    if Isset(env, PreloadKeysPath) {
      SetFrame(env, PreloadKeysPath, List(RenamedKeys(ReadPath(env, PreloadKeysPath), oldPrefix, prefix)), q);
    }
    SetFrame(e1, DefaultIdPrefixPath, Str(prefix), q);
    SetFrame(e2, PageCacheIdPrefixPath, Str(prefix), q);
  }

  /** The rewrite fails exactly when a scalar stands in the way of one of the
      paths it writes (PHP's "Cannot use a scalar value as an array"). */
  lemma RewriteSucceeds(env: Value, prefix: string)
    ensures RewriteEnv(env, prefix).Ok? <==> Rewritable(env)
  {
    WrittenPathsDiverge();
    var oldPrefix := ToStr(ReadPath(env, DefaultIdPrefixPath));
    var keys := List(RenamedKeys(ReadPath(env, PreloadKeysPath), oldPrefix, prefix));
    var s1 := if Isset(env, PreloadKeysPath) then SetPath(env, PreloadKeysPath, keys) else Ok(env);
    if Rewritable(env) {
      var e1 := s1.value;
      if Isset(env, PreloadKeysPath) {
        SetKeepsWritable(env, PreloadKeysPath, keys, DefaultIdPrefixPath);
        SetKeepsWritable(env, PreloadKeysPath, keys, PageCacheIdPrefixPath);
      }
      SetKeepsWritable(e1, DefaultIdPrefixPath, Str(prefix), PageCacheIdPrefixPath);
    }
    if RewriteEnv(env, prefix).Ok? {
      var e1 := s1.value;
      var e2 := SetPath(e1, DefaultIdPrefixPath, Str(prefix)).value;
      SetWritableBack(e1, DefaultIdPrefixPath, Str(prefix), PageCacheIdPrefixPath);
      if Isset(env, PreloadKeysPath) {
        SetWritableBack(env, PreloadKeysPath, keys, DefaultIdPrefixPath);
        SetWritableBack(env, PreloadKeysPath, keys, PageCacheIdPrefixPath);
      }
    }
  }

  // ---------------------------------------------------------------- the task

  const SharedEnvPath := "{{deploy_path}}/shared/{{magento_dir}}/" + EnvConfigFilePath
  const SharedTmpEnvPath := "{{deploy_path}}/shared/{{magento_dir}}/" + TmpEnvConfigFilePath
  const RemoveReleaseEnvCommand := "rm {{release_or_current_path}}/{{magento_dir}}/" + EnvConfigFilePath
  const ReleaseEnvPath := "{{release_path}}/{{magento_dir}}/" + EnvConfigFilePath
  const SymlinkEnvCommand := "{{bin/symlink}} " + SharedTmpEnvPath + " " + ReleaseEnvPath

  /** `get('magento_cache_id_prefix') . '_' . get('release_name') . '_'`. */
  function NewPrefix(vars: Vars): (r: Result<string>)
    ensures Get(vars, "magento_cache_id_prefix").Err? ==> r == Err(Get(vars, "magento_cache_id_prefix").error)
    ensures r.Ok? <==> Get(vars, "magento_cache_id_prefix").Ok? && Get(vars, "release_name").Ok?
    ensures r.Ok? ==>
      r.value == ToStr(Get(vars, "magento_cache_id_prefix").value) + "_" + ToStr(Get(vars, "release_name").value) + "_"
  {
    match Get(vars, "magento_cache_id_prefix")
    case Err(f) => Err(f)
    case Ok(p) =>
      match Get(vars, "release_name")
      case Err(f) => Err(f)
      case Ok(n) => Ok(ToStr(p) + "_" + ToStr(n) + "_")
  }

  /** The steps after the rewrite: write the array to the temporary file, upload it
      as the shared `env_tmp.php`, remove the release's `env.php` and link it to the
      uploaded file. */
  function Publish(h: Host, tmp: string, updated: Value): (t: Trace)
    ensures h.remote.exitCode(RemoveReleaseEnvCommand) == 0 && h.remote.exitCode(SymlinkEnvCommand) == 0 ==>
      t == Trace([WriteLocalFile(tmp, updated), Upload(tmp, SharedTmpEnvPath),
                  Run(RemoveReleaseEnvCommand), Run(SymlinkEnvCommand)], [], Completed)
    ensures h.remote.exitCode(RemoveReleaseEnvCommand) != 0 ==>
      t.effects == [WriteLocalFile(tmp, updated), Upload(tmp, SharedTmpEnvPath), Run(RemoveReleaseEnvCommand)]
      && t.outcome.Failed?
  {
    Emit(WriteLocalFile(tmp, updated),
      Emit(Upload(tmp, SharedTmpEnvPath),
        RunThen(h, RemoveReleaseEnvCommand,
          RunThen(h, SymlinkEnvCommand, Finish()))))
  }

  /** Body of `magento:set_cache_prefix`. `env` is what including the downloaded
      file returns and `tmp` the temporary file `tempnam` names. The task downloads
      the shared env file first; a variable that cannot be read or a rewrite that
      fails stops it before anything is written or uploaded. */
  function SetCachePrefix(vars: Vars, h: Host, env: Value, tmp: string): (t: Trace)
    ensures NewPrefix(vars).Ok? && RewriteEnv(env, NewPrefix(vars).value).Ok? ==>
      t == Emit(Download(SharedEnvPath, tmp), Publish(h, tmp, RewriteEnv(env, NewPrefix(vars).value).value))
    ensures NewPrefix(vars).Err? || RewriteEnv(env, NewPrefix(vars).value).Err? ==>
      t.effects == [Download(SharedEnvPath, tmp)] && t.outcome.Failed?
  {
    Emit(Download(SharedEnvPath, tmp),
      match NewPrefix(vars)
      case Err(f) => Fail(f)
      case Ok(prefix) =>
        match RewriteEnv(env, prefix)
        case Err(f) => Fail(f)
        case Ok(updated) => Publish(h, tmp, updated))
  }

  /** With every command succeeding, the task downloads, writes, uploads, removes
      and links, in that order. */
  lemma SetCachePrefixTrace(vars: Vars, h: Host, env: Value, tmp: string)
    requires NewPrefix(vars).Ok? && Rewritable(env)
    requires Reliable(h.remote)
    ensures RewriteEnv(env, NewPrefix(vars).value).Ok?
    ensures var updated := RewriteEnv(env, NewPrefix(vars).value).value;
      SetCachePrefix(vars, h, env, tmp) == Trace(
        [Download(SharedEnvPath, tmp), WriteLocalFile(tmp, updated), Upload(tmp, SharedTmpEnvPath),
         Run(RemoveReleaseEnvCommand), Run(SymlinkEnvCommand)], [], Completed)
  {
    RewriteSucceeds(env, NewPrefix(vars).value);
    var updated := RewriteEnv(env, NewPrefix(vars).value).value;
    assert h.remote.exitCode(RemoveReleaseEnvCommand) == 0 && h.remote.exitCode(SymlinkEnvCommand) == 0;
    var p := Publish(h, tmp, updated);
    var e1, e2, e3 := Download(SharedEnvPath, tmp), WriteLocalFile(tmp, updated), Upload(tmp, SharedTmpEnvPath);
    var e4, e5 := Run(RemoveReleaseEnvCommand), Run(SymlinkEnvCommand);
    assert p.effects == [e2, e3, e4, e5];
    PrependOne(e1, [e2, e3, e4, e5]);
  }

  lemma PrependOne<T>(x: T, xs: seq<T>)
    requires |xs| == 4
    ensures [x] + xs == [x, xs[0], xs[1], xs[2], xs[3]]
  {
  }

  /** The link command's arguments are the uploaded shared `env_tmp.php` and the
      release's `env.php`, in that order. */
  lemma SymlinkLayout()
    ensures Words(SymlinkEnvCommand) == ["{{bin/symlink}}", SharedTmpEnvPath, ReleaseEnvPath]
  {
    assert ' ' !in SharedTmpEnvPath && ' ' !in ReleaseEnvPath;
    ThreeWords("{{bin/symlink}}", SharedTmpEnvPath, ReleaseEnvPath);
    assert "{{bin/symlink}} " == "{{bin/symlink}}" + " ";
  }

  lemma ThreeWords(x: string, y: string, z: string)
    requires IsWord(x) && IsWord(y) && IsWord(z)
    ensures Words(x + " " + y + " " + z) == [x, y, z]
  {
    WordsJoin(x + " " + y, z);
    WordsJoin(x, y);
    WordsOfWord(x);
    WordsOfWord(y);
    WordsOfWord(z);
  }
}

=== FILE: config.dfy ===
/** The recipe's configuration: the default variable values, the two status
    probes whose sentinel exit code means "work needed", and the Magento version
    probe. */
module Config {
  import opened Php
  import opened Effects

  /** Exit code with which `app:config:status` reports that an import is needed. */
  const ConfigImportNeededExitCode := 2
  /** Exit code with which `setup:db:status` reports that an upgrade is needed. */
  const DbUpdateNeededExitCode := 2

  const ConfigStatusCommand := "{{bin/php}} {{bin/magento}} app:config:status"
  const DbStatusCommand := "{{bin/php}} {{bin/magento}} setup:db:status"
  const VersionCommand := "{{bin/php}} {{bin/magento}} --version"

  // ---------------------------------------------------------------- status probes

  /** A status probe: exit 0 means nothing to do, the sentinel exit code means
      work is needed, any other exit code is the command's failure. */
  function ClassifyStatus(command: string, sentinel: int, exitCode: int): Result<Value>
  {
    if exitCode == 0 then Ok(Bool(false))
    else if exitCode == sentinel then Ok(Bool(true))
    else Err(CommandFailed(command, exitCode))
  }

  /** The lazily computed `config_import_needed`. */
  function ConfigImportNeeded(h: Host): (r: Result<Value>)
    ensures var code := h.remote.exitCode(ConfigStatusCommand);
      && (r == Ok(Bool(false)) <==> code == 0)
      && (r == Ok(Bool(true)) <==> code == ConfigImportNeededExitCode)
      && (r.Err? <==> code != 0 && code != ConfigImportNeededExitCode)
      && (r.Err? ==> r.error == CommandFailed(ConfigStatusCommand, code))
  {
    ClassifyStatus(ConfigStatusCommand, ConfigImportNeededExitCode, h.remote.exitCode(ConfigStatusCommand))
  }

  /** The lazily computed `database_upgrade_needed`. */
  function DatabaseUpgradeNeeded(h: Host): (r: Result<Value>)
    ensures var code := h.remote.exitCode(DbStatusCommand);
      && (r == Ok(Bool(false)) <==> code == 0)
      && (r == Ok(Bool(true)) <==> code == DbUpdateNeededExitCode)
      && (r.Err? <==> code != 0 && code != DbUpdateNeededExitCode)
      && (r.Err? ==> r.error == CommandFailed(DbStatusCommand, code))
  {
    ClassifyStatus(DbStatusCommand, DbUpdateNeededExitCode, h.remote.exitCode(DbStatusCommand))
  }

  /** A failing status command never turns into a boolean: whatever the probe
      yields as a value, the command exited 0 or with the sentinel. */
  lemma StatusProbesNeverSwallowErrors(h: Host)
    ensures ConfigImportNeeded(h).Ok? ==>
      h.remote.exitCode(ConfigStatusCommand) in {0, ConfigImportNeededExitCode}
    ensures DatabaseUpgradeNeeded(h).Ok? ==>
      h.remote.exitCode(DbStatusCommand) in {0, DbUpdateNeededExitCode}
    ensures ConfigImportNeeded(h).Ok? ==> ConfigImportNeeded(h).value.Bool?
    ensures DatabaseUpgradeNeeded(h).Ok? ==> DatabaseUpgradeNeeded(h).value.Bool?
  {
  }

  // ---------------------------------------------------------------- magento_version

  /** The text `(\d+\.?)+` matches: a digit first, then digits and dots, never two
      dots in a row. */
  predicate VersionNumber(t: string)
  {
    && |t| > 0 && IsDigit(t[0])
    && (forall k :: 0 <= k < |t| ==> IsDigit(t[k]) || t[k] == '.')
    && (forall k :: 0 <= k < |t| - 1 ==> !(t[k] == '.' && t[k + 1] == '.'))
  }

  predicate AllDigits(t: string)
  {
    |t| > 0 && forall k :: 0 <= k < |t| ==> IsDigit(t[k])
  }

  /** The first position of `c` in `s`. */
  function IndexOf(s: string, c: char): (r: Option<nat>)
    ensures r.None? <==> c !in s
    ensures r.Some? ==> r.value < |s| && s[r.value] == c && c !in s[..r.value]
    decreases |s|
  {
    if |s| == 0 then None
    else if s[0] == c then Some(0)
    else
      match IndexOf(s[1..], c)
      case None => None
      case Some(k) => assert s[1..][..k] == s[1..k + 1]; Some(k + 1)
  }

  /** The text `(\d+\.?)+(-p\d+)?` matches in full. A version number holds no `-`, so
      the patch suffix, when present, starts at the first `-`. */
  predicate VersionText(t: string)
  {
    match IndexOf(t, '-')
    case None => VersionNumber(t)
    case Some(k) => VersionNumber(t[..k]) && k + 2 < |t| && t[k + 1] == 'p' && AllDigits(t[k + 2..])
  }

  /** Where `$` matches at the end of a subject: before a final newline, if any. */
  function MatchEnd(s: string): (e: nat)
    ensures e <= |s|
  {
    if |s| > 0 && s[|s| - 1] == '\n' then |s| - 1 else |s|
  }

  /** The leftmost start position, from `i` on, at which `matches` holds of the
      rest of the subject up to `e`. */
  function Leftmost(s: string, e: nat, i: nat, matches: string -> bool): (r: Option<nat>)
    requires i <= e <= |s|
    ensures r.None? ==> forall j :: i <= j < e ==> !matches(s[j..e])
    ensures r.Some? ==> i <= r.value < e && matches(s[r.value..e])
    ensures r.Some? ==> forall j :: i <= j < r.value ==> !matches(s[j..e])
    decreases e - i
  {
    if i == e then None
    else if matches(s[i..e]) then Some(i)
    else Leftmost(s, e, i + 1, matches)
  }

  /** What `preg_match('/(\d+\.?)+(-p\d+)?$/', $out, $m)` puts in `$m[0]`: the match
      that starts leftmost and ends where `$` matches; `'2.0'` when nothing matches. */
  function VersionFromOutput(out: string): (v: string)
    ensures var e := MatchEnd(out);
      || ((forall j :: 0 <= j < e ==> !VersionText(out[j..e])) && v == "2.0")
      || (&& |v| <= e && v == out[e - |v|..e] && VersionText(v)
          && forall j :: 0 <= j < e - |v| ==> !VersionText(out[j..e]))
  {
    var e := MatchEnd(out);
    match Leftmost(out, e, 0, VersionText)
    case None => "2.0"
    case Some(i) => out[i..e]
  }

  /** The lazily computed `magento_version`: the version command's failure
      propagates; otherwise the trailing version in its output, or '2.0'. */
  function MagentoVersion(h: Host): (r: Result<Value>)
    ensures h.remote.exitCode(VersionCommand) != 0 ==>
      r == Err(CommandFailed(VersionCommand, h.remote.exitCode(VersionCommand)))
    ensures h.remote.exitCode(VersionCommand) == 0 ==>
      var out := h.remote.stdout(VersionCommand); var e := MatchEnd(out);
      (forall j :: 0 <= j < e ==> !VersionText(out[j..e])) ==> r == Ok(Str("2.0"))
  {
    var code := h.remote.exitCode(VersionCommand);
    if code != 0 then Err(CommandFailed(VersionCommand, code))
    else Ok(Str(VersionFromOutput(h.remote.stdout(VersionCommand))))
  }

  /** The characters a version can hold. */
  predicate VersionChar(c: char)
  {
    IsDigit(c) || c == '.' || c == '-' || c == 'p'
  }

  lemma VersionTextChars(t: string)
    ensures VersionText(t) ==> forall k :: 0 <= k < |t| ==> VersionChar(t[k])
  {
    if VersionText(t) {
      match IndexOf(t, '-')
      case None =>
      case Some(n) =>
        forall k | 0 <= k < |t| ensures VersionChar(t[k]) {
          if k < n {
            assert t[k] == t[..n][k];
          } else if k > n + 1 {
            assert t[k] == t[n + 2..][k - n - 2];
          }
        }
    }
  }

  /** A version number followed by a patch level `-p<digits>` is a version. */
  lemma PatchedVersion(n: string, p: string)
    requires VersionNumber(n) && AllDigits(p)
    ensures VersionText(n + "-p" + p)
  {
    var t := n + "-p" + p;
    assert t[|n|] == '-';
    assert forall j :: 0 <= j < |n| ==> t[j] == n[j];
    IndexOfFirst(t, '-', |n|);
    assert t[..|n|] == n;
    assert t[|n| + 2..] == p;
  }

  lemma {:induction false} IndexOfFirst(s: string, c: char, k: nat)
    requires k < |s| && s[k] == c
    requires forall j :: 0 <= j < k ==> s[j] != c
    ensures IndexOf(s, c) == Some(k)
  {
    assert c in s;
  }

  /** Output that ends in a space and a version, such as `Magento CLI 2.4.7-p3`,
      yields exactly that version, with or without a final newline: no match can
      start at or before the space. */
  lemma TrailingVersion(prefix: string, v: string)
    requires VersionText(v)
    ensures VersionFromOutput(prefix + " " + v) == v
    ensures VersionFromOutput(prefix + " " + v + "\n") == v
  {
    VersionTextChars(v);
    var out := prefix + " " + v;
    assert out[|out| - 1] == v[|v| - 1];
    assert MatchEnd(out) == |out|;
    assert out[|prefix|] == ' ';
    assert out[|prefix| + 1..|out|] == v;
    TrailingVersionAt(out, |prefix| + 1, |prefix|);
    var outNl := out + "\n";
    assert MatchEnd(outNl) == |out|;
    assert outNl[|prefix|] == ' ';
    assert outNl[|prefix| + 1..|out|] == v;
    TrailingVersionAt(outNl, |prefix| + 1, |prefix|);
  }

  /** If the version pattern matches from `start + 1` to where `$` matches, and
      the character at `start` is none a version holds, matching starts at `start + 1`. */
  lemma TrailingVersionAt(out: string, start: nat, gap: nat)
    requires start == gap + 1 && start <= MatchEnd(out) && !VersionChar(out[gap])
    requires VersionText(out[start..MatchEnd(out)])
    ensures VersionFromOutput(out) == out[start..MatchEnd(out)]
  {
    var e := MatchEnd(out);
    forall j | 0 <= j <= gap ensures !VersionText(out[j..e]) {
      VersionTextChars(out[j..e]);
      assert out[j..e][gap - j] == out[gap];
    }
    var r := Leftmost(out, e, 0, VersionText);
    assert r.Some?;
  }

  const MagentoDirPrefix := "{{magento_dir}}/"

  const DefaultSharedFiles: seq<string> := [
    "{{magento_dir}}/app/etc/env.php",
    "{{magento_dir}}/var/.maintenance.ip"
  ]

  const DefaultSharedDirs: seq<string> := [
    "{{magento_dir}}/var/composer_home",
    "{{magento_dir}}/var/log",
    "{{magento_dir}}/var/export",
    "{{magento_dir}}/var/report",
    "{{magento_dir}}/var/import",
    "{{magento_dir}}/var/import_history",
    "{{magento_dir}}/var/session",
    "{{magento_dir}}/var/importexport",
    "{{magento_dir}}/var/backups",
    "{{magento_dir}}/var/tmp",
    "{{magento_dir}}/pub/sitemap",
    "{{magento_dir}}/pub/media",
    "{{magento_dir}}/pub/static/_cache"
  ]

  const DefaultWritableDirs: seq<string> := [
    "{{magento_dir}}/var",
    "{{magento_dir}}/pub/static",
    "{{magento_dir}}/pub/media",
    "{{magento_dir}}/generated",
    "{{magento_dir}}/var/page_cache"
  ]

  const DefaultClearPaths: seq<string> := [
    "{{magento_dir}}/generated/*",
    "{{magento_dir}}/pub/static/_cache/*",
    "{{magento_dir}}/var/generation/*",
    "{{magento_dir}}/var/cache/*",
    "{{magento_dir}}/var/page_cache/*",
    "{{magento_dir}}/var/view_preprocessed/*"
  ]

  const DefaultArtifactIncludes: seq<string> := [
    "app", "bin", "config", "generated", "lib", "pub", "setup", "vendor",
    "auth.json", "composer.json", "composer.lock"
  ]

  const DefaultArtifactExcludes: seq<string> := ["**/node_modules/**"]

  /** The variables the recipe sets to plain values when it is loaded
      (its lazily computed ones are added per host by DefaultsOn). */
  function Defaults(): Vars
  {
    map[
      "keep_releases" := Ok(Int(2)),
      "writable_mode" := Ok(Str("chmod")),
      "static_content_locales" := Ok(Str("en_US")),
      "magento_themes" := Ok(List([])),
      "static_deploy_options" := Ok(Str("--no-parent --no-js-bundle")),
      "split_static_deployment" := Ok(Bool(true)),
      "static_content_locales_backend" := Ok(Str("{{static_content_locales}}")),
      "magento_themes_backend" := Ok(Arr([(StrKey("Magento/backend"), Null)])),
      "static_content_jobs" := Ok(Str("4")),
      "magento_dir" := Ok(Str(".")),
      "shared_files" := Ok(StrList(DefaultSharedFiles)),
      "shared_dirs" := Ok(StrList(DefaultSharedDirs)),
      "writable_dirs" := Ok(StrList(DefaultWritableDirs)),
      "clear_paths" := Ok(StrList(DefaultClearPaths)),
      "bin/magento" := Ok(Str("{{release_or_current_path}}/{{magento_dir}}/bin/magento")),
      "enable_zerodowntime" := Ok(Bool(true)),
      "additional_shared_files" := Ok(List([])),
      "additional_shared_dirs" := Ok(List([])),
      "config_store_path" := Ok(Str("{{release_or_current_path}}/{{magento_dir}}/config/store")),
      "artifact_file" := Ok(Str("artifact.tar.zst")),
      "artifact_dir" := Ok(Str("artifacts")),
      "artifact_includes" := Ok(StrList(DefaultArtifactIncludes)),
      "artifact_excludes" := Ok(StrList(DefaultArtifactExcludes)),
      "repository" := Ok(Null)
    ]
  }

  /** The defaults together with the lazily computed variables as they resolve on
      host `h`, with `time()` returning `now`. */
  function DefaultsOn(h: Host, now: int): Vars
  {
    Defaults()[
      "content_version" := Ok(Int(now))][
      "magento_version" := MagentoVersion(h)][
      "config_import_needed" := ConfigImportNeeded(h)][
      "database_upgrade_needed" := DatabaseUpgradeNeeded(h)]
  }

  /** Assets are deployed split by area and zero-downtime deployment is on; the
      backend deploys the `Magento/backend` theme with the default locales. */
  lemma DefaultSwitches()
    ensures Defaults()["split_static_deployment"] == Ok(Bool(true))
    ensures Defaults()["enable_zerodowntime"] == Ok(Bool(true))
    ensures Defaults()["magento_themes_backend"] == Ok(Arr([(StrKey("Magento/backend"), Null)]))
    ensures Defaults()["static_content_locales_backend"] == Ok(Str("{{static_content_locales}}"))
    ensures Defaults()["magento_themes"] == Ok(List([]))
  {
  }

  /** Every default shared file, shared directory, writable directory and clear
      path lies under the Magento directory. */
  lemma DefaultPathsUnderMagentoDir()
    ensures forall p :: p in DefaultSharedFiles + DefaultSharedDirs + DefaultWritableDirs + DefaultClearPaths ==>
      |p| > |MagentoDirPrefix| && p[..|MagentoDirPrefix|] == MagentoDirPrefix
  {
  }
}

=== FILE: dbpull.dfy ===
/** `db:pull`: dump the database of the current host with n98-magerun2, download
    the dump, optionally import it into the local DDEV database, and remove the
    temporary dumps. The host alias and the timestamp (`date('Ymd-His')`) are
    parameters. */
module DbPull {
  import opened Php
  import opened Effects

  // ---------------------------------------------------------------- dump paths

  const RemoteDumpDir := "/tmp"
  const LocalDumpDir := "./.db/backups"

  /** The file name both dumps share. */
  function DumpName(alias: string, ts: string): string
  {
    "db-" + alias + "-" + ts + ".sql.gz"
  }

  function DumpRemote(alias: string, ts: string): string
  {
    RemoteDumpDir + "/" + DumpName(alias, ts)
  }

  function DumpLocal(alias: string, ts: string): string
  {
    LocalDumpDir + "/" + DumpName(alias, ts)
  }

  /** The remote and the local dump are the same file name in two directories,
      and `dirname` of each is its directory, which the task creates before
      writing there (for an alias and timestamp without slashes). */
  lemma DumpPathsShareName(alias: string, ts: string)
    requires '/' !in alias && '/' !in ts
    ensures Dirname(DumpRemote(alias, ts)) == RemoteDumpDir
    ensures Dirname(DumpLocal(alias, ts)) == LocalDumpDir
    ensures DumpRemote(alias, ts)[|RemoteDumpDir| + 1..] == DumpLocal(alias, ts)[|LocalDumpDir| + 1..]
  {
    var name := DumpName(alias, ts);
    assert '/' !in name by {
      assert name == "db-" + alias + "-" + ts + ".sql.gz";
      forall k | 0 <= k < |name|
        ensures name[k] != '/'
      {
        if k < 3 {
          assert name[k] == "db-"[k];
        } else if k < 3 + |alias| {
          assert name[k] == alias[k - 3];
        } else if k < 4 + |alias| {
          assert name[k] == '-';
        } else if k < 4 + |alias| + |ts| {
          assert name[k] == ts[k - 4 - |alias|];
        } else {
          assert name[k] == ".sql.gz"[k - 4 - |alias| - |ts|];
        }
      }
    }
    DirnameOfChild(RemoteDumpDir, name);
    DirnameOfChild(LocalDumpDir, name);
    assert DumpRemote(alias, ts)[|RemoteDumpDir| + 1..] == name;
    assert DumpLocal(alias, ts)[|LocalDumpDir| + 1..] == name;
  }

  // ---------------------------------------------------------------- options

  const DefaultStrip := "@trade @log"

  /** The resolved options: whether to import, whether to dump everything, and the
      `--strip` value. */
  datatype Options = Options(importDump: bool, full: bool, strip: string)

  lemma DefaultStripTrimmed()
    ensures Trim(DefaultStrip) == DefaultStrip
  {
    assert '@' !in WhiteSpace && 'g' !in WhiteSpace;
    assert DefaultStrip[0] == '@' && DefaultStrip[|DefaultStrip| - 1] == 'g';
    TrimUntouched(DefaultStrip, WhiteSpace);
  }

  /** `$stripInput` after the fallback: a partial dump with nothing (or only white
      space) configured strips the trade and log tables. */
  function StripValue(full: bool, raw: Value): (strip: string)
    ensures !full ==> strip != ""
    ensures Trim(strip) == strip
    ensures Trim(ToStr(raw)) != "" ==> strip == Trim(ToStr(raw))
    ensures !full && Trim(ToStr(raw)) == "" ==> strip == DefaultStrip
    ensures full ==> strip == Trim(ToStr(raw))
  {
    TrimCharsIdempotent(ToStr(raw), WhiteSpace);
    var s := Trim(ToStr(raw));
    if !full && s == "" then
      DefaultStripTrimmed();
      DefaultStrip
    else s
  }

  /** The options as the body reads them: `import` (default true), `full` (default
      false) and `strip` (default empty), each through `filter_var` or `trim`. */
  function ResolveOptions(vars: Vars): (r: Result<Options>)
    ensures GetOr(vars, "import", Bool(true)).Err? ==> r == Err(GetOr(vars, "import", Bool(true)).error)
    ensures r.Ok? ==>
      GetOr(vars, "import", Bool(true)).Ok? && GetOr(vars, "full", Bool(false)).Ok? && GetOr(vars, "strip", Str("")).Ok?
    ensures r.Ok? ==>
      && r.value.importDump == FilterBool(GetOr(vars, "import", Bool(true)).value)
      && r.value.full == FilterBool(GetOr(vars, "full", Bool(false)).value)
      && r.value.strip == StripValue(r.value.full, GetOr(vars, "strip", Str("")).value)
    ensures (GetOr(vars, "import", Bool(true)).Ok? && GetOr(vars, "full", Bool(false)).Ok?
      && GetOr(vars, "strip", Str("")).Ok?) ==> r.Ok?
  {
    match GetOr(vars, "import", Bool(true))
    case Err(f) => Err(f)
    case Ok(imp) =>
      match GetOr(vars, "full", Bool(false))
      case Err(f) => Err(f)
      case Ok(full) =>
        match GetOr(vars, "strip", Str(""))
        case Err(f) => Err(f)
        case Ok(strip) => Ok(Options(FilterBool(imp), FilterBool(full), StripValue(FilterBool(full), strip)))
  }

  /** With none of the three variables set, the dump is imported, partial, and
      strips the trade and log tables. */
  lemma DefaultOptions(vars: Vars)
    requires "import" !in vars && "full" !in vars && "strip" !in vars
    ensures ResolveOptions(vars) == Ok(Options(true, false, DefaultStrip))
  {
    assert GetOr(vars, "import", Bool(true)) == Ok(Bool(true));
    assert GetOr(vars, "full", Bool(false)) == Ok(Bool(false));
    assert GetOr(vars, "strip", Str("")) == Ok(Str(""));
    FilterBoolOfBool(true);
    FilterBoolOfBool(false);
    StripUnset();
  }

  lemma StripUnset()
    ensures StripValue(false, Str("")) == DefaultStrip
  {
    assert TrimLeft("", WhiteSpace) == "";
  }

  // ---------------------------------------------------------------- dump command

  const DumpBase := "{{bin/n98}}" + " db:dump --no-tablespaces --compression=gzip"

  /** `$dumpCmd`: the base command, `--strip=` with the quoted strip value unless
      the dump is full, and the quoted remote path. */
  function DumpCommand(full: bool, strip: string, remote: string): string
  {
    if full then DumpBase + " " + EscapeShellArg(remote)
    else DumpBase + " --strip=" + EscapeShellArg(strip) + " " + EscapeShellArg(remote)
  }

  /** What the shell reads from the dump command's arguments: a full dump passes
      the remote path alone; a partial one passes `--strip=` whose value reads back
      as exactly the strip value, then the remote path. */
  lemma DumpCommandArguments(full: bool, strip: string, remote: string)
    ensures var cmd := DumpCommand(full, strip, remote);
      && |DumpBase| < |cmd| && cmd[..|DumpBase|] == DumpBase
      && (full ==> ReadWord(cmd[|DumpBase| + 1..]) == Some(remote))
      && (!full ==>
            exists q1, q2 :: cmd == DumpBase + " --strip=" + q1 + " " + q2
              && ReadWord(q1) == Some(strip) && ReadWord(q2) == Some(remote))
  {
    EscapeShellArgRoundTrip(remote);
    EscapeShellArgRoundTrip(strip);
    var cmd := DumpCommand(full, strip, remote);
    if full {
      assert cmd[|DumpBase| + 1..] == EscapeShellArg(remote);
    } else {
      assert cmd == DumpBase + " --strip=" + EscapeShellArg(strip) + " " + EscapeShellArg(remote);
    }
  }

  // ---------------------------------------------------------------- the task

  const CreatingMessage := "<info>[db:pull] Creating remote dump via n98...</info>"
  const DownloadingMessage := "<info>[db:pull] Downloading dump...</info>"
  const CleaningRemoteMessage := "<info>[db:pull] Cleaning up remote dump...</info>"
  const ImportingMessage := "<info>[db:pull] Importing into local via ddev...</info>"
  const CleaningLocalMessage := "<info>[db:pull] Cleaning up local dump...</info>"
  const CompleteMessage := "<info>[db:pull] Database sync complete.</info>"

  function DumpCommandMessage(cmd: string): string
  {
    "<comment>[db:pull] Dump command: " + cmd + "</comment>"
  }

  function SkipImportMessage(local: string): string
  {
    "<comment>[db:pull] Skipping import (download only). Keeping local dump: " + local + "</comment>"
  }

  /** The two dumps with the directories `dirname` gives for them. */
  datatype Dumps = Dumps(remote: string, remoteDir: string, local: string, localDir: string)

  function DumpsOf(alias: string, ts: string): (d: Dumps)
    ensures d.remote == DumpRemote(alias, ts) && d.local == DumpLocal(alias, ts)
    ensures d.remoteDir == Dirname(d.remote) && d.localDir == Dirname(d.local)
  {
    var remote := DumpRemote(alias, ts);
    var local := DumpLocal(alias, ts);
    Dumps(remote, Dirname(remote), local, Dirname(local))
  }

  function RemoveCommand(path: string): string
  {
    "rm -f " + EscapeShellArg(path)
  }

  function ImportCommand(local: string): string
  {
    "ddev import-db --src=" + EscapeShellArg(local)
  }

  /** Body of `db:pull` for the host `alias` at time `ts`: the options are read
      before anything is issued. */
  function DbPull(vars: Vars, h: Host, alias: string, ts: string): (t: Trace)
    ensures ResolveOptions(vars).Err? ==> t == Fail(ResolveOptions(vars).error)
    ensures ResolveOptions(vars).Ok? ==>
      var o := ResolveOptions(vars).value;
      t == Pull(h, o.importDump, DumpsOf(alias, ts), DumpCommand(o.full, o.strip, DumpRemote(alias, ts)))
  {
    match ResolveOptions(vars)
    case Err(f) => Fail(f)
    case Ok(o) =>
      var d := DumpsOf(alias, ts);
      Pull(h, o.importDump, d, DumpCommand(o.full, o.strip, d.remote))
  }

  /** The body once the options are resolved, with `dump` the dump command: its
      statements in order, each with the lines written before it. */
  function Pull(h: Host, importDump: bool, d: Dumps, dump: string): Trace
  {
    Perform(h, PullSteps(importDump, d, dump), PullEnd(importDump, d.local))
  }

  function PullSteps(importDump: bool, d: Dumps, dump: string): seq<Step>
  {
    [Step([CreatingMessage, DumpCommandMessage(dump)], Run(MakeDirCommand(d.remoteDir))),
     Step([], Run(dump)),
     Step([DownloadingMessage], RunLocally(MakeDirCommand(d.localDir))),
     Step([], Download(d.remote, d.local)),
     Step([CleaningRemoteMessage], Run(RemoveCommand(d.remote)))]
    + ImportSteps(importDump, d.local)
  }

  function ImportSteps(importDump: bool, local: string): seq<Step>
  {
    if importDump then
      [Step([ImportingMessage], RunLocally(ImportCommand(local))),
       Step([CleaningLocalMessage], RunLocally(RemoveCommand(local)))]
    else []
  }

  /** The lines after the last statement. */
  function PullEnd(importDump: bool, local: string): Trace
  {
    if importDump then Trace([], [CompleteMessage], Completed)
    else Trace([], [SkipImportMessage(local), CompleteMessage], Completed)
  }

  /** What the body issues when every statement goes through. */
  function PullEffects(importDump: bool, d: Dumps, dump: string): seq<Effect>
  {
    [Run(MakeDirCommand(d.remoteDir)), Run(dump), RunLocally(MakeDirCommand(d.localDir)),
     Download(d.remote, d.local), Run(RemoveCommand(d.remote))]
    + ImportEffects(importDump, d.local)
  }

  function ImportEffects(importDump: bool, local: string): seq<Effect>
  {
    if importDump then [RunLocally(ImportCommand(local)), RunLocally(RemoveCommand(local))] else []
  }

  lemma PullIssued(importDump: bool, d: Dumps, dump: string)
    ensures Issued(PullSteps(importDump, d, dump)) == PullEffects(importDump, d, dump)
  {
  }

  /** The body's effects one by one. */
  lemma PullEffectsAt(importDump: bool, d: Dumps, dump: string)
    ensures var es := PullEffects(importDump, d, dump);
      && |es| == (if importDump then 7 else 5)
      && es[0] == Run(MakeDirCommand(d.remoteDir)) && es[1] == Run(dump)
      && es[2] == RunLocally(MakeDirCommand(d.localDir)) && es[3] == Download(d.remote, d.local)
      && es[4] == Run(RemoveCommand(d.remote))
      && (importDump ==> es[5] == RunLocally(ImportCommand(d.local)) && es[6] == RunLocally(RemoveCommand(d.local)))
  {
  }

  /** The dump command differs from every other command of the body. */
  lemma DumpCommandDistinct(full: bool, strip: string, remote: string)
    ensures |DumpCommand(full, strip, remote)| > 0 && DumpCommand(full, strip, remote)[0] == '{'
  {
  }

  lemma CommandsDiffer(d: Dumps, dump: string)
    requires |dump| > 0 && dump[0] == '{'
    ensures RemoveCommand(d.local) != MakeDirCommand(d.localDir)
    ensures RemoveCommand(d.local) != ImportCommand(d.local)
    ensures RemoveCommand(d.remote) != MakeDirCommand(d.remoteDir)
    ensures RemoveCommand(d.remote) != dump
    ensures MakeDirCommand(d.remoteDir) != dump
    ensures ImportCommand(d.local) != MakeDirCommand(d.localDir)
  {
    assert RemoveCommand(d.local)[0] == 'r' && RemoveCommand(d.remote)[0] == 'r';
    assert MakeDirCommand(d.localDir)[0] == 'm' && MakeDirCommand(d.remoteDir)[0] == 'm';
    assert ImportCommand(d.local)[0] == 'd';
  }

  /** No two statements of the body issue the same effect. */
  lemma PullDistinct(importDump: bool, d: Dumps, dump: string, j: nat)
    requires |dump| > 0 && dump[0] == '{'
    requires j < |PullEffects(importDump, d, dump)|
    ensures var es := PullEffects(importDump, d, dump);
      forall i :: 0 <= i < |es| && i != j ==> es[i] != es[j]
  {
    PullEffectsAt(importDump, d, dump);
    CommandsDiffer(d, dump);
  }

  /** On hosts where every command succeeds, the task completes having issued the
      remote directory and dump, the local directory, the download and the removal
      of the remote dump, and then, only when importing, the import and the
      removal of the local dump. */
  lemma PullReliable(h: Host, importDump: bool, d: Dumps, dump: string)
    requires Reliable(h.remote) && Reliable(h.local)
    ensures var t := Pull(h, importDump, d, dump);
      && t.outcome == Completed
      && t.effects == PullEffects(importDump, d, dump)
  {
    var steps := PullSteps(importDump, d, dump);
    PullIssued(importDump, d, dump);
    var es := PullEffects(importDump, d, dump);
    assert AllSucceed(h, es, |es|);
    PerformAll(h, steps, PullEnd(importDump, d.local));
    assert es + [] == es;
  }

  /** Whatever the hosts answer, the body issues a prefix of the remote directory,
      the dump, the local directory, the download, the removal of the remote dump
      and, when importing, the import and the removal of the local dump. */
  lemma PullInOrder(h: Host, importDump: bool, d: Dumps, dump: string)
    ensures Pull(h, importDump, d, dump).effects <= PullEffects(importDump, d, dump)
  {
    PullIssued(importDump, d, dump);
    PerformInOrder(h, PullSteps(importDump, d, dump), PullEnd(importDump, d.local));
    assert PullEffects(importDump, d, dump) + [] == PullEffects(importDump, d, dump);
  }

  /** The dump is downloaded exactly when the remote directory was made, the dump
      command succeeded and the local directory was made, whatever the hosts
      answer. */
  lemma DownloadAfterDump(h: Host, importDump: bool, d: Dumps, dump: string)
    ensures Download(d.remote, d.local) in Pull(h, importDump, d, dump).effects <==>
      && h.remote.exitCode(MakeDirCommand(d.remoteDir)) == 0
      && h.remote.exitCode(dump) == 0
      && h.local.exitCode(MakeDirCommand(d.localDir)) == 0
  {
    var steps := PullSteps(importDump, d, dump);
    var es := PullEffects(importDump, d, dump);
    PullIssued(importDump, d, dump);
    PullEffectsAt(importDump, d, dump);
    PerformIssues(h, steps, PullEnd(importDump, d.local), 3);
    AllSucceedNext(h, es, 0);
    AllSucceedNext(h, es, 1);
    AllSucceedNext(h, es, 2);
  }

  /** The remote dump is removed whenever the download was reached, import or not. */
  lemma RemoteDumpRemoved(h: Host, importDump: bool, d: Dumps, dump: string)
    requires |dump| > 0 && dump[0] == '{'
    ensures Run(RemoveCommand(d.remote)) in Pull(h, importDump, d, dump).effects <==>
      Download(d.remote, d.local) in Pull(h, importDump, d, dump).effects
  {
    var es := PullEffects(importDump, d, dump);
    assert es[3] == Download(d.remote, d.local) && es[4] == Run(RemoveCommand(d.remote));
    PullIssuesAt(h, importDump, d, dump, 3);
    PullIssuesAt(h, importDump, d, dump, 4);
    AllSucceedNext(h, es, 3);
  }

  /** The body's `j`-th effect is issued exactly when all before it went through. */
  lemma PullIssuesAt(h: Host, importDump: bool, d: Dumps, dump: string, j: nat)
    requires |dump| > 0 && dump[0] == '{'
    requires j < |PullEffects(importDump, d, dump)|
    ensures var es := PullEffects(importDump, d, dump);
      es[j] in Pull(h, importDump, d, dump).effects <==> AllSucceed(h, es, j)
  {
    var steps := PullSteps(importDump, d, dump);
    PullIssued(importDump, d, dump);
    PullDistinct(importDump, d, dump, j);
    PerformIssues(h, steps, PullEnd(importDump, d.local), j);
  }

  /** Without import the local dump is kept, whatever the hosts answer. */
  lemma LocalDumpKept(h: Host, d: Dumps, dump: string)
    requires |dump| > 0 && dump[0] == '{'
    ensures RunLocally(RemoveCommand(d.local)) !in Pull(h, false, d, dump).effects
  {
    var steps := PullSteps(false, d, dump);
    PullIssued(false, d, dump);
    PullEffectsAt(false, d, dump);
    CommandsDiffer(d, dump);
    PerformIssuesOnly(h, steps, PullEnd(false, d.local), RunLocally(RemoveCommand(d.local)));
  }

  /** When importing, the local dump is removed exactly when the import was issued
      and succeeded, whatever the hosts answer. */
  lemma LocalDumpRemovedAfterImport(h: Host, d: Dumps, dump: string)
    requires |dump| > 0 && dump[0] == '{'
    ensures var t := Pull(h, true, d, dump);
      RunLocally(RemoveCommand(d.local)) in t.effects <==>
        && RunLocally(ImportCommand(d.local)) in t.effects
        && h.local.exitCode(ImportCommand(d.local)) == 0
  {
    var steps := PullSteps(true, d, dump);
    var es := PullEffects(true, d, dump);
    var rest := PullEnd(true, d.local);
    PullIssued(true, d, dump);
    PullEffectsAt(true, d, dump);
    PullDistinct(true, d, dump, 5);
    PullDistinct(true, d, dump, 6);
    PerformIssues(h, steps, rest, 5);
    PerformIssues(h, steps, rest, 6);
    AllSucceedNext(h, es, 5);
  }
}

=== FILE: effects.dfy ===
/** What a task body sees and what it does.

    A task body reads configuration variables, asks hosts questions (`test`,
    `testLocally`), runs commands (`run`, `runLocally`), transfers files and invokes
    other tasks. It is modelled as a pure function from a variable store and a host
    to a Trace: the effects it issued in order, the console lines it wrote, and how
    it ended. */
module Effects {
  import opened Php

  /** Why a task body stopped abnormally. */
  datatype Failure =
    | CommandFailed(command: string, exitCode: int)   // a run() whose command exited non-zero
    | ConfigurationError(message: string)             // a ConfigurationException
    | UndefinedVariable(name: string)                 // get() of an unset variable without default
    | TypeError(message: string)                      // a PHP TypeError
    | EngineError(message: string)                    // any other PHP Error

  datatype Result<+T> = Ok(value: T) | Err(error: Failure)

  /** The variable store as a task body reads it: a lazily computed variable whose
      producer throws is held as the error it throws. */
  type Vars = map<string, Result<Value>>

  /** `get($name)`: an unset variable without default is an error. */
  function Get(vars: Vars, name: string): (r: Result<Value>)
    ensures name !in vars ==> r == Err(UndefinedVariable(name))
    ensures name in vars ==> r == vars[name]
  {
    if name in vars then vars[name] else Err(UndefinedVariable(name))
  }

  /** `get($name, $default)`. */
  function GetOr(vars: Vars, name: string, default: Value): (r: Result<Value>)
    ensures name !in vars ==> r == Ok(default)
    ensures name in vars ==> r == vars[name]
  {
    if name in vars then vars[name] else Ok(default)
  }

  /** A default only fills in for an unset variable: the two reads differ exactly
      when the name is unset, and a default never hides the error of a set
      variable's producer. */
  lemma DefaultOnlyForUnset(vars: Vars, name: string, default: Value)
    ensures GetOr(vars, name, default) != Get(vars, name) <==> name !in vars
    ensures GetOr(vars, name, default).Err? ==> GetOr(vars, name, default) == Get(vars, name)
    ensures Get(vars, name).Err? && Get(vars, name).error != UndefinedVariable(name) ==>
      GetOr(vars, name, default) == Get(vars, name)
  {
  }

  datatype Effect =
    | Run(command: string)                          // run() on the current host
    | RunLocally(command: string)                   // runLocally() on the control machine
    | Upload(source: string, destination: string)
    | Download(source: string, destination: string)
    | Invoke(task: string)                          // invoke() of another task
    | Set(name: string, value: Value)               // set() for the current host
    | HostSet(host: string, name: string, value: Value)   // $host->set() for a given host
    | WriteLocalFile(path: string, content: Value)  // a PHP array exported to a local file

  datatype Outcome =
    | Completed
    | Failed(error: Failure)
    | GracefulShutdown(reason: string)              // a GracefulShutdownException

  datatype Trace = Trace(effects: seq<Effect>, log: seq<string>, outcome: Outcome)

  /** One side of the remote-execution layer: the exit code of each command, the
      answer of each `test`, and the text `run` returns for each command. */
  datatype Shell = Shell(exitCode: string -> int, test: string -> bool, stdout: string -> string)

  /** The current host (remote side) and the control machine (local side). */
  datatype Host = Host(remote: Shell, local: Shell)

  /** Every command run on this side exits 0. */
  ghost predicate Reliable(s: Shell)
  {
    forall c :: s.exitCode(c) == 0
  }

  function Finish(): Trace
  {
    Trace([], [], Completed)
  }

  function Fail(f: Failure): Trace
  {
    Trace([], [], Failed(f))
  }

  function Emit(e: Effect, t: Trace): Trace
  {
    t.(effects := [e] + t.effects)
  }

  /** `writeln`. */
  function Say(line: string, t: Trace): Trace
  {
    t.(log := [line] + t.log)
  }

  /** Issue a command on one side; a non-zero exit code stops the body with that
      code, otherwise the body continues with `t`. */
  function Exec(e: Effect, side: Shell, t: Trace): (r: Trace)
    requires e.Run? || e.RunLocally?
    ensures side.exitCode(e.command) == 0 ==> r == Emit(e, t)
    ensures side.exitCode(e.command) != 0 ==>
      r == Trace([e], [], Failed(CommandFailed(e.command, side.exitCode(e.command))))
  {
    var code := side.exitCode(e.command);
    if code == 0 then Emit(e, t) else Trace([e], [], Failed(CommandFailed(e.command, code)))
  }

  /** `run($cmd)` followed by the rest of the body. */
  function RunThen(h: Host, cmd: string, t: Trace): Trace
  {
    Exec(Run(cmd), h.remote, t)
  }

  /** `runLocally($cmd)` followed by the rest of the body. */
  function RunLocallyThen(h: Host, cmd: string, t: Trace): Trace
  {
    Exec(RunLocally(cmd), h.local, t)
  }

  /** `'mkdir -p ' . escapeshellarg($dir)`, as the transfer tasks issue it. */
  function MakeDirCommand(dir: string): string
  {
    "mkdir -p " + EscapeShellArg(dir)
  }

  // ---------------------------------------------------------------- straight-line bodies

  /** One statement of a straight-line body that issues something: the lines it
      writes first, then the command, transfer or invocation. */
  datatype Step = Step(lines: seq<string>, effect: Effect)

  /** Whether an issued effect lets the body go on: a command must exit 0 on its
      side; anything else always does. */
  predicate Succeeds(h: Host, e: Effect)
  {
    && (e.Run? ==> h.remote.exitCode(e.command) == 0)
    && (e.RunLocally? ==> h.local.exitCode(e.command) == 0)
  }

  /** Every one of the first `n` effects goes through. */
  predicate AllSucceed(h: Host, es: seq<Effect>, n: nat)
    requires n <= |es|
  {
    forall i :: 0 <= i < n ==> Succeeds(h, es[i])
  }

  /** Issue one effect, then continue with `t` if it went through. */
  function Issue(h: Host, e: Effect, t: Trace): (r: Trace)
    ensures Succeeds(h, e) ==> r == Emit(e, t)
    ensures !Succeeds(h, e) ==> r.effects == [e] && r.log == [] && r.outcome.Failed?
  {
    if e.Run? then RunThen(h, e.command, t)
    else if e.RunLocally? then RunLocallyThen(h, e.command, t)
    else Emit(e, t)
  }

  /** `writeln` of several lines. */
  function SayAll(lines: seq<string>, t: Trace): (r: Trace)
    ensures r == t.(log := lines + t.log)
    decreases |lines|
  {
    if |lines| == 0 then t
    else
      var r := SayAll(lines[1..], t);
      assert lines == [lines[0]] + lines[1..];
      Say(lines[0], r)
  }

  /** Run the steps in order and then the rest of the body; the first effect
      that does not go through ends the body there. */
  function Perform(h: Host, steps: seq<Step>, rest: Trace): Trace
    decreases |steps|
  {
    if |steps| == 0 then rest
    else SayAll(steps[0].lines, Issue(h, steps[0].effect, Perform(h, steps[1..], rest)))
  }

  function Issued(steps: seq<Step>): (es: seq<Effect>)
    ensures |es| == |steps| && forall i :: 0 <= i < |steps| ==> es[i] == steps[i].effect
  {
    seq(|steps|, i requires 0 <= i < |steps| => steps[i].effect)
  }

  /** Step `j` issues its effect exactly when all steps before it went through,
      and the effects issued are those of the steps, in order. */
  lemma {:induction false} PerformAt(h: Host, steps: seq<Step>, rest: Trace, j: nat)
    requires j < |steps|
    ensures var t := Perform(h, steps, rest);
      && (j < |t.effects| <==> AllSucceed(h, Issued(steps), j))
      && (j < |t.effects| ==> t.effects[j] == steps[j].effect)
    decreases j
  {
    var t := Perform(h, steps, rest);
    var inner := Perform(h, steps[1..], rest);
    var issued := Issue(h, steps[0].effect, inner);
    assert t.effects == issued.effects;
    if j > 0 {
      PerformAt(h, steps[1..], rest, j - 1);
      IssuedTail(steps);
    }
  }

  lemma IssuedTail(steps: seq<Step>)
    requires |steps| > 0
    ensures Issued(steps) == [steps[0].effect] + Issued(steps[1..])
  {
  }

  /** The first `n + 1` effects go through when the first `n` do and the next one does. */
  lemma AllSucceedNext(h: Host, es: seq<Effect>, n: nat)
    requires n < |es|
    ensures AllSucceed(h, es, n + 1) <==> AllSucceed(h, es, n) && Succeeds(h, es[n])
  {
  }

  /** Effects that go through past the first one are those that go through in the rest. */
  lemma AllSucceedTail(h: Host, e: Effect, es: seq<Effect>, n: nat)
    requires n <= |es|
    ensures AllSucceed(h, [e] + es, n + 1) <==> Succeeds(h, e) && AllSucceed(h, es, n)
  {
    var all := [e] + es;
    if Succeeds(h, e) && AllSucceed(h, es, n) {
      forall i | 0 <= i < n + 1
        ensures Succeeds(h, all[i])
      {
        if i > 0 {
          assert all[i] == es[i - 1];
        }
      }
    }
    if AllSucceed(h, all, n + 1) {
      assert Succeeds(h, all[0]);
      forall i | 0 <= i < n
        ensures Succeeds(h, es[i])
      {
        assert es[i] == all[i + 1];
      }
    }
  }

  /** The body issues nothing beyond its steps unless every step went through, in
      which case it issues all of them and then what the rest issues, and ends as
      the rest ends. */
  lemma {:induction false} PerformAll(h: Host, steps: seq<Step>, rest: Trace)
    ensures var t := Perform(h, steps, rest);
      && (|t.effects| <= |steps| || AllSucceed(h, Issued(steps), |steps|))
      && (AllSucceed(h, Issued(steps), |steps|) ==>
            t.effects == Issued(steps) + rest.effects && t.outcome == rest.outcome)
    decreases |steps|
  {
    if |steps| > 0 {
      PerformAll(h, steps[1..], rest);
      IssuedTail(steps);
      AllSucceedTail(h, steps[0].effect, Issued(steps[1..]), |steps| - 1);
    }
  }

  /** An effect issued by a single step, and by nothing after the steps, appears
      in the body's effects exactly when every step before that one went through. */
  lemma PerformIssues(h: Host, steps: seq<Step>, rest: Trace, j: nat)
    requires j < |steps|
    requires forall i :: 0 <= i < |steps| && i != j ==> Issued(steps)[i] != Issued(steps)[j]
    requires Issued(steps)[j] !in rest.effects
    ensures Issued(steps)[j] in Perform(h, steps, rest).effects <==> AllSucceed(h, Issued(steps), j)
  {
    var t := Perform(h, steps, rest);
    PerformAt(h, steps, rest, j);
    PerformAll(h, steps, rest);
    if steps[j].effect in t.effects {
      var m :| 0 <= m < |t.effects| && t.effects[m] == steps[j].effect;
      if m < |steps| {
        PerformAt(h, steps, rest, m);
        assert m == j;
      }
    }
  }

  /** Whatever the body issues comes from one of its steps or from the rest. */
  lemma {:induction false} PerformIssuesOnly(h: Host, steps: seq<Step>, rest: Trace, e: Effect)
    ensures e in Perform(h, steps, rest).effects ==> e in Issued(steps) || e in rest.effects
  {
    var t := Perform(h, steps, rest);
    PerformAll(h, steps, rest);
    if e in t.effects {
      var m :| 0 <= m < |t.effects| && t.effects[m] == e;
      if m < |steps| {
        PerformAt(h, steps, rest, m);
        assert Issued(steps)[m] == e;
      } else {
        assert t.effects[m] == rest.effects[m - |steps|];
      }
    }
  }

  /** The body issues its steps' effects and then the rest's, in that order,
      stopping early at the first that does not go through. */
  lemma PerformInOrder(h: Host, steps: seq<Step>, rest: Trace)
    ensures Perform(h, steps, rest).effects <= Issued(steps) + rest.effects
  {
    var t := Perform(h, steps, rest);
    PerformAll(h, steps, rest);
    if !AllSucceed(h, Issued(steps), |steps|) {
      forall j | 0 <= j < |t.effects|
        ensures t.effects[j] == (Issued(steps) + rest.effects)[j]
      {
        PerformAt(h, steps, rest, j);
      }
    }
  }

  /** The first step that does not go through is the last one issued, and the
      body fails there. */
  lemma {:induction false} PerformFailsAt(h: Host, steps: seq<Step>, rest: Trace, n: nat)
    requires n < |steps| && AllSucceed(h, Issued(steps), n) && !Succeeds(h, steps[n].effect)
    ensures var t := Perform(h, steps, rest);
      t.effects == Issued(steps)[..n + 1] && t.outcome.Failed?
    decreases n
  {
    IssuedTail(steps);
    if n > 0 {
      AllSucceedTail(h, steps[0].effect, Issued(steps[1..]), n - 1);
      PerformFailsAt(h, steps[1..], rest, n - 1);
      assert Issued(steps)[..n + 1] == [steps[0].effect] + Issued(steps[1..])[..n];
    }
  }
}

=== FILE: filetransfer.dfy ===
/** `file:upload` and `file:downlaod`: copy one file between the control machine
    and the current host, optionally running a command on the host before and
    after. The two bodies differ only in direction: which side is asked about the
    source, which side makes the destination directory, which transfer is issued,
    and the tag and verbs of the messages. */
module FileTransfer {
  import opened Php
  import opened Effects

  datatype Direction = Up | Down

  /** The four variables after `trim((string) get($name, ''))`. */
  datatype Request = Request(src: string, dest: string, pre: string, post: string)

  /** One variable as the bodies read it: unset is empty, anything else is
      converted to a string and trimmed. */
  function ReadTrimmed(vars: Vars, name: string): (r: Result<string>)
    ensures GetOr(vars, name, Str("")).Ok? <==> r.Ok?
    ensures r.Ok? ==> r.value == Trim(ToStr(GetOr(vars, name, Str("")).value)) && Trim(r.value) == r.value
    ensures r.Err? ==> r.error == GetOr(vars, name, Str("")).error
    ensures name !in vars ==> r == Ok("")
  {
    match GetOr(vars, name, Str(""))
    case Err(f) => Err(f)
    case Ok(v) =>
      TrimCharsIdempotent(ToStr(v), WhiteSpace);
      TrimEmpty();
      Ok(Trim(ToStr(v)))
  }

  /** The four reads, in the order the bodies make them; the first that fails
      ends the body. */
  function ReadRequest(vars: Vars): (r: Result<Request>)
    ensures r.Ok? <==>
      ReadTrimmed(vars, "src").Ok? && ReadTrimmed(vars, "dest").Ok?
      && ReadTrimmed(vars, "pre").Ok? && ReadTrimmed(vars, "post").Ok?
    ensures r.Ok? ==> r.value == Request(ReadTrimmed(vars, "src").value, ReadTrimmed(vars, "dest").value,
                                         ReadTrimmed(vars, "pre").value, ReadTrimmed(vars, "post").value)
    ensures ReadTrimmed(vars, "src").Err? ==> r == Err(ReadTrimmed(vars, "src").error)
    ensures ReadTrimmed(vars, "src").Ok? && ReadTrimmed(vars, "dest").Err? ==>
      r == Err(ReadTrimmed(vars, "dest").error)
    ensures ReadTrimmed(vars, "src").Ok? && ReadTrimmed(vars, "dest").Ok? && ReadTrimmed(vars, "pre").Err? ==>
      r == Err(ReadTrimmed(vars, "pre").error)
    ensures && ReadTrimmed(vars, "src").Ok? && ReadTrimmed(vars, "dest").Ok?
            && ReadTrimmed(vars, "pre").Ok? && ReadTrimmed(vars, "post").Err?
            ==> r == Err(ReadTrimmed(vars, "post").error)
  {
    match ReadTrimmed(vars, "src")
    case Err(f) => Err(f)
    case Ok(src) =>
      match ReadTrimmed(vars, "dest")
      case Err(f) => Err(f)
      case Ok(dest) =>
        match ReadTrimmed(vars, "pre")
        case Err(f) => Err(f)
        case Ok(pre) =>
          match ReadTrimmed(vars, "post")
          case Err(f) => Err(f)
          case Ok(post) => Ok(Request(src, dest, pre, post))
  }

  // ---------------------------------------------------------------- messages

  function Tag(dir: Direction): string
  {
    if dir.Up? then "[file:up]" else "[file:down]"
  }

  function MissingMessage(dir: Direction): string
  {
    "<error>" + Tag(dir) + " Missing vars: src and/or dest</error>"
  }

  function NotFoundMessage(dir: Direction, src: string): string
  {
    "<error>" + Tag(dir) + (if dir.Up? then " Local" else " Remote") + " file not found: " + src + "</error>"
  }

  function PreMessage(dir: Direction, pre: string): string
  {
    "<info>" + Tag(dir) + " Running pre-cmd: " + pre + "</info>"
  }

  function TransferMessage(dir: Direction, src: string, dest: string): string
  {
    "<info>" + Tag(dir) + (if dir.Up? then " Uploading " else " Downloading ") + src + " → " + dest + "</info>"
  }

  function PostMessage(dir: Direction, post: string): string
  {
    "<info>" + Tag(dir) + " Running post-cmd: " + post + "</info>"
  }

  function DoneMessage(dir: Direction): string
  {
    "<info>" + Tag(dir) + " Done.</info>"
  }

  // ---------------------------------------------------------------- the bodies

  /** `'[ -f ' . escapeshellarg($src) . ' ]'`. */
  function SourceTest(src: string): string
  {
    "[ -f " + EscapeShellArg(src) + " ]"
  }

  /** The source is asked for on the side it is read from: `testLocally` for an
      upload, `test` on the host for a download. */
  predicate SourceExists(h: Host, dir: Direction, src: string)
  {
    if dir.Up? then h.local.test(SourceTest(src)) else h.remote.test(SourceTest(src))
  }

  /** The destination directory is made on the side written to. */
  function MakeDestDir(dir: Direction, dest: string): Effect
  {
    if dir.Up? then Run(MakeDirCommand(Dirname(dest))) else RunLocally(MakeDirCommand(Dirname(dest)))
  }

  function Move(dir: Direction, src: string, dest: string): Effect
  {
    if dir.Up? then Upload(src, dest) else Download(src, dest)
  }

  /** `file:upload` (`Up`) or `file:downlaod` (`Down`). */
  function Transfer(dir: Direction, vars: Vars, h: Host): (t: Trace)
    ensures ReadRequest(vars).Err? ==> t == Fail(ReadRequest(vars).error)
    ensures ReadRequest(vars).Ok? ==>
      var r := ReadRequest(vars).value;
      && ((r.src == "" || r.dest == "") ==> t == Trace([], [MissingMessage(dir)], Completed))
      && ((r.src != "" && r.dest != "" && !SourceExists(h, dir, r.src)) ==>
            t == Trace([], [NotFoundMessage(dir, r.src)], Completed))
      && ((r.src != "" && r.dest != "" && SourceExists(h, dir, r.src)) ==> t == Copy(dir, h, r))
  {
    match ReadRequest(vars)
    case Err(f) => Fail(f)
    case Ok(r) =>
      if r.src == "" || r.dest == "" then Trace([], [MissingMessage(dir)], Completed)
      else if !SourceExists(h, dir, r.src) then Trace([], [NotFoundMessage(dir, r.src)], Completed)
      else Copy(dir, h, r)
  }

  /** The body past its guards. */
  function Copy(dir: Direction, h: Host, r: Request): Trace
  {
    Perform(h, CopySteps(dir, r), Trace([], [DoneMessage(dir)], Completed))
  }

  function CopySteps(dir: Direction, r: Request): seq<Step>
  {
    (if r.pre != "" then [Step([PreMessage(dir, r.pre)], Run(r.pre))] else [])
    + [Step([], MakeDestDir(dir, r.dest)),
       Step([TransferMessage(dir, r.src, r.dest)], Move(dir, r.src, r.dest))]
    + (if r.post != "" then [Step([PostMessage(dir, r.post)], Run(r.post))] else [])
  }

  /** What the body issues when nothing fails: the pre-command when there is one,
      the destination directory, the transfer, and the post-command when there is
      one. */
  function CopyEffects(dir: Direction, r: Request): seq<Effect>
  {
    (if r.pre != "" then [Run(r.pre)] else [])
    + [MakeDestDir(dir, r.dest), Move(dir, r.src, r.dest)]
    + (if r.post != "" then [Run(r.post)] else [])
  }

  /** Where the transfer sits among the effects: after the pre-command, if any,
      and the directory. */
  function MoveIndex(r: Request): nat
  {
    if r.pre != "" then 2 else 1
  }

  lemma CopyIssued(dir: Direction, r: Request)
    ensures Issued(CopySteps(dir, r)) == CopyEffects(dir, r)
  {
  }

  /** The effects one by one: an empty pre- or post-command issues nothing. */
  lemma CopyEffectsAt(dir: Direction, r: Request)
    ensures var es := CopyEffects(dir, r);
      var m := MoveIndex(r);
      && |es| == m + 1 + (if r.post != "" then 1 else 0)
      && (r.pre != "" ==> es[0] == Run(r.pre))
      && es[m - 1] == MakeDestDir(dir, r.dest)
      && es[m] == Move(dir, r.src, r.dest)
      && (r.post != "" ==> es[m + 1] == Run(r.post))
  {
  }

  /** Whatever the host answers, the body issues a prefix of the pre-command, the
      destination directory, the transfer and the post-command. */
  lemma CopyInOrder(dir: Direction, h: Host, r: Request)
    ensures Copy(dir, h, r).effects <= CopyEffects(dir, r)
  {
    CopyIssued(dir, r);
    PerformInOrder(h, CopySteps(dir, r), Trace([], [DoneMessage(dir)], Completed));
    assert CopyEffects(dir, r) + [] == CopyEffects(dir, r);
  }

  /** The transfer happens exactly when the pre-command, if any, and the
      destination directory succeeded. */
  lemma MoveAfterPreAndDir(dir: Direction, h: Host, r: Request)
    ensures Move(dir, r.src, r.dest) in Copy(dir, h, r).effects <==>
      && (r.pre != "" ==> h.remote.exitCode(r.pre) == 0)
      && Succeeds(h, MakeDestDir(dir, r.dest))
  {
    var steps := CopySteps(dir, r);
    CopyIssued(dir, r);
    MoveOnce(dir, r);
    PerformIssues(h, steps, Trace([], [DoneMessage(dir)], Completed), MoveIndex(r));
    SucceedBeforeMove(dir, h, r);
  }

  /** The transfer is issued once among the body's effects. */
  lemma MoveOnce(dir: Direction, r: Request)
    ensures var es := CopyEffects(dir, r); var m := MoveIndex(r);
      m < |es| && forall i :: 0 <= i < |es| && i != m ==> es[i] != es[m]
  {
    var es := CopyEffects(dir, r);
    CopyEffectsAt(dir, r);
    assert forall i :: 0 <= i < |es| && i != MoveIndex(r) ==> !es[i].Upload? && !es[i].Download?;
  }

  /** Everything before the transfer goes through exactly when the pre-command,
      if any, and the destination directory do. */
  lemma SucceedBeforeMove(dir: Direction, h: Host, r: Request)
    ensures var es := CopyEffects(dir, r); var m := MoveIndex(r);
      m < |es| &&
      (AllSucceed(h, es, m) <==>
        (r.pre != "" ==> h.remote.exitCode(r.pre) == 0) && Succeeds(h, MakeDestDir(dir, r.dest)))
  {
    var es := CopyEffects(dir, r);
    var m := MoveIndex(r);
    CopyEffectsAt(dir, r);
    AllSucceedNext(h, es, m - 1);
    if m == 2 {
      AllSucceedNext(h, es, 0);
    }
  }

  /** Once the transfer happened the body goes on to the post-command, if any, and
      ends as that command ends: everything is issued, and the body completes
      unless the post-command exits non-zero. */
  lemma PostAfterMove(dir: Direction, h: Host, r: Request)
    ensures var t := Copy(dir, h, r);
      Move(dir, r.src, r.dest) in t.effects ==>
        && t.effects == CopyEffects(dir, r)
        && (t.outcome == Completed <==> r.post == "" || h.remote.exitCode(r.post) == 0)
  {
    var t := Copy(dir, h, r);
    var steps := CopySteps(dir, r);
    var es := CopyEffects(dir, r);
    var rest := Trace([], [DoneMessage(dir)], Completed);
    var m := MoveIndex(r);
    CopyIssued(dir, r);
    CopyEffectsAt(dir, r);
    if Move(dir, r.src, r.dest) in t.effects {
      MoveAfterPreAndDir(dir, h, r);
      assert AllSucceed(h, es, m + 1) by {
        AllSucceedNext(h, es, m - 1);
        AllSucceedNext(h, es, m);
        if m == 2 {
          AllSucceedNext(h, es, 0);
        }
      }
      if r.post == "" {
        PerformAll(h, steps, rest);
      } else {
        PerformAt(h, steps, rest, m + 1);
        PerformAll(h, steps, rest);
        PostLast(h, steps, rest, es, m + 1);
      }
    }
  }

  /** With every step before the last one through, the body issues all steps
      and completes exactly when the last goes through. */
  lemma PostLast(h: Host, steps: seq<Step>, rest: Trace, es: seq<Effect>, n: nat)
    requires es == Issued(steps) && n + 1 == |steps| && AllSucceed(h, es, n)
    requires rest.effects == [] && rest.outcome == Completed
    ensures var t := Perform(h, steps, rest);
      t.effects == es && (t.outcome == Completed <==> Succeeds(h, es[n]))
  {
    PerformAt(h, steps, rest, n);
    PerformAll(h, steps, rest);
    AllSucceedNext(h, es, n);
    if !Succeeds(h, es[n]) {
      PerformFailsAt(h, steps, rest, n);
    }
  }
}

=== FILE: hyva.dfy ===
/** `hyva:tailwind:build:`: build the Tailwind CSS of every Hyva theme listed in
    `hyva_themes`, a map from theme name to theme path relative to the Magento
    root. */
module Hyva {
  import opened Php
  import opened Effects

  /** The name the task is registered under, trailing colon included. */
  const TaskName := "hyva:tailwind:build:"

  const SkipMessage := "No Hyva themes found. Skipping Tailwind build."

  function InvalidPathMessage(theme: Key): string
  {
    "The path for theme " + KeyToStr(theme) + " is not a valid string."
  }

  const ThemeRoot := "{{release_or_current_path}}/{{magento_dir}}/"
  const BuildSuffix := " && npm install && npm run build-prod"

  /** The Tailwind directory of a theme. */
  function TailwindDir(path: string): string
  {
    ThemeRoot + path + "/web/tailwind"
  }

  /** Change into the theme's Tailwind directory, install, then build for production. */
  function BuildCommand(path: string): string
  {
    "cd " + TailwindDir(path) + BuildSuffix
  }

  /** Different theme paths give different commands. */
  lemma BuildCommandInjective(p: string, q: string)
    ensures BuildCommand(p) == BuildCommand(q) ==> p == q
  {
    var pre := "cd " + ThemeRoot;
    var post := "/web/tailwind" + BuildSuffix;
    assert BuildCommand(p) == pre + p + post;
    assert BuildCommand(q) == pre + q + post;
    if BuildCommand(p) == BuildCommand(q) {
      assert |p| == |q|;
      assert p == BuildCommand(p)[|pre|..|pre| + |p|];
      assert q == BuildCommand(q)[|pre|..|pre| + |q|];
    }
  }

  /** The task body. */
  function HyvaBuild(vars: Vars, h: Host): (t: Trace)
    ensures Get(vars, "hyva_themes").Err? ==> t == Fail(Get(vars, "hyva_themes").error)
    ensures Get(vars, "hyva_themes").Ok? && !Get(vars, "hyva_themes").value.Arr? ==>
      t == Trace([], [SkipMessage], Completed)
    ensures Get(vars, "hyva_themes").Ok? && Get(vars, "hyva_themes").value.Arr? ==>
      t == Build(h, Get(vars, "hyva_themes").value.entries)
  {
    match Get(vars, "hyva_themes")
    case Err(f) => Fail(f)
    case Ok(v) =>
      if !v.Arr? then Trace([], [SkipMessage], Completed)
      else Build(h, v.entries)
  }

  /** The loop over the themes in map order: a path that is not a string is
      reported and skipped, any other is built; a failing build ends the loop. */
  function Build(h: Host, themes: seq<(Key, Value)>): Trace
    decreases |themes|
  {
    if |themes| == 0 then Finish()
    else
      var rest := Build(h, themes[1..]);
      match themes[0].1
      case Str(path) => RunThen(h, BuildCommand(path), rest)
      case _ => Say(InvalidPathMessage(themes[0].0), rest)
  }

  /** The build commands of the string paths, in map order. */
  function Commands(themes: seq<(Key, Value)>): (cmds: seq<Effect>)
    decreases |themes|
  {
    if |themes| == 0 then []
    else
      var rest := Commands(themes[1..]);
      if themes[0].1.Str? then [Run(BuildCommand(themes[0].1.s))] + rest else rest
  }

  /** The messages for the paths that are not strings, in map order. */
  function Invalid(themes: seq<(Key, Value)>): (lines: seq<string>)
    decreases |themes|
  {
    if |themes| == 0 then []
    else
      var rest := Invalid(themes[1..]);
      if themes[0].1.Str? then rest else [InvalidPathMessage(themes[0].0)] + rest
  }

  /** Each string path yields exactly one command and each other entry exactly one
      message, and nothing else does. */
  lemma {:induction false} CommandsCount(themes: seq<(Key, Value)>)
    ensures |Commands(themes)| + |Invalid(themes)| == |themes|
    ensures forall i :: 0 <= i < |themes| && themes[i].1.Str? ==> Run(BuildCommand(themes[i].1.s)) in Commands(themes)
    ensures forall e :: e in Commands(themes) ==> exists i :: 0 <= i < |themes| && themes[i].1.Str? && e == Run(BuildCommand(themes[i].1.s))
    decreases |themes|
  {
    if |themes| > 0 {
      var tail := themes[1..];
      CommandsCount(tail);
      forall i | 0 < i < |themes| && themes[i].1.Str?
        ensures Run(BuildCommand(themes[i].1.s)) in Commands(themes)
      {
        assert themes[i] == tail[i - 1];
      }
      forall e | e in Commands(themes)
        ensures exists i :: 0 <= i < |themes| && themes[i].1.Str? && e == Run(BuildCommand(themes[i].1.s))
      {
        if e in Commands(tail) {
          var k :| 0 <= k < |tail| && tail[k].1.Str? && e == Run(BuildCommand(tail[k].1.s));
          assert themes[k + 1] == tail[k];
        } else {
          assert themes[0].1.Str? && e == Run(BuildCommand(themes[0].1.s));
        }
      }
    }
  }

  /** The order of the map is kept: the commands of two runs of entries are those
      of the first followed by those of the second. */
  lemma {:induction false} CommandsAppend(a: seq<(Key, Value)>, b: seq<(Key, Value)>)
    ensures Commands(a + b) == Commands(a) + Commands(b)
    ensures Invalid(a + b) == Invalid(a) + Invalid(b)
    decreases |a|
  {
    if |a| == 0 {
      assert a + b == b;
    } else {
      assert (a + b)[1..] == a[1..] + b;
      CommandsAppend(a[1..], b);
    }
  }

  /** On a host where every command succeeds, the loop builds every string path in
      map order, reports every other entry, and completes. */
  lemma {:induction false} BuildReliable(h: Host, themes: seq<(Key, Value)>)
    requires Reliable(h.remote)
    ensures var t := Build(h, themes);
      t == Trace(Commands(themes), Invalid(themes), Completed)
    decreases |themes|
  {
    if |themes| > 0 {
      BuildReliable(h, themes[1..]);
    }
  }

  /** On any host the loop issues the commands in map order and stops at the
      first build that fails, which ends the task with that failure; it completes
      exactly when every build succeeds. */
  lemma {:induction false} BuildInOrder(h: Host, themes: seq<(Key, Value)>)
    ensures var t := Build(h, themes);
      && t.effects <= Commands(themes)
      && (t.outcome == Completed <==> t.effects == Commands(themes) && AllSucceed(h, Commands(themes), |Commands(themes)|))
      && (t.outcome != Completed ==> t.outcome.Failed? && |t.effects| > 0 && !Succeeds(h, t.effects[|t.effects| - 1]))
    decreases |themes|
  {
    if |themes| > 0 {
      var tail := themes[1..];
      BuildInOrder(h, tail);
      if themes[0].1.Str? {
        var e := Run(BuildCommand(themes[0].1.s));
        AllSucceedTail(h, e, Commands(tail), |Commands(tail)|);
      }
    }
  }
}

=== FILE: magento.dfy ===
/** The gated steps of `deploy:magento`: maintenance mode, configuration import and
    database upgrade, each decided by the status variables of Config. */
module Magento {
  import opened Php
  import opened Effects
  import Config

  const MaintenanceEnableTask := "magento:maintenance:enable"
  const NoMaintenanceMessage := "Config and database up to date => no maintenance mode"
  const ConfigImportCommand := "{{bin/php}} {{bin/magento}} app:config:import --no-interaction"
  const ImportSkippedMessage := "App config is up to date => import skipped"
  const SchemaUpgradeCommand := "{{bin/php}} {{bin/magento}} setup:db-schema:upgrade --no-interaction"
  const DataUpgradeCommand := "{{bin/php}} {{bin/magento}} setup:db-data:upgrade --no-interaction"
  const UpgradeSkippedMessage := "Database schema is up to date => upgrade skipped"

  /** Whether `magento:maintenance:enable-if-needed` reads a variable: the condition
      `!enable_zerodowntime || database_upgrade_needed || config_import_needed` is
      evaluated left to right and stops at the first operand that decides it. */
  function MaintenanceNeeded(vars: Vars): Result<bool>
  {
    match Get(vars, "enable_zerodowntime")
    case Err(f) => Err(f)
    case Ok(zero) =>
      if !Truthy(zero) then Ok(true)
      else match Get(vars, "database_upgrade_needed")
        case Err(f) => Err(f)
        case Ok(db) =>
          if Truthy(db) then Ok(true)
          else match Get(vars, "config_import_needed")
            case Err(f) => Err(f)
            case Ok(cfg) => Ok(Truthy(cfg))
  }

  /** Body of `magento:maintenance:enable-if-needed`: maintenance is enabled exactly
      when zero-downtime deployment is off, or a database upgrade or a configuration
      import is needed; otherwise only the up-to-date message is written. With
      zero-downtime deployment off the status variables are never read, so the task
      enables maintenance even when they would fail. */
  function MaintenanceEnableIfNeeded(vars: Vars): (t: Trace)
    ensures Get(vars, "enable_zerodowntime").Ok? && !Truthy(Get(vars, "enable_zerodowntime").value) ==>
      t == Trace([Invoke(MaintenanceEnableTask)], [], Completed)
    ensures Get(vars, "enable_zerodowntime").Err? ==> t == Fail(Get(vars, "enable_zerodowntime").error)
    ensures
      (Get(vars, "enable_zerodowntime").Ok? && Get(vars, "database_upgrade_needed").Ok?
        && Get(vars, "config_import_needed").Ok?) ==>
      && t.outcome == Completed
      && (t.effects == [Invoke(MaintenanceEnableTask)] <==>
            !Truthy(Get(vars, "enable_zerodowntime").value)
            || Truthy(Get(vars, "database_upgrade_needed").value)
            || Truthy(Get(vars, "config_import_needed").value))
      && (t.effects == [] <==> t.log == [NoMaintenanceMessage])
  {
    match MaintenanceNeeded(vars)
    case Err(f) => Fail(f)
    case Ok(needed) =>
      if needed then Emit(Invoke(MaintenanceEnableTask), Finish())
      else Say(NoMaintenanceMessage, Finish())
  }

  /** Body of `magento:config:import`: the import runs exactly when the variable is
      truthy, and otherwise only the skip message is written. */
  function ConfigImport(vars: Vars, h: Host): (t: Trace)
    ensures Get(vars, "config_import_needed").Err? ==> t == Fail(Get(vars, "config_import_needed").error)
    ensures Get(vars, "config_import_needed").Ok? && h.remote.exitCode(ConfigImportCommand) == 0 ==>
      && t.outcome == Completed
      && (Truthy(Get(vars, "config_import_needed").value) ==> t.effects == [Run(ConfigImportCommand)] && t.log == [])
      && (!Truthy(Get(vars, "config_import_needed").value) ==> t.effects == [] && t.log == [ImportSkippedMessage])
  {
    match Get(vars, "config_import_needed")
    case Err(f) => Fail(f)
    case Ok(needed) =>
      if Truthy(needed) then RunThen(h, ConfigImportCommand, Finish())
      else Say(ImportSkippedMessage, Finish())
  }

  /** Both upgrade commands exit 0 on the host. */
  predicate UpgradesSucceed(h: Host)
  {
    h.remote.exitCode(SchemaUpgradeCommand) == 0 && h.remote.exitCode(DataUpgradeCommand) == 0
  }

  /** Body of `magento:upgrade:db`: the schema upgrade runs before the data upgrade,
      both exactly when the variable is truthy; a failing schema upgrade stops the
      data upgrade. */
  function UpgradeDb(vars: Vars, h: Host): (t: Trace)
    ensures Get(vars, "database_upgrade_needed").Err? ==> t == Fail(Get(vars, "database_upgrade_needed").error)
    ensures Get(vars, "database_upgrade_needed").Ok? ==>
      var needed := Get(vars, "database_upgrade_needed").value;
      && (Truthy(needed) && UpgradesSucceed(h) ==>
            t == Trace([Run(SchemaUpgradeCommand), Run(DataUpgradeCommand)], [], Completed))
      && (Truthy(needed) && h.remote.exitCode(SchemaUpgradeCommand) != 0 ==>
            t.effects == [Run(SchemaUpgradeCommand)] && t.outcome.Failed?)
      && (!Truthy(needed) ==> t == Trace([], [UpgradeSkippedMessage], Completed))
  {
    match Get(vars, "database_upgrade_needed")
    case Err(f) => Fail(f)
    case Ok(needed) =>
      if Truthy(needed) then
        RunThen(h, SchemaUpgradeCommand, RunThen(h, DataUpgradeCommand, Finish()))
      else Say(UpgradeSkippedMessage, Finish())
  }

  /** The variables as `deploy:magento` reads them on a host: the two status
      variables come from the status probes. Only the probes' results enter the
      variables; the status commands they run are not part of any trace. */
  function WithStatus(vars: Vars, h: Host): (v: Vars)
    ensures "config_import_needed" in v && "database_upgrade_needed" in v
  {
    vars["config_import_needed" := Config.ConfigImportNeeded(h)]
        ["database_upgrade_needed" := Config.DatabaseUpgradeNeeded(h)]
  }

  /** Composed with its probe, the import runs exactly when `app:config:status`
      exits with the import-needed code, is skipped when it exits 0, and any other
      exit code stops the task with that code before any of the task's own
      commands (the status command itself has run by then). */
  lemma ConfigImportFromProbe(vars: Vars, h: Host)
    requires h.remote.exitCode(ConfigImportCommand) == 0
    ensures var code := h.remote.exitCode(Config.ConfigStatusCommand);
      var t := ConfigImport(WithStatus(vars, h), h);
      && (code == Config.ConfigImportNeededExitCode ==> t == Trace([Run(ConfigImportCommand)], [], Completed))
      && (code == 0 ==> t == Trace([], [ImportSkippedMessage], Completed))
      && (code != 0 && code != Config.ConfigImportNeededExitCode ==>
            t == Fail(CommandFailed(Config.ConfigStatusCommand, code)))
  {
    var v := WithStatus(vars, h);
    assert v["config_import_needed"] == Config.ConfigImportNeeded(h);
  }

  /** Composed with its probe, both upgrades run exactly when `setup:db:status`
      exits with the upgrade-needed code, are skipped when it exits 0, and any
      other exit code stops the task before any of the task's own commands (the
      status command itself has run by then). */
  lemma UpgradeDbFromProbe(vars: Vars, h: Host)
    requires UpgradesSucceed(h)
    ensures var code := h.remote.exitCode(Config.DbStatusCommand);
      var t := UpgradeDb(WithStatus(vars, h), h);
      && (code == Config.DbUpdateNeededExitCode ==>
            t == Trace([Run(SchemaUpgradeCommand), Run(DataUpgradeCommand)], [], Completed))
      && (code == 0 ==> t == Trace([], [UpgradeSkippedMessage], Completed))
      && (code != 0 && code != Config.DbUpdateNeededExitCode ==>
            t == Fail(CommandFailed(Config.DbStatusCommand, code)))
  {
    var v := WithStatus(vars, h);
    assert v["database_upgrade_needed"] == Config.DatabaseUpgradeNeeded(h);
  }
}

=== FILE: migration.dfy ===
/** The shared-folder migration tasks. `migration:shared:rearrange` flattens a shared
    folder that holds nothing but `src`; `migration:deploy:shared` links every shared
    directory and file into the current release; `migration:shared:dry-run` writes
    what the two would do and changes nothing. */
module Migration {
  import opened Php
  import opened Effects

  const DeploySharedTask := "migration:deploy:shared"

  const AbortMessage := "<notice>❌ shared directory must contain only a single \"src\" folder. Aborting.</notice>"
  const ListingSrcMessage := "📂 Contents of shared/src:"
  const MovingMessage := "➡ Moving contents from shared/src to shared..."
  const NewListingMessage := "📂 New contents of shared:"
  const InvokingMessage := "⚙️ Invoking migration:deploy:shared to apply symlinks..."
  const RelinkingMessage := "🔁 Re-symlinking shared items into current release..."
  const RearrangedMessage := "<info>✅ Shared structure rearranged and re-symlinked successfully.</info>"

  function SharedPath(deployPath: string): string
  {
    deployPath + "/shared"
  }

  function CurrentPath(deployPath: string): string
  {
    deployPath + "/current"
  }

  function ListCommand(dir: string): string
  {
    "ls -1 " + dir
  }

  function MoveCommand(shared: string): string
  {
    "mv " + shared + "/src/* " + shared + "/ && rmdir " + shared + "/src"
  }

  /** The rearrange guard as written: the listing, exploded at newlines, is one
      entry that trims to `src`. */
  predicate OnlySrc(listing: string)
  {
    var entries := Split(listing, '\n');
    |entries| == 1 && Trim(entries[0]) == "src"
  }

  /** The guard holds exactly when the listing is one line whose trimmed text is `src`. */
  lemma OnlySrcMeans(listing: string)
    ensures OnlySrc(listing) <==> '\n' !in listing && Trim(listing) == "src"
  {
    SplitSingle(listing, '\n');
  }

  // ---------------------------------------------------------------- migration:shared:rearrange

  /** Body of `migration:shared:rearrange`. */
  function SharedRearrange(vars: Vars, h: Host): (t: Trace)
    ensures Get(vars, "deploy_path").Err? ==> t == Fail(Get(vars, "deploy_path").error)
    ensures Get(vars, "deploy_path").Ok? ==>
      var shared := SharedPath(ToStr(Get(vars, "deploy_path").value));
      var listing := h.remote.stdout(ListCommand(shared));
      && |t.effects| > 0 && t.effects[0] == Run(ListCommand(shared))
      && (h.remote.exitCode(ListCommand(shared)) == 0 && !OnlySrc(listing) ==>
            t == Trace([Run(ListCommand(shared))], [AbortMessage], Completed))
      && (h.remote.exitCode(ListCommand(shared)) == 0 && OnlySrc(listing)
            && h.remote.exitCode(ListCommand(shared + "/src")) == 0
            && h.remote.exitCode(MoveCommand(shared)) == 0 ==>
            && t.outcome == Completed
            && t.effects == [Run(ListCommand(shared)), Run(ListCommand(shared + "/src")),
                             Run(MoveCommand(shared)), Run(ListCommand(shared)), Invoke(DeploySharedTask)])
  {
    match Get(vars, "deploy_path")
    case Err(f) => Fail(f)
    case Ok(deployPath) =>
      var shared := SharedPath(ToStr(deployPath));
      RunThen(h, ListCommand(shared),
        if !OnlySrc(h.remote.stdout(ListCommand(shared))) then Say(AbortMessage, Finish())
        else Rearrange(h, shared))
  }

  /** The rearrangement once the guard passed: list `src`, move its contents up. */
  function Rearrange(h: Host, shared: string): Trace
  {
    Say(ListingSrcMessage, RunThen(h, ListCommand(shared + "/src"),
    Say(MovingMessage, RunThen(h, MoveCommand(shared), Relink(h, shared)))))
  }

  /** List the new contents and hand over to `migration:deploy:shared`. */
  function Relink(h: Host, shared: string): Trace
  {
    Say(NewListingMessage, RunThen(h, ListCommand(shared),
    Say(InvokingMessage, Say(RelinkingMessage,
    Emit(Invoke(DeploySharedTask), Say(RearrangedMessage, Finish()))))))
  }

  /** Nothing is moved and nothing is invoked unless the shared folder lists as
      `src` alone. */
  lemma RearrangeOnlyWhenOnlySrc(vars: Vars, h: Host)
    requires Get(vars, "deploy_path").Ok?
    ensures var shared := SharedPath(ToStr(Get(vars, "deploy_path").value));
      var t := SharedRearrange(vars, h);
      (Run(MoveCommand(shared)) in t.effects || Invoke(DeploySharedTask) in t.effects) ==>
        OnlySrc(h.remote.stdout(ListCommand(shared)))
  {
    var shared := SharedPath(ToStr(Get(vars, "deploy_path").value));
    var t := SharedRearrange(vars, h);
    if !OnlySrc(h.remote.stdout(ListCommand(shared))) {
      assert t.effects == [Run(ListCommand(shared))];
      assert MoveCommand(shared)[0] == 'm' && ListCommand(shared)[0] == 'l';
    }
  }

  // ---------------------------------------------------------------- migration:deploy:shared

  /** The release the links go into: `current/src` when that directory exists on
      the host, else `current`. */
  function ReleaseBase(s: Shell, deployPath: string): (base: string)
    ensures base == CurrentPath(deployPath) || base == CurrentPath(deployPath) + "/src"
    ensures base == CurrentPath(deployPath) + "/src" <==> s.test("[ -d " + CurrentPath(deployPath) + "/src ]")
  {
    var current := CurrentPath(deployPath);
    if s.test("[ -d " + current + "/src ]") then current + "/src" else current
  }

  /** The values `foreach` visits: none for a value that is not an array. */
  function ForeachValues(v: Value): (r: seq<Value>)
    ensures v.Arr? ==> |r| == |v.entries| && forall i :: 0 <= i < |r| ==> r[i] == v.entries[i].1
    ensures !v.Arr? ==> r == []
  {
    if v.Arr? then seq(|v.entries|, i requires 0 <= i < |v.entries| => v.entries[i].1) else []
  }

  /** `trim($dir, '/')`: an array is a TypeError, null trims as the empty string. */
  function SharedDirName(v: Value): (r: Result<string>)
    ensures r.Err? <==> v.Arr?
    ensures r.Err? ==> r.error.TypeError?
    ensures r.Ok? ==> var d := r.value;
      |d| <= |ToStr(v)| && (|d| > 0 ==> d[0] != '/' && d[|d| - 1] != '/')
  {
    if v.Arr? then Err(TypeError("trim(): Argument #1 ($string) must be of type string, array given"))
    else
      TrimCharsSpec(ToStr(v), {'/'});
      Ok(TrimChars(ToStr(v), {'/'}))
  }

  /** The file name as `parse` accepts it: a string parameter, so an array or null
      is a TypeError and a scalar is converted. */
  function SharedFileName(v: Value): (r: Result<string>)
    ensures r.Err? <==> v.Arr? || v.Null?
    ensures r.Err? ==> r.error.TypeError?
    ensures v.Str? ==> r == Ok(v.s)
  {
    match v
    case Null => Err(TypeError("parse(): Argument #1 ($value) must be of type string, null given"))
    case Arr(_) => Err(TypeError("parse(): Argument #1 ($value) must be of type string, array given"))
    case _ => Ok(ToStr(v))
  }

  function LinkCommand(shared: string, base: string, name: string): string
  {
    "{{bin/symlink}} " + shared + "/" + name + " " + base + "/" + name
  }

  /** What is done for one shared directory. */
  datatype DirStep =
    | MakeSharedDir        // create it in shared
    | SeedFromRelease      // copy the release's copy into shared
    | RemoveReleaseDir     // remove the release's copy
    | MakeReleaseParent    // make sure the link's parent exists
    | LinkDir              // link shared into the release

  /** The steps for one directory, given whether shared and the release have it. */
  function DirPlan(inShared: bool, inRelease: bool): (p: seq<DirStep>)
    ensures MakeSharedDir in p <==> !inShared
    ensures SeedFromRelease in p <==> !inShared && inRelease
    ensures SeedFromRelease in p ==> p[0] == MakeSharedDir && p[1] == SeedFromRelease
    ensures |p| >= 3 && p[|p| - 3] == RemoveReleaseDir && p[|p| - 2] == MakeReleaseParent && p[|p| - 1] == LinkDir
  {
    (if inShared then [] else [MakeSharedDir] + (if inRelease then [SeedFromRelease] else []))
      + [RemoveReleaseDir, MakeReleaseParent, LinkDir]
  }

  function DirCommand(step: DirStep, shared: string, base: string, verbosity: string, dir: string): string
  {
    match step
    case MakeSharedDir => "mkdir -p " + shared + "/" + dir
    case SeedFromRelease => "cp -r" + verbosity + " " + base + "/" + dir + " " + shared + "/" + Dirname(dir)
    case RemoveReleaseDir => "rm -rf " + base + "/" + dir
    case MakeReleaseParent => "mkdir -p `dirname " + base + "/" + dir + "`"
    case LinkDir => LinkCommand(shared, base, dir)
  }

  /** The commands for one shared directory on a host. */
  function DirCommands(s: Shell, shared: string, base: string, verbosity: string, dir: string): (cmds: seq<string>)
    ensures |cmds| > 0 && cmds[|cmds| - 1] == LinkCommand(shared, base, dir)
  {
    var plan := DirPlan(s.test("[ -d " + shared + "/" + dir + " ]"), s.test("[ -d " + base + "/" + dir + " ]"));
    seq(|plan|, i requires 0 <= i < |plan| => DirCommand(plan[i], shared, base, verbosity, dir))
  }

  /** What is done for one shared file. */
  datatype FileStep =
    | MakeSharedParent     // create the file's directory in shared
    | CopyIntoShared       // copy the release's file into shared
    | RemoveReleaseFile    // remove the release's file, if any
    | MakeReleaseDir       // create the file's directory in the release, if missing
    | TouchShared          // make sure the shared file exists
    | LinkFile             // link shared into the release

  /** The steps for one file, given whether shared has its directory and the file,
      and whether the release has the file. */
  function FilePlan(parentInShared: bool, inShared: bool, inRelease: bool): (p: seq<FileStep>)
    ensures MakeSharedParent in p <==> !parentInShared
    ensures CopyIntoShared in p <==> !inShared && inRelease
    ensures |p| >= 4 && p[|p| - 4] == RemoveReleaseFile && p[|p| - 3] == MakeReleaseDir
      && p[|p| - 2] == TouchShared && p[|p| - 1] == LinkFile
    ensures forall i :: 0 <= i < |p| - 1 && p[i] == CopyIntoShared ==> p[i + 1] == RemoveReleaseFile
  {
    (if parentInShared then [] else [MakeSharedParent])
      + (if !inShared && inRelease then [CopyIntoShared] else [])
      + [RemoveReleaseFile, MakeReleaseDir, TouchShared, LinkFile]
  }

  function FileCommand(step: FileStep, shared: string, base: string, verbosity: string, file: string): string
  {
    var dir := Dirname(file);
    match step
    case MakeSharedParent => "mkdir -p " + shared + "/" + dir
    case CopyIntoShared => "cp -r" + verbosity + " " + base + "/" + file + " " + shared + "/" + file
    case RemoveReleaseFile => "if [ -f " + base + "/" + file + " ]; then rm -rf " + base + "/" + file + "; fi"
    case MakeReleaseDir => "if [ ! -d " + base + "/" + dir + " ]; then mkdir -p " + base + "/" + dir + "; fi"
    case TouchShared => "[ -f " + shared + "/" + file + " ] || touch " + shared + "/" + file
    case LinkFile => LinkCommand(shared, base, file)
  }

  /** The commands for one shared file on a host. */
  function FileCommands(s: Shell, shared: string, base: string, verbosity: string, file: string): (cmds: seq<string>)
    ensures |cmds| > 0 && cmds[|cmds| - 1] == LinkCommand(shared, base, file)
  {
    var plan := FilePlan(s.test("[ -d " + shared + "/" + Dirname(file) + " ]"),
      s.test("[ -f " + shared + "/" + file + " ]"), s.test("[ -f " + base + "/" + file + " ]"));
    seq(|plan|, i requires 0 <= i < |plan| => FileCommand(plan[i], shared, base, verbosity, file))
  }

  function Runs(cmds: seq<string>): (r: seq<Effect>)
    ensures |r| == |cmds| && forall i :: 0 <= i < |cmds| ==> r[i] == Run(cmds[i])
  {
    seq(|cmds|, i requires 0 <= i < |cmds| => Run(cmds[i]))
  }

  /** Run commands in order on the host, then the rest of the body; the first that
      exits non-zero stops the body. */
  function RunAll(h: Host, cmds: seq<string>, rest: Trace): (t: Trace)
    ensures (forall i :: 0 <= i < |cmds| ==> h.remote.exitCode(cmds[i]) == 0) ==>
      t.effects == Runs(cmds) + rest.effects && t.log == rest.log && t.outcome == rest.outcome
    ensures (exists i :: 0 <= i < |cmds| && h.remote.exitCode(cmds[i]) != 0) ==> t.outcome.Failed?
    decreases |cmds|
  {
    if |cmds| == 0 then rest
    else
      var r := RunAll(h, cmds[1..], rest);
      assert forall i :: 1 <= i < |cmds| ==> cmds[1..][i - 1] == cmds[i];
      assert Runs(cmds) == [Run(cmds[0])] + Runs(cmds[1..]);
      RunThen(h, cmds[0], r)
  }

  /** A failing command stops everything after it: only the commands up to the
      first failing one are issued, and nothing is written. */
  lemma {:induction false} RunAllStops(h: Host, cmds: seq<string>, rest: Trace, k: nat)
    requires k < |cmds| && h.remote.exitCode(cmds[k]) != 0
    requires forall i :: 0 <= i < k ==> h.remote.exitCode(cmds[i]) == 0
    ensures RunAll(h, cmds, rest) == Trace(Runs(cmds[..k + 1]), [], Failed(CommandFailed(cmds[k], h.remote.exitCode(cmds[k]))))
    decreases k
  {
    if k > 0 {
      RunAllStops(h, cmds[1..], rest, k - 1);
      assert cmds[1..][..k] == cmds[1..k + 1];
      assert Runs(cmds[..k + 1]) == [Run(cmds[0])] + Runs(cmds[1..][..k]);
    }
  }

  /** How far a `foreach` gets through configured entries: the names of the entries
      before the first one whose conversion fails, and that failure, if any. */
  datatype Converted = Converted(names: seq<string>, error: Option<Failure>)

  /** The name an entry is used under: a shared file through `parse`, a shared
      directory through `trim`. */
  function EntryName(isFile: bool, v: Value): Result<string>
  {
    if isFile then SharedFileName(v) else SharedDirName(v)
  }

  /** The name of each entry, or the error converting it. */
  function Entries(isFile: bool, items: seq<Value>): (r: seq<Result<string>>)
    ensures |r| == |items| && forall i :: 0 <= i < |items| ==> r[i] == EntryName(isFile, items[i])
  {
    seq(|items|, i requires 0 <= i < |items| => EntryName(isFile, items[i]))
  }

  /** Take converted entries in order, stopping at the first that failed. */
  function Convert(rs: seq<Result<string>>): (c: Converted)
    ensures |c.names| <= |rs|
    ensures forall i :: 0 <= i < |c.names| ==> rs[i] == Ok(c.names[i])
    ensures c.error.None? ==> |c.names| == |rs|
    ensures c.error.Some? ==> |c.names| < |rs| && rs[|c.names|] == Err(c.error.value)
    ensures c.error.None? <==> forall i :: 0 <= i < |rs| ==> rs[i].Ok?
    decreases |rs|
  {
    if |rs| == 0 then Converted([], None)
    else
      match rs[0]
      case Err(f) => Converted([], Some(f))
      case Ok(n) =>
        var rest := Convert(rs[1..]);
        assert forall i :: 1 <= i < |rs| ==> rs[1..][i - 1] == rs[i];
        Converted([n] + rest.names, rest.error)
  }

  /** The commands for one entry. */
  function EntryCommands(isFile: bool, s: Shell, shared: string, base: string, verbosity: string, name: string): (cmds: seq<string>)
    ensures |cmds| > 0 && cmds[|cmds| - 1] == LinkCommand(shared, base, name)
  {
    if isFile then FileCommands(s, shared, base, verbosity, name) else DirCommands(s, shared, base, verbosity, name)
  }

  /** The commands of a whole loop: each entry's commands in configuration order. */
  function LoopCommands(isFile: bool, s: Shell, shared: string, base: string, verbosity: string, names: seq<string>): (cmds: seq<string>)
    ensures forall i :: 0 <= i < |names| ==> LinkCommand(shared, base, names[i]) in cmds
    decreases |names|
  {
    if |names| == 0 then []
    else
      var first := EntryCommands(isFile, s, shared, base, verbosity, names[0]);
      var rest := LoopCommands(isFile, s, shared, base, verbosity, names[1..]);
      assert forall i :: 1 <= i < |names| ==> names[1..][i - 1] == names[i];
      assert first[|first| - 1] in first + rest;
      first + rest
  }

  /** A loop over configured entries: the commands for the entries it gets through,
      then its failure, or else the rest of the body. */
  function Loop(h: Host, isFile: bool, shared: string, base: string, verbosity: string, items: seq<Value>, next: Trace): Trace
  {
    var c := Convert(Entries(isFile, items));
    RunAll(h, LoopCommands(isFile, h.remote, shared, base, verbosity, c.names),
      if c.error.Some? then Fail(c.error.value) else next)
  }

  /** Body of `migration:deploy:shared`; `debug` is whether the console runs at
      debug verbosity, which makes the copies verbose. */
  function DeployShared(vars: Vars, h: Host, debug: bool): (t: Trace)
    ensures Get(vars, "deploy_path").Err? ==> t == Fail(Get(vars, "deploy_path").error)
    ensures Get(vars, "deploy_path").Ok? && Get(vars, "shared_dirs").Err? ==> t == Fail(Get(vars, "shared_dirs").error)
  {
    match Get(vars, "deploy_path")
    case Err(f) => Fail(f)
    case Ok(deployPath) =>
      var shared := SharedPath(ToStr(deployPath));
      var base := ReleaseBase(h.remote, ToStr(deployPath));
      var verbosity := if debug then "v" else "";
      match Get(vars, "shared_dirs")
      case Err(f) => Fail(f)
      case Ok(dirs) =>
        Loop(h, false, shared, base, verbosity, ForeachValues(dirs), SharedFiles(vars, h, shared, base, verbosity))
  }

  /** The shared-files part of `migration:deploy:shared`. */
  function SharedFiles(vars: Vars, h: Host, shared: string, base: string, verbosity: string): Trace
  {
    match Get(vars, "shared_files")
    case Err(f) => Fail(f)
    case Ok(files) => Loop(h, true, shared, base, verbosity, ForeachValues(files), Finish())
  }

  lemma RunsHas(cmds: seq<string>, c: string)
    requires c in cmds
    ensures Run(c) in Runs(cmds)
  {
    var k :| 0 <= k < |cmds| && cmds[k] == c;
    assert Runs(cmds)[k] == Run(c);
  }

  /** A loop whose entries all convert, on a host where every command succeeds,
      links every entry and then continues with the rest of the body. */
  lemma LoopLinksAll(h: Host, isFile: bool, shared: string, base: string, verbosity: string, items: seq<Value>, next: Trace)
    requires Reliable(h.remote)
    requires forall i :: 0 <= i < |items| ==> EntryName(isFile, items[i]).Ok?
    ensures var t := Loop(h, isFile, shared, base, verbosity, items, next);
      && t.outcome == next.outcome
      && (forall e :: e in next.effects ==> e in t.effects)
      && forall i :: 0 <= i < |items| ==> Run(LinkCommand(shared, base, EntryName(isFile, items[i]).value)) in t.effects
  {
    var c := Convert(Entries(isFile, items));
    var cmds := LoopCommands(isFile, h.remote, shared, base, verbosity, c.names);
    assert c.error.None?;
    forall i | 0 <= i < |items|
      ensures Run(LinkCommand(shared, base, EntryName(isFile, items[i]).value)) in Runs(cmds)
    {
      assert EntryName(isFile, items[i]) == Ok(c.names[i]);
      RunsHas(cmds, LinkCommand(shared, base, c.names[i]));
    }
  }

  /** With every command succeeding and every entry usable, each shared directory
      and each shared file ends up linked into the release base. */
  lemma DeploySharedLinksEverything(vars: Vars, h: Host, debug: bool)
    requires Reliable(h.remote)
    requires Get(vars, "deploy_path").Ok? && Get(vars, "shared_dirs").Ok? && Get(vars, "shared_files").Ok?
    requires var dirs := ForeachValues(Get(vars, "shared_dirs").value);
      forall i :: 0 <= i < |dirs| ==> !dirs[i].Arr?
    requires var files := ForeachValues(Get(vars, "shared_files").value);
      forall i :: 0 <= i < |files| ==> SharedFileName(files[i]).Ok?
    ensures var deployPath := ToStr(Get(vars, "deploy_path").value);
      var shared := SharedPath(deployPath);
      var base := ReleaseBase(h.remote, deployPath);
      var dirs := ForeachValues(Get(vars, "shared_dirs").value);
      var files := ForeachValues(Get(vars, "shared_files").value);
      var t := DeployShared(vars, h, debug);
      && t.outcome == Completed
      && (forall i :: 0 <= i < |dirs| ==> Run(LinkCommand(shared, base, SharedDirName(dirs[i]).value)) in t.effects)
      && (forall i :: 0 <= i < |files| ==> Run(LinkCommand(shared, base, SharedFileName(files[i]).value)) in t.effects)
  {
    var deployPath := ToStr(Get(vars, "deploy_path").value);
    var shared := SharedPath(deployPath);
    var base := ReleaseBase(h.remote, deployPath);
    var verbosity := if debug then "v" else "";
    var dirs := ForeachValues(Get(vars, "shared_dirs").value);
    var files := ForeachValues(Get(vars, "shared_files").value);
    var next := SharedFiles(vars, h, shared, base, verbosity);
    assert next == Loop(h, true, shared, base, verbosity, files, Finish());
    LoopLinksAll(h, true, shared, base, verbosity, files, Finish());
    assert DeployShared(vars, h, debug) == Loop(h, false, shared, base, verbosity, dirs, next);
    LoopLinksAll(h, false, shared, base, verbosity, dirs, next);
  }

  // ---------------------------------------------------------------- migration:shared:dry-run

  function DryRunMoveLine(shared: string): string
  {
    "➡ [Dry Run] Would execute: mv " + shared + "/src/* " + shared + "/ && rmdir " + shared + "/src"
  }

  const DryRunSrcHeader := "📂 [Dry Run] Contents of shared/src:"
  const DryRunAfterHeader := "📂 [Dry Run] After move, shared contents would be:"
  const DryRunInvokeLine := "⚙️ [Dry Run] Would invoke migration:deploy:shared to apply symlinks (dry run)"

  function DryRunLinkLine(shared: string, base: string, name: string): string
  {
    "[Dry Run] {{bin/symlink}} " + shared + "/" + name + " " + base + "/" + name
  }

  /** The preview lines for some names: each is the link command
      `migration:deploy:shared` runs for that name, marked as a dry run. */
  function PreviewLines(shared: string, base: string, names: seq<string>): (lines: seq<string>)
    ensures |lines| == |names|
    ensures forall i :: 0 <= i < |names| ==> lines[i] == "[Dry Run] " + LinkCommand(shared, base, names[i])
  {
    seq(|names|, i requires 0 <= i < |names| => DryRunLinkLine(shared, base, names[i]))
  }

  /** The shared files as the dry run writes them: only concatenated, so any value
      converts to a string. */
  function FileStrings(items: seq<Value>): (r: seq<string>)
    ensures |r| == |items| && forall i :: 0 <= i < |items| ==> r[i] == ToStr(items[i])
  {
    seq(|items|, i requires 0 <= i < |items| => ToStr(items[i]))
  }

  /** Body of `migration:shared:dry-run`. */
  function DryRun(vars: Vars, h: Host): (t: Trace)
    ensures Get(vars, "deploy_path").Err? ==> t == Fail(Get(vars, "deploy_path").error)
    ensures Get(vars, "deploy_path").Ok? ==>
      var shared := SharedPath(ToStr(Get(vars, "deploy_path").value));
      forall e :: e in t.effects ==> e == Run(ListCommand(shared + "/src")) || e == Run(ListCommand(shared))
  {
    match Get(vars, "deploy_path")
    case Err(f) => Fail(f)
    case Ok(deployPath) =>
      var shared := SharedPath(ToStr(deployPath));
      Say(DryRunSrcHeader, RunThen(h, ListCommand(shared + "/src"),
      Say(h.remote.stdout(ListCommand(shared + "/src")), Say(DryRunMoveLine(shared),
        DryRunAfterMove(vars, h, shared, ToStr(deployPath))))))
  }

  /** The second half of the dry run: the listing after the move, then the links. */
  function DryRunAfterMove(vars: Vars, h: Host, shared: string, deployPath: string): (t: Trace)
    ensures forall e :: e in t.effects ==> e == Run(ListCommand(shared))
  {
    Say(DryRunAfterHeader, RunThen(h, ListCommand(shared),
    Say(h.remote.stdout(ListCommand(shared)), Say(DryRunInvokeLine,
      DryRunLinks(shared, ReleaseBase(h.remote, deployPath), Get(vars, "shared_dirs"), Get(vars, "shared_files"))))))
  }

  /** The link previews from the two configured lists as `get` returned them:
      directories, then files. A directory that is an array stops the task with
      the TypeError of `trim`. */
  function DryRunLinks(shared: string, base: string, dirs: Result<Value>, files: Result<Value>): (t: Trace)
    ensures t.effects == []
    ensures dirs.Ok? && files.Ok? && Convert(Entries(false, ForeachValues(dirs.value))).error.None? ==>
      t.outcome == Completed
      && t.log == PreviewLines(shared, base, Convert(Entries(false, ForeachValues(dirs.value))).names)
                  + PreviewLines(shared, base, FileStrings(ForeachValues(files.value)))
  {
    match dirs
    case Err(f) => Fail(f)
    case Ok(ds) =>
      var c := Convert(Entries(false, ForeachValues(ds)));
      var lines := PreviewLines(shared, base, c.names);
      if c.error.Some? then Trace([], lines, Failed(c.error.value))
      else
        match files
        case Err(f) => Trace([], lines, Failed(f))
        case Ok(fs) => Trace([], lines + PreviewLines(shared, base, FileStrings(ForeachValues(fs))), Completed)
  }

  /** The first half of the dry run's log and effects, given the second half. */
  lemma DryRunLog(vars: Vars, h: Host)
    requires Get(vars, "deploy_path").Ok?
    requires h.remote.exitCode(ListCommand(SharedPath(ToStr(Get(vars, "deploy_path").value)) + "/src")) == 0
    ensures var deployPath := ToStr(Get(vars, "deploy_path").value);
      var shared := SharedPath(deployPath);
      var after := DryRunAfterMove(vars, h, shared, deployPath);
      var t := DryRun(vars, h);
      && t.log == [DryRunSrcHeader, h.remote.stdout(ListCommand(shared + "/src")), DryRunMoveLine(shared)] + after.log
      && t.effects == [Run(ListCommand(shared + "/src"))] + after.effects
      && t.outcome == after.outcome
  {
    var deployPath := ToStr(Get(vars, "deploy_path").value);
    var shared := SharedPath(deployPath);
    var after := DryRunAfterMove(vars, h, shared, deployPath);
    var y2 := Say(DryRunMoveLine(shared), after);
    var y1 := Say(h.remote.stdout(ListCommand(shared + "/src")), y2);
    var x := RunThen(h, ListCommand(shared + "/src"), y1);
    assert x == Emit(Run(ListCommand(shared + "/src")), y1);
    assert DryRun(vars, h) == Say(DryRunSrcHeader, x);
    ConsLog3(DryRunSrcHeader, h.remote.stdout(ListCommand(shared + "/src")), DryRunMoveLine(shared), after.log);
  }

  /** The second half of the dry run's log and effects, given the link previews. */
  lemma DryRunAfterMoveLog(vars: Vars, h: Host, shared: string, deployPath: string)
    requires h.remote.exitCode(ListCommand(shared)) == 0
    ensures var links := DryRunLinks(shared, ReleaseBase(h.remote, deployPath), Get(vars, "shared_dirs"), Get(vars, "shared_files"));
      var t := DryRunAfterMove(vars, h, shared, deployPath);
      && t.log == [DryRunAfterHeader, h.remote.stdout(ListCommand(shared)), DryRunInvokeLine] + links.log
      && t.effects == [Run(ListCommand(shared))] + links.effects
      && t.outcome == links.outcome
  {
    var links := DryRunLinks(shared, ReleaseBase(h.remote, deployPath), Get(vars, "shared_dirs"), Get(vars, "shared_files"));
    var y2 := Say(DryRunInvokeLine, links);
    var y1 := Say(h.remote.stdout(ListCommand(shared)), y2);
    var x := RunThen(h, ListCommand(shared), y1);
    assert x == Emit(Run(ListCommand(shared)), y1);
    ConsLog3(DryRunAfterHeader, h.remote.stdout(ListCommand(shared)), DryRunInvokeLine, links.log);
  }

  lemma ConcatLog6<T>(a: T, b: T, c: T, d: T, e: T, f: T, rest: seq<T>)
    ensures [a, b, c] + ([d, e, f] + rest) == [a, b, c, d, e, f] + rest
  {
  }

  lemma ConsLog3<T>(a: T, b: T, c: T, rest: seq<T>)
    ensures [a] + ([b] + ([c] + rest)) == [a, b, c] + rest
  {
  }

  /** With both listings succeeding, the dry run writes the six lines about the
      move and then the link previews, and issues only the two listings. */
  lemma DryRunShape(vars: Vars, h: Host)
    requires Get(vars, "deploy_path").Ok?
    requires var shared := SharedPath(ToStr(Get(vars, "deploy_path").value));
      h.remote.exitCode(ListCommand(shared + "/src")) == 0 && h.remote.exitCode(ListCommand(shared)) == 0
    ensures var deployPath := ToStr(Get(vars, "deploy_path").value);
      var shared := SharedPath(deployPath);
      var links := DryRunLinks(shared, ReleaseBase(h.remote, deployPath), Get(vars, "shared_dirs"), Get(vars, "shared_files"));
      var t := DryRun(vars, h);
      && t.outcome == links.outcome
      && t.effects == [Run(ListCommand(shared + "/src")), Run(ListCommand(shared))]
      && t.log == [DryRunSrcHeader, h.remote.stdout(ListCommand(shared + "/src")), DryRunMoveLine(shared),
                   DryRunAfterHeader, h.remote.stdout(ListCommand(shared)), DryRunInvokeLine] + links.log
  {
    var deployPath := ToStr(Get(vars, "deploy_path").value);
    var shared := SharedPath(deployPath);
    var links := DryRunLinks(shared, ReleaseBase(h.remote, deployPath), Get(vars, "shared_dirs"), Get(vars, "shared_files"));
    DryRunAfterMoveLog(vars, h, shared, deployPath);
    DryRunLog(vars, h);
    ConcatLog6(DryRunSrcHeader, h.remote.stdout(ListCommand(shared + "/src")), DryRunMoveLine(shared),
      DryRunAfterHeader, h.remote.stdout(ListCommand(shared)), DryRunInvokeLine, links.log);
  }

  /** With the listings succeeding and no directory entry an array, the dry run
      writes the six lines about the move, then one preview per shared directory and
      one per shared file in configuration order (each the link
      `migration:deploy:shared` would make, marked as a dry run), and completes. */
  lemma DryRunPreviewsLinks(vars: Vars, h: Host)
    requires Get(vars, "deploy_path").Ok? && Get(vars, "shared_dirs").Ok? && Get(vars, "shared_files").Ok?
    requires var shared := SharedPath(ToStr(Get(vars, "deploy_path").value));
      h.remote.exitCode(ListCommand(shared + "/src")) == 0 && h.remote.exitCode(ListCommand(shared)) == 0
    requires var dirs := ForeachValues(Get(vars, "shared_dirs").value);
      forall i :: 0 <= i < |dirs| ==> !dirs[i].Arr?
    ensures var deployPath := ToStr(Get(vars, "deploy_path").value);
      var shared := SharedPath(deployPath);
      var base := ReleaseBase(h.remote, deployPath);
      var dirs := Convert(Entries(false, ForeachValues(Get(vars, "shared_dirs").value)));
      var files := FileStrings(ForeachValues(Get(vars, "shared_files").value));
      var t := DryRun(vars, h);
      && t.outcome == Completed
      && dirs.error.None?
      && t.log[6..] == PreviewLines(shared, base, dirs.names) + PreviewLines(shared, base, files)
  {
    var deployPath := ToStr(Get(vars, "deploy_path").value);
    var dirs := ForeachValues(Get(vars, "shared_dirs").value);
    var c := Convert(Entries(false, dirs));
    assert c.error.None? by {
      assert forall i :: 0 <= i < |dirs| ==> EntryName(false, dirs[i]).Ok?;
    }
    DryRunShape(vars, h);
  }
}

=== FILE: php.dfy ===
/** PHP values and the PHP built-ins the recipe's task bodies rely on:
    truthiness, string conversion, `trim`, `explode`, `implode`, `dirname`,
    `escapeshellarg`, `filter_var(..., FILTER_VALIDATE_BOOLEAN)` and
    `array_is_list`. */
module Php {

  datatype Option<+T> = None | Some(value: T)

  /** An array key: a PHP array is an ordered map keyed by integers or strings. */
  datatype Key = IntKey(i: int) | StrKey(s: string)

  /** A PHP value as configuration variables hold it (floats and objects are not modelled).
      An array is the ordered sequence of its entries. */
  datatype Value =
    | Null
    | Bool(b: bool)
    | Int(i: int)
    | Str(s: string)
    | Arr(entries: seq<(Key, Value)>)

  /** The PHP list `[x0, x1, ...]`. */
  function List(items: seq<Value>): (v: Value)
    ensures v.Arr? && |v.entries| == |items|
    ensures forall i :: 0 <= i < |items| ==> v.entries[i] == (IntKey(i), items[i])
  {
    Arr(seq(|items|, i requires 0 <= i < |items| => (IntKey(i), items[i])))
  }

  /** The PHP list of strings `['a', 'b', ...]`. */
  function StrList(items: seq<string>): Value
  {
    List(seq(|items|, i requires 0 <= i < |items| => Str(items[i])))
  }

  /** PHP's boolean conversion (what `if (...)` and `!` apply). */
  predicate Truthy(v: Value)
  {
    match v
    case Null => false
    case Bool(b) => b
    case Int(i) => i != 0
    case Str(s) => s != "" && s != "0"
    case Arr(es) => |es| > 0
  }

  function DigitChar(d: nat): char
    requires d < 10
  {
    "0123456789"[d]
  }

  predicate IsDigit(c: char)
  {
    '0' <= c <= '9'
  }

  /** Decimal rendering of a natural number. */
  function NatToString(n: nat): (s: string)
    ensures |s| > 0
    ensures forall k :: 0 <= k < |s| ==> IsDigit(s[k])
  {
    if n < 10 then [DigitChar(n)] else NatToString(n / 10) + [DigitChar(n % 10)]
  }

  function IntToString(i: int): string
  {
    if i < 0 then "-" + NatToString(-i) else NatToString(i)
  }

  /** PHP's string conversion, as string interpolation, `.` and `(string)` apply it.
      An array converts to "Array" (PHP also warns). */
  function ToStr(v: Value): string
  {
    match v
    case Null => ""
    case Bool(b) => if b then "1" else ""
    case Int(i) => IntToString(i)
    case Str(s) => s
    case Arr(_) => "Array"
  }

  function KeyToStr(k: Key): string
  {
    match k
    case IntKey(i) => IntToString(i)
    case StrKey(s) => s
  }

  /** `array_is_list`: the keys are exactly 0, 1, ..., n-1 in this order. */
  predicate IsList(es: seq<(Key, Value)>)
  {
    forall i :: 0 <= i < |es| ==> es[i].0 == IntKey(i)
  }

  /** `array_keys`, each key as string concatenation renders it. */
  function KeyStrings(es: seq<(Key, Value)>): (r: seq<string>)
    ensures |r| == |es|
    ensures forall i :: 0 <= i < |es| ==> r[i] == KeyToStr(es[i].0)
  {
    seq(|es|, i requires 0 <= i < |es| => KeyToStr(es[i].0))
  }

  /** `array_values`, each value as string concatenation renders it. */
  function ValueStrings(es: seq<(Key, Value)>): (r: seq<string>)
    ensures |r| == |es|
    ensures forall i :: 0 <= i < |es| ==> r[i] == ToStr(es[i].1)
  {
    seq(|es|, i requires 0 <= i < |es| => ToStr(es[i].1))
  }

  /** PHP string offsets are bytes; the model uses characters and only ASCII is compared. */
  function Lower(s: string): (r: string)
    ensures |r| == |s|
  {
    seq(|s|, i requires 0 <= i < |s| => if 'A' <= s[i] <= 'Z' then (s[i] as int + 32) as char else s[i])
  }

  // ---------------------------------------------------------------- trim

  /** The characters `trim` strips when called without a character mask. */
  const WhiteSpace: set<char> := {' ', '\t', '\n', '\r', '\0', '\U{B}'}

  function TrimLeft(s: string, cs: set<char>): (r: string)
    ensures |r| <= |s| && r == s[|s| - |r|..]
    ensures forall k :: 0 <= k < |s| - |r| ==> s[k] in cs
    ensures |r| > 0 ==> r[0] !in cs
    decreases |s|
  {
    if |s| > 0 && s[0] in cs then TrimLeft(s[1..], cs) else s
  }

  function TrimRight(s: string, cs: set<char>): (r: string)
    ensures |r| <= |s| && r == s[..|r|]
    ensures forall k :: |r| <= k < |s| ==> s[k] in cs
    ensures |r| > 0 ==> r[|r| - 1] !in cs
    decreases |s|
  {
    if |s| > 0 && s[|s| - 1] in cs then TrimRight(s[..|s| - 1], cs) else s
  }

  /** `trim($s, $mask)`: strips mask characters from both ends. */
  function TrimChars(s: string, cs: set<char>): string
  {
    TrimRight(TrimLeft(s, cs), cs)
  }

  /** `trim($s)`. */
  function Trim(s: string): string
  {
    TrimChars(s, WhiteSpace)
  }

  /** What `trim` returns is the middle of its argument: only mask characters were
      removed, at both ends, and none is left at either end. */
  lemma TrimCharsSpec(s: string, cs: set<char>)
    ensures var r := TrimChars(s, cs); var i := |s| - |TrimLeft(s, cs)|;
      i + |r| <= |s| && r == s[i..i + |r|]
        && (forall k :: 0 <= k < i ==> s[k] in cs)
        && (forall k :: i + |r| <= k < |s| ==> s[k] in cs)
        && (|r| > 0 ==> r[0] !in cs && r[|r| - 1] !in cs)
  {
    TrimSlice(s, cs, TrimLeft(s, cs), TrimChars(s, cs));
    TrimEnds(s, cs);
  }

  /** The trimmed string `r` sits right after the left-trimmed part `l`, and only
      mask characters follow it. */
  lemma TrimSlice(s: string, cs: set<char>, l: string, r: string)
    requires l == TrimLeft(s, cs) && r == TrimChars(s, cs)
    ensures var i := |s| - |l|;
      i + |r| <= |s| && r == s[i..i + |r|] && forall k :: i + |r| <= k < |s| ==> s[k] in cs
  {
    SuffixPrefix(s, l, r, cs);
  }

  lemma TrimEnds(s: string, cs: set<char>)
    ensures var r := TrimChars(s, cs); |r| > 0 ==> r[0] !in cs && r[|r| - 1] !in cs
  {
    var l := TrimLeft(s, cs);
    var r := TrimRight(l, cs);
    if |r| > 0 {
      assert r[0] == l[0];
    }
  }

  /** A prefix `r` of a suffix `l` of `s` is a slice of `s`, and whatever follows `r`
      in `l` follows it in `s`. */
  lemma SuffixPrefix(s: string, l: string, r: string, cs: set<char>)
    requires |l| <= |s| && l == s[|s| - |l|..]
    requires |r| <= |l| && r == l[..|r|]
    requires forall k :: |r| <= k < |l| ==> l[k] in cs
    ensures var i := |s| - |l|;
      r == s[i..i + |r|] && forall k :: i + |r| <= k < |s| ==> s[k] in cs
  {
    var i := |s| - |l|;
    SliceOfSuffix(s, i, |r|);
    forall k | i + |r| <= k < |s|
      ensures s[k] in cs
    {
      assert s[k] == l[k - i];
    }
  }

  lemma SliceOfSuffix(s: string, i: nat, n: nat)
    requires i + n <= |s|
    ensures s[i..][..n] == s[i..i + n]
  {
  }

  /** A string with no mask character at either end is left as it is. */
  lemma TrimUntouched(s: string, cs: set<char>)
    requires |s| > 0 && s[0] !in cs && s[|s| - 1] !in cs
    ensures TrimChars(s, cs) == s
  {
    assert TrimLeft(s, cs) == s;
  }

  /** Left-trimming a string followed by a mask character: the character stays
      unless the whole string was trimmed away. */
  lemma {:induction false} TrimLeftAppend(s: string, cs: set<char>, b: char)
    requires b in cs
    ensures TrimLeft(s + [b], cs) == if TrimLeft(s, cs) == "" then "" else TrimLeft(s, cs) + [b]
    decreases |s|
  {
    if |s| == 0 {
      assert [b][1..] == [];
      assert TrimLeft([b], cs) == TrimLeft([], cs);
    } else if s[0] in cs {
      assert (s + [b])[1..] == s[1..] + [b];
      TrimLeftAppend(s[1..], cs, b);
    } else {
      assert (s + [b])[0] == s[0];
    }
  }

  /** A mask character after a string does not change what trimming it gives. */
  lemma TrimDropsTrailing(s: string, cs: set<char>, b: char)
    requires b in cs
    ensures TrimChars(s + [b], cs) == TrimChars(s, cs)
  {
    TrimLeftAppend(s, cs, b);
    var l := TrimLeft(s, cs);
    if l != "" {
      assert (l + [b])[..|l|] == l;
      assert TrimRight(l + [b], cs) == TrimRight(l, cs);
    } else {
      assert TrimRight("", cs) == "";
    }
  }

  /** Mask characters around a string do not change what trimming it gives. */
  lemma TrimDropsPadding(s: string, cs: set<char>, a: char, b: char)
    requires a in cs && b in cs
    ensures TrimChars([a] + s + [b], cs) == TrimChars(s, cs)
  {
    var p := [a] + s + [b];
    assert p[1..] == s + [b];
    assert TrimLeft(p, cs) == TrimLeft(s + [b], cs);
    TrimDropsTrailing(s, cs, b);
  }

  /** Trimming a string that ends in a character outside the mask keeps that
      character last. */
  lemma TrimKeepsLast(s: string, cs: set<char>, c: char)
    requires c !in cs
    ensures var r := TrimChars(s + [c], cs); |r| > 0 && r[|r| - 1] == c
  {
    var w := s + [c];
    var l := TrimLeft(w, cs);
    assert |l| > 0 by {
      assert w[|w| - 1] == c;
    }
    assert l[|l| - 1] == c by { assert l == w[|w| - |l|..]; }
    assert TrimRight(l, cs) == l;
  }

  /** Trimming the empty string gives the empty string. */
  lemma TrimEmpty()
    ensures Trim("") == ""
  {
    assert TrimLeft("", WhiteSpace) == "";
  }

  /** Trimming twice is trimming once. */
  lemma TrimCharsIdempotent(s: string, cs: set<char>)
    ensures TrimChars(TrimChars(s, cs), cs) == TrimChars(s, cs)
  {
    var r := TrimChars(s, cs);
    if |r| > 0 {
      assert TrimLeft(r, cs) == r;
      assert TrimRight(r, cs) == r;
    }
  }

  // ---------------------------------------------------------------- explode / implode

  /** `explode($sep, $s)` for a one-character separator. */
  function Split(s: string, sep: char): (r: seq<string>)
    ensures |r| >= 1
    decreases |s|
  {
    if |s| == 0 then [""]
    else
      var rest := Split(s[1..], sep);
      if s[0] == sep then [""] + rest else [[s[0]] + rest[0]] + rest[1..]
  }

  /** `implode($sep, $parts)`. */
  function Implode(sep: string, parts: seq<string>): string
    decreases |parts|
  {
    if |parts| == 0 then ""
    else if |parts| == 1 then parts[0]
    else parts[0] + sep + Implode(sep, parts[1..])
  }

  /** Splitting yields a single piece exactly when the separator does not occur,
      and that piece is then the whole string. */
  lemma {:induction false} SplitSingle(s: string, sep: char)
    ensures |Split(s, sep)| == 1 <==> sep !in s
    ensures sep !in s ==> Split(s, sep) == [s]
    decreases |s|
  {
    if |s| > 0 {
      SplitSingle(s[1..], sep);
      if s[0] != sep {
        assert sep in s[1..] ==> sep in s;
        assert sep in s && s[0] != sep ==> sep in s[1..] by {
          if sep in s {
            var k :| 0 <= k < |s| && s[k] == sep;
            assert s[1..][k - 1] == sep;
          }
        }
        if sep !in s {
          assert [s[0]] + s[1..] == s;
        }
      }
    }
  }

  /** Splitting at a separator occurrence splits the pieces. */
  lemma {:induction false} SplitAppend(a: string, sep: char, b: string)
    ensures Split(a + [sep] + b, sep) == Split(a, sep) + Split(b, sep)
    decreases |a|
  {
    if |a| == 0 {
      assert a + [sep] + b == [sep] + b;
      SplitCons(sep, b, sep);
    } else {
      var t := a[1..] + [sep] + b;
      assert a + [sep] + b == [a[0]] + t;
      assert a == [a[0]] + a[1..];
      SplitAppend(a[1..], sep, b);
      SplitCons(a[0], t, sep);
      SplitCons(a[0], a[1..], sep);
      SplitConsAppend(a[0], sep, Split(a[1..], sep), Split(b, sep));
    }
  }

  /** Splitting a string that starts with `c`. */
  lemma SplitCons(c: char, t: string, sep: char)
    ensures Split([c] + t, sep) == SplitStep(c, sep, Split(t, sep))
  {
    assert ([c] + t)[0] == c && ([c] + t)[1..] == t;
  }

  /** The pieces of `[c] + t` from the pieces `rest` of `t`. */
  function SplitStep(c: char, sep: char, rest: seq<string>): seq<string>
    requires |rest| >= 1
  {
    if c == sep then [""] + rest else [[c] + rest[0]] + rest[1..]
  }

  lemma SplitConsAppend(c: char, sep: char, ra: seq<string>, rb: seq<string>)
    requires |ra| >= 1
    ensures SplitStep(c, sep, ra + rb) == SplitStep(c, sep, ra) + rb
  {
    if c != sep {
      assert (ra + rb)[0] == ra[0];
      assert (ra + rb)[1..] == ra[1..] + rb;
    }
  }

  /** `explode` undoes `implode` when no piece holds the separator. */
  lemma {:induction false} SplitImplode(parts: seq<string>, sep: char)
    requires |parts| >= 1
    requires forall i :: 0 <= i < |parts| ==> sep !in parts[i]
    ensures Split(Implode([sep], parts), sep) == parts
    decreases |parts|
  {
    SplitSingle(parts[0], sep);
    if |parts| > 1 {
      SplitImplode(parts[1..], sep);
      SplitAppend(parts[0], sep, Implode([sep], parts[1..]));
      assert parts == [parts[0]] + parts[1..];
    }
  }

  // ---------------------------------------------------------------- shell words

  /** The non-empty elements of a sequence of strings, in order. */
  function NonEmpty(ss: seq<string>): (r: seq<string>)
    ensures forall k :: 0 <= k < |r| ==> r[k] != ""
    decreases |ss|
  {
    if |ss| == 0 then [] else (if ss[0] == "" then [] else [ss[0]]) + NonEmpty(ss[1..])
  }

  lemma {:induction false} NonEmptyAppend(a: seq<string>, b: seq<string>)
    ensures NonEmpty(a + b) == NonEmpty(a) + NonEmpty(b)
    decreases |a|
  {
    if |a| > 0 {
      NonEmptyAppend(a[1..], b);
      assert (a + b)[1..] == a[1..] + b;
    } else {
      assert a + b == b;
    }
  }

  /** The words a POSIX shell splits an unquoted command into at spaces. */
  function Words(s: string): seq<string>
  {
    NonEmpty(Split(s, ' '))
  }

  lemma WordsJoin(a: string, b: string)
    ensures Words(a + " " + b) == Words(a) + Words(b)
  {
    SplitAppend(a, ' ', b);
    NonEmptyAppend(Split(a, ' '), Split(b, ' '));
  }

  /** A non-empty string without spaces is a single word. */
  lemma WordsOfWord(w: string)
    requires w != "" && ' ' !in w
    ensures Words(w) == [w]
  {
    SplitSingle(w, ' ');
    assert NonEmpty([w]) == [w] + NonEmpty([]);
  }

  /** The concatenation of a sequence of sequences. */
  function Flatten<T>(xss: seq<seq<T>>): seq<T>
    decreases |xss|
  {
    if |xss| == 0 then [] else xss[0] + Flatten(xss[1..])
  }

  lemma {:induction false} FlattenAppend<T>(a: seq<seq<T>>, b: seq<seq<T>>)
    ensures Flatten(a + b) == Flatten(a) + Flatten(b)
    decreases |a|
  {
    if |a| > 0 {
      FlattenAppend(a[1..], b);
      assert (a + b)[1..] == a[1..] + b;
    } else {
      assert a + b == b;
    }
  }

  /** The words of each part, for an implode with a single space. */
  function WordsOfEach(parts: seq<string>): (r: seq<seq<string>>)
    ensures |r| == |parts|
    ensures forall i :: 0 <= i < |parts| ==> r[i] == Words(parts[i])
  {
    seq(|parts|, i requires 0 <= i < |parts| => Words(parts[i]))
  }

  /** Word-splitting a space-joined command yields the words of its parts, in order. */
  lemma {:induction false} WordsImplode(parts: seq<string>)
    ensures Words(Implode(" ", parts)) == Flatten(WordsOfEach(parts))
    decreases |parts|
  {
    if |parts| == 0 {
      assert Split("", ' ') == [""];
    } else if |parts| == 1 {
      assert WordsOfEach(parts) == [Words(parts[0])];
    } else {
      WordsImplode(parts[1..]);
      WordsJoin(parts[0], Implode(" ", parts[1..]));
      assert WordsOfEach(parts) == [Words(parts[0])] + WordsOfEach(parts[1..]);
    }
  }

  lemma {:induction false} ImplodeAppend(sep: string, a: seq<string>, b: seq<string>)
    requires |a| > 0 && |b| > 0
    ensures Implode(sep, a + b) == Implode(sep, a) + sep + Implode(sep, b)
    decreases |a|
  {
    if |a| == 1 {
      assert (a + b)[1..] == b;
    } else {
      ImplodeAppend(sep, a[1..], b);
      assert (a + b)[1..] == a[1..] + b;
    }
  }

  /** A non-empty string without spaces: one shell word. */
  predicate IsWord(w: string)
  {
    w != "" && ' ' !in w
  }

  /** Space-joining single words and splitting the result again gives the words back. */
  lemma {:induction false} WordsOfAtoms(parts: seq<string>)
    requires forall i :: 0 <= i < |parts| ==> IsWord(parts[i])
    ensures Words(Implode(" ", parts)) == parts
    decreases |parts|
  {
    if |parts| == 0 {
      assert Split("", ' ') == [""];
    } else if |parts| == 1 {
      WordsOfWord(parts[0]);
    } else {
      WordsOfAtoms(parts[1..]);
      WordsOfWord(parts[0]);
      WordsJoin(parts[0], Implode(" ", parts[1..]));
      assert parts == [parts[0]] + parts[1..];
    }
  }

  // ---------------------------------------------------------------- dirname

  /** The prefix of `s` that ends with its last `/` (empty if there is none). */
  function DropBase(s: string): (r: string)
    ensures |r| <= |s| && r == s[..|r|]
    ensures |r| > 0 ==> r[|r| - 1] == '/'
    ensures forall k :: |r| <= k < |s| ==> s[k] != '/'
    decreases |s|
  {
    if |s| > 0 && s[|s| - 1] != '/' then DropBase(s[..|s| - 1]) else s
  }

  /** PHP's `dirname` on a POSIX system: drop trailing slashes, the last component and
      the slashes before it; "." if there is no slash, "/" if only slashes remain. */
  function Dirname(path: string): string
  {
    if path == "" then ""
    else
      var t := TrimRight(path, {'/'});
      if t == "" then "/"
      else
        var u := DropBase(t);
        if u == "" then "."
        else
          var v := TrimRight(u, {'/'});
          if v == "" then "/" else v
  }

  /** A name without slashes has "." as its directory. */
  lemma DirnameOfBareName(name: string)
    requires name != "" && '/' !in name
    ensures Dirname(name) == "."
  {
    var t := TrimRight(name, {'/'});
    assert t == name;
    assert DropBase(t) == "";
  }

  lemma {:induction false} DropBaseAppend(dir: string, name: string)
    requires '/' !in name
    requires |dir| > 0 && dir[|dir| - 1] == '/'
    ensures DropBase(dir + name) == dir
    decreases |name|
  {
    if |name| > 0 {
      var s := dir + name;
      assert s[|s| - 1] == name[|name| - 1];
      assert s[..|s| - 1] == dir + name[..|name| - 1];
      DropBaseAppend(dir, name[..|name| - 1]);
    } else {
      assert dir + name == dir;
    }
  }

  /** `dirname` of `dir/name` is `dir` when `dir` has no trailing slash and `name`
      is a single path component. */
  lemma DirnameOfChild(dir: string, name: string)
    requires dir != "" && dir[|dir| - 1] != '/'
    requires name != "" && '/' !in name
    ensures Dirname(dir + "/" + name) == dir
  {
    var p := dir + "/" + name;
    assert p[|p| - 1] == name[|name| - 1];
    var t := TrimRight(p, {'/'});
    assert t == p;
    DropBaseAppend(dir + "/", name);
    var u := DropBase(t);
    assert u == dir + "/";
    assert u[..|u| - 1] == dir;
    assert TrimRight(u, {'/'}) == dir;
  }

  // ---------------------------------------------------------------- escapeshellarg

  function QuoteBody(s: string): string
    decreases |s|
  {
    if |s| == 0 then ""
    else (if s[0] == '\'' then "'\\''" else [s[0]]) + QuoteBody(s[1..])
  }

  /** `escapeshellarg` on a POSIX system: single quotes around the argument, each
      single quote inside written as `'\''`. */
  function EscapeShellArg(s: string): string
  {
    "'" + QuoteBody(s) + "'"
  }

  function Cons(c: char, r: Option<string>): Option<string>
  {
    match r
    case None => None
    case Some(s) => Some([c] + s)
  }

  /** The argument a POSIX shell reads from a word made of single-quoted runs,
      backslash-escaped characters and plain characters; None for an unterminated
      quote or a trailing backslash. */
  function ReadWord(w: string): Option<string>
    decreases |w|, 1
  {
    if |w| == 0 then Some("")
    else if w[0] == '\'' then ReadQuoted(w[1..])
    else if w[0] == '\\' then (if |w| >= 2 then Cons(w[1], ReadWord(w[2..])) else None)
    else Cons(w[0], ReadWord(w[1..]))
  }

  /** The rest of a word after an opening single quote. */
  function ReadQuoted(w: string): Option<string>
    decreases |w|, 0
  {
    if |w| == 0 then None
    else if w[0] == '\'' then ReadWord(w[1..])
    else Cons(w[0], ReadQuoted(w[1..]))
  }

  lemma {:induction false} ReadQuotedBody(s: string)
    ensures ReadQuoted(QuoteBody(s) + "'") == Some(s)
    decreases |s|
  {
    if |s| == 0 {
      assert QuoteBody(s) + "'" == "'";
      assert ReadQuoted("'") == ReadWord("");
    } else {
      ReadQuotedBody(s[1..]);
      var rest := QuoteBody(s[1..]) + "'";
      assert [s[0]] + s[1..] == s;
      if s[0] == '\'' {
        assert QuoteBody(s) + "'" == "'\\''" + rest;
        ReadEscapedQuote(rest);
      } else {
        assert QuoteBody(s) + "'" == [s[0]] + rest;
        ReadQuotedPlain(s[0], rest);
      }
    }
  }

  /** Inside quotes, `'\''` closes the quote, reads a quote and reopens. */
  lemma ReadEscapedQuote(rest: string)
    ensures ReadQuoted("'\\''" + rest) == Cons('\'', ReadQuoted(rest))
  {
    var w := "'\\''" + rest;
    assert w[1..] == "\\''" + rest;
    assert ReadQuoted(w) == ReadWord("\\''" + rest);
    assert ("\\''" + rest)[2..] == "'" + rest;
    assert ReadWord("\\''" + rest) == Cons('\'', ReadWord("'" + rest));
    assert ("'" + rest)[1..] == rest;
  }

  /** Inside quotes, any other character reads as itself. */
  lemma ReadQuotedPlain(c: char, rest: string)
    requires c != '\''
    ensures ReadQuoted([c] + rest) == Cons(c, ReadQuoted(rest))
  {
    assert ([c] + rest)[1..] == rest;
  }

  /** The shell reads back exactly the string `escapeshellarg` was given. */
  lemma EscapeShellArgRoundTrip(s: string)
    ensures ReadWord(EscapeShellArg(s)) == Some(s)
  {
    ReadQuotedBody(s);
    var w := EscapeShellArg(s);
    assert w[1..] == QuoteBody(s) + "'";
  }

  // ---------------------------------------------------------------- filter_var

  /** The characters `FILTER_VALIDATE_BOOLEAN` trims before it compares: those of
      `trim` except the NUL byte. */
  const FilterWhiteSpace: set<char> := {' ', '\t', '\n', '\r', '\U{B}'}

  /** `filter_var($v, FILTER_VALIDATE_BOOLEAN)` without flags: true for "1", "true",
      "on" and "yes" (any case, surrounding filter white space ignored), false
      otherwise. */
  predicate FilterBool(v: Value)
  {
    !v.Arr? && Lower(TrimChars(ToStr(v), FilterWhiteSpace)) in {"1", "true", "on", "yes"}
  }

  /** A boolean passes through the filter unchanged. */
  lemma FilterBoolOfBool(b: bool)
    ensures FilterBool(Bool(b)) == b
  {
    if b {
      assert ToStr(Bool(b)) == "1";
      assert TrimChars("1", FilterWhiteSpace) == "1" by { TrimUntouched("1", FilterWhiteSpace); }
      assert Lower("1") == "1";
    } else {
      assert ToStr(Bool(b)) == "";
      assert TrimChars("", FilterWhiteSpace) == "" by { assert TrimLeft("", FilterWhiteSpace) == ""; }
      assert Lower("") == "";
    }
  }

  /** Filter white space around a value's string does not change the answer. */
  lemma FilterBoolIgnoresPadding(s: string, a: char, b: char)
    requires a in FilterWhiteSpace && b in FilterWhiteSpace
    ensures FilterBool(Str([a] + s + [b])) == FilterBool(Str(s))
  {
    TrimDropsPadding(s, FilterWhiteSpace, a, b);
  }

  /** A trailing NUL byte makes any string false for the filter, although `trim`
      strips it: the filter does not count NUL as white space. */
  lemma FilterBoolKeepsNul(s: string)
    ensures !FilterBool(Str(s + ['\0']))
    ensures Trim(s + ['\0']) == Trim(s)
  {
    TrimKeepsLast(s, FilterWhiteSpace, '\0');
    var l := Lower(TrimChars(s + ['\0'], FilterWhiteSpace));
    assert l[|l| - 1] == '\0';
    assert l !in {"1", "true", "on", "yes"} by {
      assert ("1")[0] != '\0' && ("true")[3] != '\0' && ("on")[1] != '\0' && ("yes")[2] != '\0';
    }
    TrimDropsTrailing(s, WhiteSpace, '\0');
  }
}
